=== FILE: README.md ===
# Mayflower.NET migrator — a Dafny model

Mayflower.NET runs the `.sql` migration files of a directory against a SQL
Server database, in file-name order, and records each file it ran in a
bookkeeping table (`Migrations` by default), keyed by file name and by a hash of
the file. A file that was already run is skipped. A renamed file (same hash,
new name) only has its row renamed. A changed file is an error unless `--force`
is given, in which case it runs again. Files run either each in its own
transaction or all in one global transaction. Preview mode always uses the
global transaction. A file whose body starts with `-- no transaction --` runs
outside any transaction, and preview mode skips it.

This project models that core in Dafny:

- `orchestration.dfy` (module `Orchestration`) describes the orchestrator as
  pure transitions over an abstract database state:
  - begin and end of a migration, running a file's commands, renaming;
  - the per-file `Migrate` decision and the outstanding-migrations loop;
  - failure handling and the creation of the bookkeeping table.

  It also holds the theorems about that orchestrator.
- `migrator.dfy` (module `Runner`) is the `Migrator` class. Each of its methods
  updates a `Connection` object in place and is proved to perform exactly the
  transition of the matching function in `Orchestration`.
- `persistence.dfy` (module `Persistence`) covers the database connection:
  - a `Connection` class with transaction state, the files of the pending
    global transaction, the bookkeeping rows and the log of executed batches;
  - the pure transitions it performs, and the uniqueness invariants of the
    bookkeeping table.
- `migration.dfy`, `batches.dfy` and `hashing.dfy` cover reading a migration
  file:
  - splitting it into batches on `GO` lines;
  - the no-transaction header and the auto-run prefixes;
  - line-ending normalisation, UTF-16 encoding and lower-case hex encoding of
    the digest.
- `history.dfy` is the index of migrations already run (`AlreadyRan`).
- `options.dfy` covers option validation and the derived connection string and
  table name.
- `cli.dfy` covers the command line: the argument parser, the mapping to
  options, and `Execute`'s dispatch.
- `logger.dfy` covers the root logger's verbosity filter, nested and buffered
  loggers with their TeamCity blocks, and TeamCity escaping.
- `database.dfy` and `connection_info.dfy` cover the two connection factories.
- `text.dfy`, `types.dfy` and `wrappers.dfy` are shared string functions and
  plain types. A C# `null` is `None`, and an exception is a `Failure`/`Fail`
  value.

Several results hold of the code as written, not of what it evidently intends:

- The command-line parser never skips the token after a value option. That
  token is then read as an argument of its own, so every value option ends in
  an error. As a result, `Execute` succeeds only for no arguments, `--help` or
  `--version`, and never touches the database (`Cli.ExecuteOnlyHelpOrVersion`).
- `BeginMigration(false)` does not commit a pending global transaction.
- On success, a pending transaction is committed even in preview mode, although
  the help text says preview rolls the migrations back
  (`Orchestration.SuccessKeepsLoopRows`, `Orchestration.PreviewKeepsRecordWitness`).
  Only a failed preview run leaves the bookkeeping rows as they were
  (`Orchestration.PreviewFailureRestoresRows`).
- The root logger drops a message whose level is below the maximum verbosity.
  A `Debug` maximum, described as the highest level of detail, therefore writes
  only `Debug` messages, and `Minimal` writes everything
  (`Logging.FilterThresholds`).
- The `Migration` constructor assigns `FullFileName` to itself, so the path is
  lost.
- The table-name pattern `^[a-zA-Z]+$` also accepts a name followed by one final
  line feed.
- With `--help`, the help text is written even when `--version` is present.

## Model

| member | source | states |
|---|---|---|
| Types.VerbosityOrder | Mayflower/Verbosity.cs:11-23 | The levels are ordered Minimal < Normal < Detailed < Debug, with values 5, 10, 15 and 20. |
| Orchestration.BeginMigration | Mayflower/Migrator.cs:267-286 | With a transaction wanted, one is pending afterwards, and an already pending one is kept as it is. Without one, nothing changes: a pending global transaction is not committed. Rows, executed batches and the table flag never change. |
| Orchestration.EndMigration | Mayflower/Migrator.cs:288-297 | With a transaction pending: global mode appends exactly this file name to the transaction's files, and individual mode commits. With none pending, nothing changes. |
| Orchestration.RunFrom | Mayflower/Migrator.cs:133-156 | The loop over the files stops, if at all, at a file index between the starting index and the last file. |
| Orchestration.MigrationFailed | Mayflower/Migrator.cs:299-330 | Afterwards no transaction is pending. A pending transaction is rolled back and its files are reported. The failure is reported "without a transaction" exactly when none was pending and the file does not use one. With none pending, the state is unchanged and no file is reported as rolled back. |
| Orchestration.EnsureMigrationsTableCreatesOnlyWhenNeeded | Mayflower/Migrator.cs:337-354 | The table counts as existing afterwards exactly when it already existed or this is not a preview. It is created, changing the state, exactly when it was missing and this is not a preview. |
| Orchestration.ExecuteAllInOrder | Mayflower/Migrator.cs:240-244 | The commands run in list order. All of them are executed when none fails. Otherwise execution stops at the first failing command, having run exactly the ones before it. |
| Orchestration.ExecuteAllKeepsRows | Mayflower/Migrator.cs:240-244 | Running commands changes neither the bookkeeping rows nor the transaction state. This holds of the batch abstraction described under "Left out", not of arbitrary SQL. |
| Orchestration.RunMigrationCommandsEffect | Mayflower/Migrator.cs:227-265 | Every command of the file is executed in order. Exactly one record is written, and only when not in preview or the table exists: an insert for Run, a hash update for HashMismatch. A successful hash update means exactly one row had the file name. Otherwise the rows are unchanged. |
| Orchestration.RunMigrationCommandsRefusesOtherModes | Mayflower/Migrator.cs:229-236 | Any other mode fails after the transaction was begun, with nothing executed and nothing recorded. |
| Orchestration.HashMismatchWithoutForceChangesNothing | Mayflower/Migrator.cs:200-203 | A changed file without force fails with MigrationChanged, before any transaction, command or record. |
| Orchestration.PreviewSkipsFileWithoutTransaction | Mayflower/Migrator.cs:205-210 | In preview, a file to run with the no-transaction header is reported as Skip and changes nothing. |
| Orchestration.RenameExecutesNothing | Mayflower/Migrator.cs:194-225 | A Rename runs none of the file's commands. It only renames the row with this hash and always uses a transaction. Under a planner that respects the history, the hash lookup cannot fail. A counted rename means exactly one row held the hash. A hash that is in the history index but no longer in the table fails as zero rows affected. |
| Orchestration.MigrateCountsPlannedMode | Mayflower/Migrator.cs:187-214 | A successful Migrate returns the planned mode, or Skip for a no-transaction file in preview. |
| Orchestration.RunFromCounts | Mayflower/Migrator.cs:133-156 | When the loop finishes, every file was attempted and counted once. When it stops early, the failing file was attempted but not counted. |
| Orchestration.FinishOutcome | Mayflower/Migrator.cs:158-169 | A finished loop is reported with no pending transaction and with exactly the loop's counters. It succeeds exactly when the loop did not stop. When it stopped, the exception is exactly the failure that stopped it and the report names the failing file. |
| Orchestration.RunAllOutcome | Mayflower/Migrator.cs:123-185 | Afterwards no transaction is pending. On success, Attempted = Ran + Skipped + Forced + Renamed = number of files, with no exception. On failure, the exception is kept, the failing file is the last attempted, and it is the one reported. |
| Orchestration.RunFromStopsAtFailure | Mayflower/Migrator.cs:133-156 | A loop that stops ran the files before the failing one without failure. The failing file's `Migrate`, from the state they left, gives the final state and the failure. |
| Orchestration.RunAllFailure | Mayflower/Migrator.cs:133-168 | A failed run's exception is exactly the failure returned by the last attempted file's `Migrate`. That `Migrate` starts from the state the earlier files reached without failure. |
| Orchestration.SuccessKeepsLoopRows | Mayflower/Migrator.cs:158-161 | A successful run, in preview too, ends with no transaction pending and with the rows the loop produced: the pending transaction is committed. |
| Orchestration.PreviewKeepsRecordWitness | Mayflower/Migrator.cs:158-161 | A one-file preview run ends with the inserted record, though it started with no rows. |
| Orchestration.PreviewFailureRestoresRows | Mayflower/Migrator.cs:123-185 | A failed preview run leaves the bookkeeping rows as they were, for any files: preview skips a file without a transaction unless it is a rename, and a rename always opens one. |
| Orchestration.MigrateKeepsUndoable | Mayflower/Migrator.cs:187-214 | In global mode, a file that uses a transaction, or any file in preview, keeps the rows either unchanged or inside a transaction begun on the original rows. |
| Orchestration.RunFromKeepsUndoable | Mayflower/Migrator.cs:133-156 | The same holds across the loop. |
| Orchestration.GlobalFailureRestoresRows | Mayflower/Migrator.cs:317-329 | A failed run in global mode, where all files use transactions, leaves the bookkeeping rows as they were. |
| Orchestration.RunAllKeepsConsistent | Mayflower/Migrator.cs:123-185 | A run keeps the table's filename and hash uniqueness, and keeps "no files listed without a pending transaction". |
| Orchestration.MigrateKeepsConsistent | Mayflower/Migrator.cs:187-214 | One file keeps those invariants. |
| Orchestration.RunMigrationCommandsKeepsConsistent | Mayflower/Migrator.cs:227-265 | Running one file's commands keeps them. |
| Orchestration.RenameMigrationKeepsConsistent | Mayflower/Migrator.cs:216-225 | A rename keeps them. |
| Orchestration.EndMigrationKeepsConsistent | Mayflower/Migrator.cs:288-297 | Ending a migration keeps them. |
| Orchestration.NoneOutstandingIffAllSkip | Mayflower/Migrator.cs:89-102 | The outstanding count is at most the number of files. It is zero exactly when every file's mode is Skip. |
| Orchestration.NothingOutstandingRunsNothing | Mayflower/Migrator.cs:89-185 | With nothing outstanding, a run succeeds, changes nothing and counts every file as skipped. |
| Persistence.Connection.constructor | Mayflower/Migrator.cs:50-55 | An opened connection holds the given rows, with no transaction and nothing executed. |
| Persistence.Connection.MigrationTableExists | Mayflower/Migrator.cs:339 | Reports whether the bookkeeping table exists. |
| Persistence.Connection.CreateMigrationsTable | Mayflower/Migrator.cs:352 | Performs `CreateTable`: the table exists and nothing else changes. |
| Persistence.Connection.BeginTransaction | Mayflower/Migrator.cs:273 | Performs `BeginTx`: a transaction is pending with no files yet, and remembers the rows to roll back to. |
| Persistence.Connection.Commit | Mayflower/Migrator.cs:295 | Performs `CommitTx`: nothing is pending, the rows are kept and the file list is emptied. |
| Persistence.Connection.Rollback | Mayflower/Migrator.cs:328 | Performs `RollbackTx`: nothing is pending and the rows are those at the transaction's start. |
| Persistence.Connection.ExecuteCommand | Mayflower/Migrator.cs:242 | Performs `Execute`: the batch is appended to the executed log unless the server rejects it, and then nothing changes. |
| Persistence.Connection.InsertMigrationRecord | Mayflower/ISqlStatements.cs:61-67 | Performs `Insert`: the row is appended exactly when the table exists and neither its filename nor its hash is already present. Otherwise nothing changes. |
| Persistence.Connection.UpdateMigrationRecordHash | Mayflower/ISqlStatements.cs:61-66 | Performs `UpdateHash`: sets hash, date and duration on the row with that filename. It succeeds exactly when the table exists, exactly one row has the filename, and no other row holds the hash. A filename matching no row, or several, fails with the number of rows it matched, and nothing changes. |
| Persistence.Connection.RenameMigration | Mayflower/ISqlStatements.cs:61-65 | Performs `Rename`: sets the filename on the row with that hash. It succeeds exactly when the table exists, exactly one row has the hash, and no other row holds the filename. A hash matching no row, or several, fails with the number of rows it matched, and nothing changes. |
| Persistence.UniqueRowsMatchOnce | Mayflower/ISqlStatements.cs:61-62 | With unique filenames and hashes, a key matches at most one row. An update by that key therefore affects exactly one row exactly when the key is present. |
| Persistence.TransitionsKeepConsistent | Mayflower/ISqlStatements.cs:61-62 | Every connection operation keeps filename and hash unique. |
| Persistence.RollbackUndoesInsert | Mayflower/Migrator.cs:317-329 | An insert inside a transaction is undone by the rollback. |
| Runner.AllMigrations | Mayflower/Migrator.cs:118-121 | There is exactly one migration per file. |
| Runner.AllMigrationsInOrder | Mayflower/Migrator.cs:118-121 | The i-th migration is the one read from the i-th file, so the directory's order is kept. |
| Runner.GetAllMigrations | Mayflower/Migrator.cs:118-121 | The loop reads the files in order into `AllMigrations`. |
| Runner.StartConfigValid | Mayflower/Migrator.cs:38-61 | The migrator's settings satisfy the orchestration's assumptions, in particular preview implies global. |
| Runner.Migrator.constructor | Mayflower/Migrator.cs:34-76 | Keeps the preview and force flags and sets global = global or preview. Reads all migrations, ensures the bookkeeping table exists, and indexes the existing rows only when the table exists. |
| Runner.Migrator.EnsureMigrationsTableExists | Mayflower/Migrator.cs:337-354 | Performs `EnsureMigrationsTable` on the connection and sets the table flag from it. |
| Runner.Migrator.BeginMigration | Mayflower/Migrator.cs:267-286 | Changes the connection as `Orchestration.BeginMigration` does. |
| Runner.Migrator.EndMigration | Mayflower/Migrator.cs:288-297 | Changes the connection as `Orchestration.EndMigration` does. |
| Runner.Migrator.RunMigrationCommands | Mayflower/Migrator.cs:227-265 | The command loop and the record write change the connection as `Orchestration.RunMigrationCommands` does. |
| Runner.Migrator.RenameMigration | Mayflower/Migrator.cs:216-225 | Changes the connection as `Orchestration.RenameMigration` does. |
| Runner.Migrator.Migrate | Mayflower/Migrator.cs:187-214 | Changes the connection and returns the mode as `Orchestration.Migrate` does. |
| Runner.Migrator.MigrationFailed | Mayflower/Migrator.cs:299-330 | Changes the connection and reports as `Orchestration.MigrationFailed` does. |
| Runner.Migrator.RunOutstandingMigrations | Mayflower/Migrator.cs:123-185 | The counting loop yields the state, result and report of `Orchestration.RunAll`, so `RunAllOutcome` and the invariants above hold of it. |
| Runner.Migrator.CountOutstanding | Mayflower/Migrator.cs:92-100 | Counts the files whose mode is not Skip. |
| Runner.Create | Mayflower/Migrator.cs:113-116 | Fails exactly when the options are invalid, and then leaves the connection untouched. Otherwise it builds the migrator on that connection. |
| Runner.RunOutstandingMigrations | Mayflower/Migrator.cs:104-110 | Fails on invalid options without touching the database. Otherwise it performs the full run from the migrator's start state. |
| Runner.GetOutstandingMigrationsCount | Mayflower/Migrator.cs:89-102 | Fails on invalid options without touching the database. Otherwise it returns the number of non-Skip files, at most the number of files. |
| MigrationFile.NewMigration | Mayflower/Migration.cs:43-51 | Stores the name, hash, commands and flags unchanged. The full file name stays unset, because the path argument is dropped. |
| MigrationFile.SplitCommands | Mayflower/Migration.cs:65-71 | The loop keeps the trimmed non-empty pieces of the `GO` split, in order. |
| MigrationFile.CreateFromFile | Mayflower/Migration.cs:53-94 | The name is the file name of the path and the hash is the file's hash. The commands are the split. A transaction is used exactly when the body does not start with the no-transaction header. Auto-run holds exactly when the name starts with one of the prefixes. |
| Batches.SegmentsKeepContent | Mayflower/Migration.cs:66 | Splitting keeps every non-`GO` line in order, and yields one more piece than there are `GO` lines. |
| Batches.SegmentsHoldContentLines | Mayflower/Migration.cs:66 | Every line of every piece is a line of the body and is not a `GO` line. |
| Batches.KeptCommandsFromPieces | Mayflower/Migration.cs:66-71 | Every kept command is the non-empty trim of some piece. |
| Batches.CommandsWellFormed | Mayflower/Migration.cs:65-71 | Every command is non-empty and has no leading or trailing white space. None of its lines is a `GO` line. |
| Hashing.NormalizeRemovesCarriageReturns | Mayflower/Migration.cs:99 | The normalised text contains no carriage return. |
| Hashing.NormalizeIdempotent | Mayflower/Migration.cs:99 | Normalising twice is normalising once. |
| Hashing.LineEndingsAgree | Mayflower/Migration.cs:99 | A CRLF or a lone CR normalises exactly like an LF in its place. This holds when it does not merge with a neighbouring CR before it or LF after it. |
| Hashing.LineFeedThenCarriageReturn | Mayflower/Migration.cs:15 | LF followed by CR becomes two line feeds. |
| Hashing.Utf16LeRoundTrip | Mayflower/Migration.cs:100 | The UTF-16LE encoding decodes back to the text, so it is injective. |
| Hashing.HexRoundTrip | Mayflower/Migration.cs:111-131 | The hex string decodes back to the bytes. |
| Hashing.HexIsLowerCase | Mayflower/Migration.cs:111-131 | Every output character is a lower-case hex digit. |
| Hashing.ToHex | Mayflower/Migration.cs:111-131 | The loop writes two digits per byte, high nibble first, giving `Hex` (length 2·n). |
| Hashing.CalculateHash | Mayflower/Migration.cs:96-109 | The hash is the hex of the digest of the encoded, normalised body: twice the digest's length, and it decodes back to the digest. |
| Hashing.HashIgnoresLineEndings | Mayflower/Migration.cs:96-109 | Bodies differing only in CRLF, LF or CR line endings get the same hash. |
| Hashing.SameHashSameDigest | Mayflower/Migration.cs:96-109 | Equal hashes mean equal digests of the normalised bodies. |
| History.LastRow | Mayflower/AlreadyRan.cs:10-22 | `Last` is the final row, or null exactly for no rows. |
| History.AlreadyRan.constructor | Mayflower/AlreadyRan.cs:12-23 | The loop builds both dictionaries, each row stored under its key with the last write winning, and the last row. |
| History.IndexKeys | Mayflower/AlreadyRan.cs:17-18 | The keys are exactly the rows' filenames (or hashes). |
| History.IndexLastWriteWins | Mayflower/AlreadyRan.cs:17-18 | Each key maps to the last row with that key. |
| History.UniqueRowsIndexed | Mayflower/AlreadyRan.cs:17-18 | Under uniqueness, every row is stored under its own key. |
| History.IndexesAgree | Mayflower/AlreadyRan.cs:17-18 | Under uniqueness, `ByFilename[f].Hash == h` exactly when `ByHash[h].Filename == f`. |
| History.CountIsDistinctFilenames | Mayflower/AlreadyRan.cs:7 | `Count` is the number of distinct filenames. |
| History.CountIsRowCount | Mayflower/AlreadyRan.cs:7 | Under uniqueness, `Count` is the number of rows. |
| Configuration.AssertValid | Mayflower/Options.cs:22-34 | Passes exactly when exactly one of connection string and database is non-empty and the table name is empty or matches the pattern. It fails with the first error exactly when both or neither is given. |
| Configuration.MatchesLettersIff | Mayflower/Options.cs:31 | The pattern accepts exactly one or more ASCII letters, optionally followed by one final line feed. |
| Configuration.MatchesLettersSingleLine | Mayflower/Options.cs:31 | For a name without a line feed, the pattern means ASCII letters only. |
| Configuration.TrailingLineFeedAccepted | Mayflower/Options.cs:31 | `"Log\n"` is accepted. `"Log\n\n"`, `"Lo g"` and `""` are not. |
| Configuration.DefaultsAreInvalid | Mayflower/Options.cs:12-27 | Defaults: timeout 30, prefixes SP and AUTORUN. Fresh options fail validation. |
| Configuration.GetConnectionString | Mayflower/Options.cs:36-46 | Fails exactly for a provider other than SQL Server. A non-empty connection string is returned verbatim. |
| Configuration.ConnectionStringForDatabase | Mayflower/Options.cs:44-45 | Otherwise it is the integrated-auth string for the database, with the server or localhost. |
| Configuration.GetMigrationsTable | Mayflower/Options.cs:48-51 | `"Migrations"` when the name is empty, otherwise the given name. The result is never empty. |
| Configuration.ValidTableName | Mayflower/Options.cs:29-51 | After validation, the table name in use always matches the pattern. |
| Cli.OptionsStartWithDashes | Mayflower/Cli.cs:9-20 | Every recognised option, value or flag, starts with `--`. |
| Cli.GetArgumentsDictionary | Mayflower/Cli.cs:135-174 | The index loop computes `ParseArguments`. |
| Cli.ParseArgumentsOutcome | Mayflower/Cli.cs:135-174 | Parsing succeeds exactly when every token is a flag and no token repeats, and then maps each flag to null. Otherwise it fails with the error of the first bad token: duplicate, missing value, or unknown. |
| Cli.ParsedArgumentsAreFlags | Mayflower/Cli.cs:139-170 | Because the index advances by one, every successful parse contains only flag options. |
| Cli.DatabaseOptionRefused | Mayflower/Cli.cs:148-169 | `--db Shop` fails as unknown argument `Shop`, and a trailing `--db` fails as missing a value. |
| Cli.ParseInt32 | Mayflower/Cli.cs:86 | `int.TryParse`: null fails, and every accepted value lies in the 32-bit range. |
| Cli.ParseFormatRoundTrip | Mayflower/Cli.cs:86 | Every 32-bit integer, written in decimal, parses back to itself. |
| Cli.ParseInt32Examples | Mayflower/Cli.cs:86 | Surrounding white space is accepted, so `" 42\t"` gives 42. `4x`, the empty string and a lone sign are refused. |
| Cli.OptionsFromArguments | Mayflower/Cli.cs:65-102 | Fails exactly for a `--timeout` that does not parse. Otherwise each given value is copied, `--preview`, `--global` and `--force` set their flags, and everything else keeps its default. |
| Cli.CreateOptions | Mayflower/Cli.cs:65-102 | The field-by-field construction yields `OptionsFromArguments`. |
| Cli.FlagOptionsAreInvalid | Mayflower/Cli.cs:65-102 | Options built from flags alone fail validation with "neither or both targets". |
| Cli.Execute | Mayflower/Cli.cs:24-63 | The dispatch returns, writes and leaves the database as `ExecuteSpec` does. |
| Cli.ExecuteOnlyHelpOrVersion | Mayflower/Cli.cs:24-174 | As written, `Execute` succeeds exactly for no arguments, `--help` or `--version`, writing only the help text or the version. It never changes the database. Every failure writes an error followed by the help text. |
| Logging.EscapeIsPerCharacter | Mayflower/Logger.cs:140-145 | The two replacements escape each character on its own: `\|` becomes `\|\|` and `'` becomes `\|'`, and the inserted bar is not doubled again. |
| Logging.EscapeRoundTrip | Mayflower/Logger.cs:140-145 | The escaped name reads back as the name. |
| Logging.BlockLine | Mayflower/Logger.cs:122-138 | A block line exists exactly for the TeamCity format, at the block verbosity. |
| Logging.FilterThresholds | Mayflower/Logger.cs:37-46 | A message is written when its level is at or above the maximum: everything at Minimal, only Debug at Debug. |
| Logging.WrittenAppend | Mayflower/Logger.cs:37-46 | The filter keeps order across successive messages. |
| Logging.WrittenKeepsLoudMessages | Mayflower/Logger.cs:37-46 | Messages that pass the filter are written in full and in order. |
| Logging.Logger.Log | Mayflower/Logger.cs:37-46 | Appends the message to the output exactly when it passes the filter. |
| Logging.Logger.CreateNestedLogger | Mayflower/Logger.cs:27-51 | The child reports the root's format and maximum. Its block verbosity defaults to Minimal. |
| Logging.NestedLogger.constructor | Mayflower/Logger.cs:76-87 | The open line is buffered when buffered, and passed on at once otherwise. |
| Logging.NestedLogger.Log | Mayflower/Logger.cs:89-99 | A buffered logger only appends to its buffer and passes nothing on. An unbuffered one passes the message on unchanged and at once. |
| Logging.NestedLogger.CreateNestedLogger | Mayflower/Logger.cs:101-104 | The child reports this logger's format and maximum. Its block verbosity defaults to this logger's. |
| Logging.NestedLogger.Dispose | Mayflower/Logger.cs:106-120 | The parent ends up with the open line, the logged messages in order, then the close line. When buffered, the flush loop hands over the whole buffer, including the close line. |
| Databases.FromIntegratedAuth | Mayflower/Database.cs:41-52 | Fails when the database name, and then the server name, is null or white space. Otherwise it keeps the names and the table, and builds exactly the integrated-auth string. |
| Databases.FromConnectionString | Mayflower/Database.cs:57-71 | Fails on a null or white-space string before parsing. Otherwise it succeeds exactly when the builder reads a non-blank catalog and data source, keeping the string verbatim. |
| Databases.IntegratedAuthDefaults | Mayflower/Database.cs:11-41 | The server defaults to localhost and the table to "Migrations". |
| Databases.IntegratedAuthReadsBack | Mayflower/Database.cs:41-71 | A built string that the builder reads back gives the same description. The read-back is a precondition: names containing `;` or `=` are not quoted and need not read back. |
| Databases.OptionsAgreeWithFactory | Mayflower/Options.cs:44-45 | Options and factory build the same integrated-auth string. |
| Connections.BuildIntegratedAuth | Mayflower/ConnectionInfo.cs:34-45 | Fails when the database name, and then the server name, is null or white space. Otherwise it keeps the names and builds exactly the integrated-auth string. |
| Connections.FromConnectionString | Mayflower/ConnectionInfo.cs:50-64 | Fails on a null or white-space string before parsing. Otherwise it succeeds exactly when the builder reads a non-blank catalog and data source, keeping the string verbatim. |
| Connections.FactoriesAgree | Mayflower/ConnectionInfo.cs:34-64 | Both factories succeed and fail alike, with the same error, and agree on string and names. |

## Left out

- SHA-256 is a function parameter with no properties. Text encoding is modelled
  as UTF-16LE of the normalised text, which is what `Encoding.Unicode` produces.
  The lock around the shared hasher is not modelled.
- File system access is not modelled:
  - `Directory.GetFiles(...).OrderBy` is an ordered input list of files with
    their bodies;
  - `Path.GetFileName` is a function parameter;
  - `Options.GetFolder` and `GetDirectory` are not part of this model.
- `Mayflower/Migrator.cs:120` builds migrations with a constructor that does not
  exist in `Mayflower/Migration.cs`. The model uses `CreateFromFile` instead.
- `GetMigrateMode` and `MigrateMode` are not defined in the shown files. The
  mode is a planner function parameter. Its one constraint is that Rename
  implies the hash is a key of `ByHash`.
- `ConnectionContext` is not modelled: its methods do not match what the
  migrator calls. The `Connection` class stands in for it, with the semantics
  the migrator's call sites and the SQL statements imply:
  - `Commit` is a plain commit;
  - a rejected batch or record write fails without changing state;
  - an update or rename of a bookkeeping row must affect exactly one row.
    This follows the persistence interface the migrator is written against,
    where a bookkeeping write that matches no row, or several, is fatal. The
    bare `update` statements in `Mayflower/ISqlStatements.cs:65-66` would
    affect zero rows without an error. `ConnectionContext` throws
    `NotImplementedException` and does not decide either way.
- A migration batch's own effects on the database are not modelled.
  `Persistence.Execute` only appends the batch to the log of executed batches.
  Batches are assumed to leave the bookkeeping table and the transaction alone:
  no batch writes to the bookkeeping rows, and none issues its own `COMMIT` or
  `ROLLBACK`. Whether a batch fails depends only on its text, through a fixed
  set of failing batches, and not on the batches run before it. The
  row-preserving results hold under this assumption only:
  `Orchestration.ExecuteAllKeepsRows`, the unchanged-rows clauses of
  `Orchestration.RunMigrationCommandsEffect`,
  `Orchestration.GlobalFailureRestoresRows` and
  `Orchestration.PreviewFailureRestoresRows`. The source sends arbitrary user
  SQL through `ExecuteCommand`, which promises none of this.
- Not modelled: the column widths of the bookkeeping table, the `Id` column,
  and the server's own data-type checks.
- The clock and the stopwatch are not modelled. The row's date and duration come
  from a parameter `clock`, indexed by file position.
- Log text and `TextWriter` output of the migrator are not modelled. `Cli.Execute`
  writes values (`HelpText`, `VersionLine`, `OutstandingLine`, `ErrorText`)
  instead of text.
- `Logger.GlobalLock` and concurrency are not modelled.
- A nested logger's parent is represented by the sequence of `Log` calls it
  receives and the format and maximum verbosity it reports. What a chain of
  parents then writes follows from applying `Logging.Logger.Log` or
  `Logging.NestedLogger.Log` to that sequence. That composition is not modelled
  as one object graph.
- Logging.NestedLogger.Dispose: it is specified for the first call only, which
  is what a `using` block makes. A second call would flush the buffer again.
- `Migrator.Dispose`, `GetVersion` (reflection) and the version text's origin
  are not modelled. The CLI prints the fixed text `2.0.0-beta`, as the code
  does.
- `MayflowerCLI/Program.cs` is not part of this model.
- `StartsWith(string)` is culture-sensitive in .NET. It is modelled as an
  ordinal prefix test.
- The byte-order mark handling of `File.ReadAllText` is not modelled.
- `Cli.ParseInt32`: `NumberStyles.Integer` is modelled for the invariant culture
  only, meaning the ASCII signs `+` and `-` and the digits 0-9. Trailing NUL
  characters, which .NET also accepts, are not.
- Null argument arrays and null `AutoRunPrefixes` are not modelled: sequences
  are never null.
- `SqlConnectionStringBuilder` is a parser parameter. It returns the catalog and
  data source it reads, with "" for an absent key, or nothing when it refuses
  the string.

=== FILE: batches.dfy ===
/**
 * How a migration file is cut into SQL batches. The source splits the file
 * body with the regular expression `^\s*GO\s*$` (multi-line, ignoring case),
 * trims every piece and keeps the pieces that are not empty. Each match of
 * that expression covers exactly one line made of white space and `GO`,
 * together with white space around it, so the pieces it produces differ from
 * the runs of lines between such delimiter lines only by white space at their
 * ends; after trimming they are the same. This module states the split on
 * lines.
 */
module Batches {
  import opened Text

  /** A line made of white space and a case-insensitive `GO`. */
  predicate IsDelimiterLine(line: string)
  {
    var t := Trim(line);
    t == "GO" || t == "Go" || t == "gO" || t == "go"
  }

  /** Two lists of lines where every line of `xs` trims to the trim of a line of `ys`. */
  ghost predicate TrimsInto(xs: seq<string>, ys: seq<string>)
  {
    forall j :: 0 <= j < |xs| ==> exists k :: 0 <= k < |ys| && Trim(xs[j]) == Trim(ys[k])
  }

  /**
   * The runs of lines between delimiter lines, in file order; a body with
   * n delimiter lines has n + 1 runs, some of which may be empty.
   */
  function Segments(ls: seq<string>): (r: seq<seq<string>>)
    ensures |r| >= 1
  {
    if |ls| == 0 then [[]]
    else
      var rest := Segments(ls[1..]);
      if IsDelimiterLine(ls[0]) then [[]] + rest
      else [[ls[0]] + rest[0]] + rest[1..]
  }

  /** Every line of every run is a line of the input and is not a delimiter line. */
  lemma {:induction false} SegmentsHoldContentLines(ls: seq<string>)
    ensures forall k, j :: 0 <= k < |Segments(ls)| && 0 <= j < |Segments(ls)[k]| ==>
      Segments(ls)[k][j] in ls && !IsDelimiterLine(Segments(ls)[k][j])
    decreases |ls|
  {
    if |ls| > 0 {
      SegmentsHoldContentLines(ls[1..]);
      var rest := Segments(ls[1..]);
      var r := Segments(ls);
      forall k, j | 0 <= k < |r| && 0 <= j < |r[k]| ensures r[k][j] in ls && !IsDelimiterLine(r[k][j]) {
        if IsDelimiterLine(ls[0]) {
          assert r[k][j] == rest[k - 1][j];
          assert rest[k - 1][j] in ls[1..];
        } else if k == 0 {
          if j > 0 {
            assert r[k][j] == rest[0][j - 1];
            assert rest[0][j - 1] in ls[1..];
          }
        } else {
          assert r[k][j] == rest[k][j];
          assert rest[k][j] in ls[1..];
        }
      }
    }
  }

  /** All lines of a list of runs, one run after the other. */
  function Flatten(segs: seq<seq<string>>): seq<string>
  {
    if |segs| == 0 then [] else segs[0] + Flatten(segs[1..])
  }

  /** The lines that are not delimiter lines, in order. */
  function ContentLines(ls: seq<string>): seq<string>
  {
    if |ls| == 0 then []
    else (if IsDelimiterLine(ls[0]) then [] else [ls[0]]) + ContentLines(ls[1..])
  }

  /** Number of delimiter lines. */
  function DelimiterCount(ls: seq<string>): nat
  {
    if |ls| == 0 then 0 else (if IsDelimiterLine(ls[0]) then 1 else 0) + DelimiterCount(ls[1..])
  }

  /**
   * Splitting loses no content line and reorders nothing: the runs, read one
   * after the other, are exactly the content lines; and there is one run more
   * than there are delimiter lines.
   */
  lemma {:induction false} SegmentsKeepContent(ls: seq<string>)
    ensures Flatten(Segments(ls)) == ContentLines(ls)
    ensures |Segments(ls)| == DelimiterCount(ls) + 1
    decreases |ls|
  {
    if |ls| > 0 {
      SegmentsKeepContent(ls[1..]);
      var rest := Segments(ls[1..]);
      if IsDelimiterLine(ls[0]) {
        assert Segments(ls)[1..] == rest;
      } else {
        var r := Segments(ls);
        assert r[1..] == rest[1..];
        assert Flatten(rest) == rest[0] + Flatten(rest[1..]);
      }
    }
  }

  /** The text of every run: its lines joined with '\n'. */
  function Pieces(body: string): (r: seq<string>)
    ensures |r| == |Segments(Lines(body))|
  {
    var segs := Segments(Lines(body));
    seq(|segs|, i requires 0 <= i < |segs| => Join(segs[i]))
  }

  /**
   * The commands kept from a list of pieces: each piece trimmed, the empty
   * ones dropped, the order kept.
   */
  function KeptCommands(pieces: seq<string>): (r: seq<string>)
    ensures |r| <= |pieces|
  {
    if |pieces| == 0 then []
    else
      var t := Trim(pieces[|pieces| - 1]);
      KeptCommands(pieces[..|pieces| - 1]) + (if |t| > 0 then [t] else [])
  }

  /** Keeping commands from one more piece adds that piece, trimmed, if it is not empty. */
  lemma KeptCommandsSnoc(pieces: seq<string>, i: nat)
    requires i < |pieces|
    ensures KeptCommands(pieces[..i + 1]) ==
      KeptCommands(pieces[..i]) + (if |Trim(pieces[i])| > 0 then [Trim(pieces[i])] else [])
  {
    assert pieces[..i + 1][..i] == pieces[..i];
  }

  /** Every kept command is non-empty and is the trim of one of the pieces. */
  lemma {:induction false} KeptCommandsFromPieces(pieces: seq<string>)
    ensures forall j :: 0 <= j < |KeptCommands(pieces)| ==>
      KeptCommands(pieces)[j] != [] && exists i :: 0 <= i < |pieces| && KeptCommands(pieces)[j] == Trim(pieces[i])
    decreases |pieces|
  {
    if |pieces| > 0 {
      var n := |pieces|;
      var front := pieces[..n - 1];
      KeptCommandsFromPieces(front);
      var r := KeptCommands(pieces);
      forall j | 0 <= j < |r| ensures r[j] != [] && exists i :: 0 <= i < n && r[j] == Trim(pieces[i]) {
        if j < |KeptCommands(front)| {
          assert r[j] == KeptCommands(front)[j];
          var i :| 0 <= i < |front| && r[j] == Trim(front[i]);
          assert front[i] == pieces[i];
        } else {
          assert r[j] == Trim(pieces[n - 1]);
        }
      }
    }
  }

  /** The SQL batches of a file body, in file order. */
  function Commands(body: string): seq<string>
  {
    KeptCommands(Pieces(body))
  }

  /** A blank first line and its line feed are trimmed away entirely. */
  lemma TrimStartOfJoinBlankHead(ls: seq<string>)
    requires |ls| >= 2 && IsBlank(ls[0])
    ensures TrimStart(Join(ls)) == TrimStart(Join(ls[1..]))
  {
    var tail := Join(ls[1..]);
    assert Join(ls) == (ls[0] + "\n") + tail;
    assert IsBlank(ls[0] + "\n");
    TrimStartBlankPrefix(ls[0] + "\n", tail);
  }

  /** When the first line has content, only that line is trimmed at its start. */
  lemma TrimStartOfJoinNonBlankHead(ls: seq<string>)
    requires |ls| >= 2 && !IsBlank(ls[0])
    ensures TrimStart(Join(ls)) == Join([TrimStart(ls[0])] + ls[1..])
  {
    var tail := Join(ls[1..]);
    var out := [TrimStart(ls[0])] + ls[1..];
    assert Join(ls) == ls[0] + ("\n" + tail);
    TrimStartNonBlankPrefix(ls[0], "\n" + tail);
    assert out[1..] == ls[1..];
    assert Join(out) == TrimStart(ls[0]) + ("\n" + tail);
  }

  /** The trimmed start of joined lines is again joined lines, each trimming as an original one. */
  lemma {:induction false} TrimStartOfJoin(ls: seq<string>) returns (out: seq<string>)
    requires |ls| >= 1 && forall k :: 0 <= k < |ls| ==> IsSingleLine(ls[k])
    ensures |out| >= 1 && forall k :: 0 <= k < |out| ==> IsSingleLine(out[k])
    ensures TrimStart(Join(ls)) == Join(out)
    ensures TrimsInto(out, ls)
    decreases |ls|
  {
    var head := TrimStart(ls[0]);
    TrimStartSingleLine(ls[0]);
    TrimAfterTrimStart(ls[0]);
    if |ls| == 1 {
      out := [head];
      assert Trim(out[0]) == Trim(ls[0]);
    } else if IsBlank(ls[0]) {
      out := TrimStartOfJoin(ls[1..]);
      TrimStartOfJoinBlankHead(ls);
      forall j | 0 <= j < |out| ensures exists k :: 0 <= k < |ls| && Trim(out[j]) == Trim(ls[k]) {
        var k :| 0 <= k < |ls[1..]| && Trim(out[j]) == Trim(ls[1..][k]);
        assert Trim(out[j]) == Trim(ls[k + 1]);
      }
    } else {
      TrimStartOfJoinNonBlankHead(ls);
      out := [head] + ls[1..];
      forall j | 0 <= j < |out| ensures exists k :: 0 <= k < |ls| && Trim(out[j]) == Trim(ls[k]) {
        if j == 0 { assert Trim(out[0]) == Trim(ls[0]); } else { assert out[j] == ls[j]; }
      }
    }
  }

  /** A blank last line and the line feed before it are trimmed away entirely. */
  lemma TrimEndOfJoinBlankLast(ls: seq<string>)
    requires |ls| >= 2 && IsBlank(ls[|ls| - 1])
    ensures TrimEnd(Join(ls)) == TrimEnd(Join(ls[..|ls| - 1]))
  {
    var n := |ls|;
    var front := Join(ls[..n - 1]);
    JoinSnoc(ls);
    assert Join(ls) == (front + "\n") + ls[n - 1];
    TrimEndBlankSuffix(front + "\n", ls[n - 1]);
    assert IsBlank("\n") by { assert IsWhiteSpace("\n"[0]); }
    TrimEndBlankSuffix(front, "\n");
  }

  /** When the last line has content, only that line is trimmed at its end. */
  lemma TrimEndOfJoinNonBlankLast(ls: seq<string>)
    requires |ls| >= 2 && !IsBlank(ls[|ls| - 1])
    ensures TrimEnd(Join(ls)) == Join(ls[..|ls| - 1] + [TrimEnd(ls[|ls| - 1])])
  {
    var n := |ls|;
    var front := Join(ls[..n - 1]);
    JoinSnoc(ls);
    assert Join(ls) == (front + "\n") + ls[n - 1];
    TrimEndNonBlankSuffix(front + "\n", ls[n - 1]);
    var out := ls[..n - 1] + [TrimEnd(ls[n - 1])];
    assert out[..n - 1] == ls[..n - 1];
    JoinSnoc(out);
  }

  /** The trimmed end of joined lines is again joined lines, each trimming as an original one. */
  lemma {:induction false} TrimEndOfJoin(ls: seq<string>) returns (out: seq<string>)
    requires |ls| >= 1 && forall k :: 0 <= k < |ls| ==> IsSingleLine(ls[k])
    ensures |out| >= 1 && forall k :: 0 <= k < |out| ==> IsSingleLine(out[k])
    ensures TrimEnd(Join(ls)) == Join(out)
    ensures TrimsInto(out, ls)
    decreases |ls|
  {
    var n := |ls|;
    var last := TrimEnd(ls[n - 1]);
    TrimEndSingleLine(ls[n - 1]);
    TrimAfterTrimEnd(ls[n - 1]);
    if n == 1 {
      out := [last];
      assert Trim(out[0]) == Trim(ls[0]);
    } else if IsBlank(ls[n - 1]) {
      out := TrimEndOfJoin(ls[..n - 1]);
      TrimEndOfJoinBlankLast(ls);
      forall j | 0 <= j < |out| ensures exists k :: 0 <= k < |ls| && Trim(out[j]) == Trim(ls[k]) {
        var k :| 0 <= k < |ls[..n - 1]| && Trim(out[j]) == Trim(ls[..n - 1][k]);
        assert Trim(out[j]) == Trim(ls[k]);
      }
    } else {
      TrimEndOfJoinNonBlankLast(ls);
      out := ls[..n - 1] + [last];
      forall j | 0 <= j < |out| ensures exists k :: 0 <= k < |ls| && Trim(out[j]) == Trim(ls[k]) {
        if j == n - 1 { assert Trim(out[j]) == Trim(ls[n - 1]); } else { assert out[j] == ls[j]; }
      }
    }
  }

  /** Every line of a trimmed run trims like some line of the run. */
  lemma LinesOfTrimmedJoin(ls: seq<string>)
    requires |ls| >= 1 && forall k :: 0 <= k < |ls| ==> IsSingleLine(ls[k])
    ensures TrimsInto(Lines(Trim(Join(ls))), ls)
  {
    var mid := TrimStartOfJoin(ls);
    var out := TrimEndOfJoin(mid);
    LinesOfJoin(out);
    assert Lines(Trim(Join(ls))) == out;
    forall j | 0 <= j < |out| ensures exists k :: 0 <= k < |ls| && Trim(out[j]) == Trim(ls[k]) {
      var m :| 0 <= m < |mid| && Trim(out[j]) == Trim(mid[m]);
      var k :| 0 <= k < |ls| && Trim(mid[m]) == Trim(ls[k]);
    }
  }

  /**
   * Every command of a file is non-empty, has no white space at either end,
   * and has no line that is a delimiter line.
   */
  lemma CommandsWellFormed(body: string)
    ensures forall j :: 0 <= j < |Commands(body)| ==>
      var c := Commands(body)[j];
      c != [] && !IsWhiteSpace(c[0]) && !IsWhiteSpace(c[|c| - 1])
      && forall l :: l in Lines(c) ==> !IsDelimiterLine(l)
  {
    var segs := Segments(Lines(body));
    var pieces := Pieces(body);
    var cmds := Commands(body);
    SegmentsHoldContentLines(Lines(body));
    KeptCommandsFromPieces(pieces);
    forall j | 0 <= j < |cmds|
      ensures var c := cmds[j];
        c != [] && !IsWhiteSpace(c[0]) && !IsWhiteSpace(c[|c| - 1])
        && forall l :: l in Lines(c) ==> !IsDelimiterLine(l)
    {
      var c := cmds[j];
      var i :| 0 <= i < |pieces| && c == Trim(pieces[i]);
      TrimmedEnds(pieces[i]);
      assert pieces[i] == Join(segs[i]);
      if |segs[i]| > 0 {
        forall k | 0 <= k < |segs[i]| ensures IsSingleLine(segs[i][k]) {
          assert segs[i][k] in Lines(body);
        }
        LinesOfTrimmedJoin(segs[i]);
        forall l | l in Lines(c) ensures !IsDelimiterLine(l) {
          var jj :| 0 <= jj < |Lines(c)| && Lines(c)[jj] == l;
          var k :| 0 <= k < |segs[i]| && Trim(l) == Trim(segs[i][k]);
          assert !IsDelimiterLine(segs[i][k]);
        }
      }
    }
  }
}

=== FILE: cli.dfy ===
/**
 * The command line: the argument parser, the mapping of parsed arguments
 * onto options, and the dispatch among help, version, count and run.
 *
 * The parser advances by one token per step, also after a value option,
 * so the value is examined next as if it were an option. Every value
 * option therefore ends in an error, a successful parse holds flags only,
 * and `Execute` can never name a database; the theorems below state this.
 */
module Cli {
  import opened Wrappers
  import opened Text
  import opened Configuration
  import opened Persistence
  import Orchestration
  import Runner

  const Conn := "--conn"
  const Db := "--db"
  const Server := "--server"
  const Dir := "--dir"
  const Table := "--table"
  const Timeout := "--timeout"
  const Preview := "--preview"
  const Global := "--global"
  const Force := "--force"
  const Count := "--count"
  const Version := "--version"
  const Help := "--help"

  /** The version string printed for `--version`. */
  const VersionText := "2.0.0-beta"

  predicate IsValueOption(a: string)
  {
    a == Conn || a == Db || a == Server || a == Dir || a == Table || a == Timeout
  }

  predicate IsFlagOption(a: string)
  {
    a == Preview || a == Global || a == Force || a == Count || a == Version || a == Help
  }

  /** Every known option starts with "--". */
  lemma OptionsStartWithDashes(a: string)
    requires IsValueOption(a) || IsFlagOption(a)
    ensures StartsWith(a, "--")
  {
  }

  datatype CliError =
    | DuplicateArgument(arg: string)
    | MissingValue(arg: string)
    | UnknownArgument(arg: string)
    | TimeoutNotInteger

  type Arguments = map<string, Option<string>>

  // ---------------------------------------------------------------------------
  // The argument parser
  // ---------------------------------------------------------------------------

  /** The parser's loop, from token `i` on, with the entries stored so far. */
  function ParseFrom(args: seq<string>, i: nat, dict: Arguments): Result<Arguments, CliError>
    requires i <= |args|
    decreases |args| - i
  {
    if i == |args| then Success(dict)
    else
      var a := args[i];
      if a in dict then Failure(DuplicateArgument(a))
      else if IsValueOption(a) then
        var value := if i + 1 < |args| then Some(args[i + 1]) else None;
        if value.None? || StartsWith(value.value, "--") then Failure(MissingValue(a))
        else ParseFrom(args, i + 1, dict[a := value])
      else if IsFlagOption(a) then ParseFrom(args, i + 1, dict[a := None])
      else Failure(UnknownArgument(a))
  }

  function ParseArguments(args: seq<string>): Result<Arguments, CliError>
  {
    ParseFrom(args, 0, map[])
  }

  /** Reads the arguments into a dictionary: values for value options, null for flags. */
  method GetArgumentsDictionary(args: seq<string>) returns (r: Result<Arguments, CliError>)
    ensures r == ParseArguments(args)
  {
    var argsDictionary: Arguments := map[];
    for i := 0 to |args|
      invariant ParseArguments(args) == ParseFrom(args, i, argsDictionary)
    {
      var a := args[i];
      if a in argsDictionary {
        return Failure(DuplicateArgument(a));
      }
      if IsValueOption(a) {
        var value := if i + 1 < |args| then Some(args[i + 1]) else None;
        if value.None? || StartsWith(value.value, "--") {
          return Failure(MissingValue(a));
        }
        argsDictionary := argsDictionary[a := value];
      } else if IsFlagOption(a) {
        argsDictionary := argsDictionary[a := None];
      } else {
        return Failure(UnknownArgument(a));
      }
    }
    r := Success(argsDictionary);
  }

  /** Token `k` is a flag that did not occur before. */
  predicate GoodAt(args: seq<string>, k: nat)
    requires k < |args|
  {
    IsFlagOption(args[k]) && args[k] !in args[..k]
  }

  /** The error reported at the first token that is not a new flag. */
  function ErrorAt(args: seq<string>, k: nat): CliError
    requires k < |args|
  {
    if args[k] in args[..k] then DuplicateArgument(args[k])
    else if IsValueOption(args[k]) then
      if k + 1 == |args| || StartsWith(args[k + 1], "--") then MissingValue(args[k])
      else UnknownArgument(args[k + 1])
    else UnknownArgument(args[k])
  }

  /** The dictionary holding every token as a flag. */
  function FlagsOf(args: seq<string>): Arguments
  {
    map a | a in args :: None
  }

  lemma {:induction false} ParseFromFlags(args: seq<string>, i: nat)
    requires i <= |args|
    requires forall k :: 0 <= k < |args| ==> GoodAt(args, k)
    ensures ParseFrom(args, i, FlagsOf(args[..i])) == Success(FlagsOf(args))
    decreases |args| - i
  {
    if i == |args| {
      assert args[..i] == args;
    } else {
      assert GoodAt(args, i);
      assert args[i] !in FlagsOf(args[..i]);
      assert FlagsOf(args[..i])[args[i] := None] == FlagsOf(args[..i + 1]) by {
        assert args[..i + 1] == args[..i] + [args[i]];
      }
      ParseFromFlags(args, i + 1);
    }
  }

  lemma {:induction false} ParseFromFirstBad(args: seq<string>, i: nat, bad: nat)
    requires i <= bad < |args| && !GoodAt(args, bad)
    requires forall k :: 0 <= k < bad ==> GoodAt(args, k)
    ensures ParseFrom(args, i, FlagsOf(args[..i])) == Failure(ErrorAt(args, bad))
    decreases bad - i
  {
    var dict := FlagsOf(args[..i]);
    if i < bad {
      assert GoodAt(args, i);
      assert args[i] !in dict;
      assert dict[args[i] := None] == FlagsOf(args[..i + 1]) by {
        assert args[..i + 1] == args[..i] + [args[i]];
      }
      ParseFromFirstBad(args, i + 1, bad);
    } else if IsValueOption(args[i]) && args[i] !in args[..i] && i + 1 < |args| && !StartsWith(args[i + 1], "--") {
      var next := args[i + 1];
      var dict' := dict[args[i] := Some(next)];
      assert next !in dict' by {
        forall a | a in dict' ensures a != next {
          if a != args[i] {
            var k :| 0 <= k < i && args[..i][k] == a;
            assert GoodAt(args, k);
            OptionsStartWithDashes(args[k]);
          } else {
            OptionsStartWithDashes(args[i]);
          }
        }
      }
      assert !IsValueOption(next) && !IsFlagOption(next) by {
        if IsValueOption(next) || IsFlagOption(next) { OptionsStartWithDashes(next); }
      }
    }
  }

  /** The first token that is not a new flag, given one such token. */
  lemma {:induction false} FirstBad(args: seq<string>, some: nat) returns (bad: nat)
    requires some < |args| && !GoodAt(args, some)
    ensures bad <= some && !GoodAt(args, bad)
    ensures forall k :: 0 <= k < bad ==> GoodAt(args, k)
    decreases some
  {
    if k :| 0 <= k < some && !GoodAt(args, k) {
      bad := FirstBad(args, k);
    } else {
      bad := some;
    }
  }

  /**
   * The parser succeeds exactly when every token is a flag not seen before,
   * and then maps each token to null. Otherwise it fails at the first other
   * token: a repeat is a duplicate; a value option at the end or before a
   * "--" token is missing its value; a value option followed by a value
   * reports the value as unknown; anything else is unknown.
   */
  lemma ParseArgumentsOutcome(args: seq<string>)
    ensures ParseArguments(args).Success? <==> forall k :: 0 <= k < |args| ==> GoodAt(args, k)
    ensures ParseArguments(args).Success? ==> ParseArguments(args).value == FlagsOf(args)
    ensures forall bad :: 0 <= bad < |args| && !GoodAt(args, bad) && (forall k :: 0 <= k < bad ==> GoodAt(args, k)) ==>
              ParseArguments(args) == Failure(ErrorAt(args, bad))
  {
    assert args[..0] == [];
    assert FlagsOf([]) == map[];
    if forall k :: 0 <= k < |args| ==> GoodAt(args, k) {
      ParseFromFlags(args, 0);
    } else {
      var some :| 0 <= some < |args| && !GoodAt(args, some);
      var bad := FirstBad(args, some);
      ParseFromFirstBad(args, 0, bad);
      forall b | 0 <= b < |args| && !GoodAt(args, b) && (forall k :: 0 <= k < b ==> GoodAt(args, k))
        ensures ParseArguments(args) == Failure(ErrorAt(args, b))
      {
        assert b == bad;
      }
    }
  }

  /** A value option never survives parsing: a successful parse holds flags only. */
  lemma ParsedArgumentsAreFlags(args: seq<string>)
    requires ParseArguments(args).Success?
    ensures forall a :: a in ParseArguments(args).value ==> IsFlagOption(a) && ParseArguments(args).value[a] == None
  {
    ParseArgumentsOutcome(args);
    forall a | a in ParseArguments(args).value ensures IsFlagOption(a) {
      var k :| 0 <= k < |args| && args[k] == a;
      assert GoodAt(args, k);
    }
  }

  /** `--db` followed by a name is refused, and the name is what is reported. */
  lemma DatabaseOptionRefused()
    ensures ParseArguments(["--db", "Shop"]) == Failure(UnknownArgument("Shop"))
    ensures ParseArguments(["--db"]) == Failure(MissingValue("--db"))
  {
    var args := ["--db", "Shop"];
    assert !StartsWith(args[1], "--") by { assert args[1][..2] == "Sh"; }
    assert ParseArguments(args) == ParseFrom(args, 1, map["--db" := Some("Shop")]);
  }

  // ---------------------------------------------------------------------------
  // int.TryParse with NumberStyles.Integer
  // ---------------------------------------------------------------------------

  const Int32Min := -0x8000_0000
  const Int32Max := 0x7FFF_FFFF

  /** The white space `NumberStyles.Integer` allows around a number: tab to carriage return, and space. */
  predicate IsNumberWhite(c: char)
  {
    c == ' ' || '\t' <= c <= '\r'
  }

  function TrimNumberWhite(s: string): (r: string)
    ensures |r| <= |s|
    decreases |s|
  {
    if |s| > 0 && IsNumberWhite(s[0]) then TrimNumberWhite(s[1..])
    else if |s| > 0 && IsNumberWhite(s[|s| - 1]) then TrimNumberWhite(s[..|s| - 1])
    else s
  }

  predicate IsDigit(c: char)
  {
    '0' <= c <= '9'
  }

  predicate AllDigits(s: string)
  {
    forall i :: 0 <= i < |s| ==> IsDigit(s[i])
  }

  /** The value of a string of decimal digits. */
  function DigitsValue(ds: string): nat
    requires AllDigits(ds)
    decreases |ds|
  {
    if |ds| == 0 then 0
    else DigitsValue(ds[..|ds| - 1]) * 10 + (ds[|ds| - 1] as int - '0' as int)
  }

  /**
   * `int.TryParse`: optional white space around an optional sign and at
   * least one decimal digit, within the 32-bit range; null fails.
   */
  function ParseInt32(s: Option<string>): (r: Option<int>)
    ensures r.Some? ==> Int32Min <= r.value <= Int32Max
    ensures s.None? ==> r.None?
  {
    if s.None? then None
    else
      var t := TrimNumberWhite(s.value);
      var negative := |t| > 0 && t[0] == '-';
      var digits := if |t| > 0 && (t[0] == '-' || t[0] == '+') then t[1..] else t;
      if |digits| == 0 || !AllDigits(digits) then None
      else
        var magnitude: int := DigitsValue(digits);
        var v := if negative then -magnitude else magnitude;
        if Int32Min <= v <= Int32Max then Some(v) else None
  }

  /** The decimal digits of a natural number, as `ToString` writes them. */
  function FormatNat(n: nat): (r: string)
    ensures |r| > 0 && AllDigits(r)
    decreases n
  {
    if n < 10 then [('0' as int + n) as char]
    else FormatNat(n / 10) + [('0' as int + n % 10) as char]
  }

  /** `int.ToString()`. */
  function FormatInt(n: int): (r: string)
    ensures |r| > 0
  {
    if n < 0 then "-" + FormatNat(-n) else FormatNat(n)
  }

  lemma {:induction false} DigitsOfFormatNat(n: nat)
    ensures DigitsValue(FormatNat(n)) == n
    decreases n
  {
    if n >= 10 {
      var f := FormatNat(n / 10);
      DigitsOfFormatNat(n / 10);
      assert (f + [('0' as int + n % 10) as char])[..|f|] == f;
    }
  }

  /** Every 32-bit integer, written out, parses back to itself. */
  lemma ParseFormatRoundTrip(n: int)
    requires Int32Min <= n <= Int32Max
    ensures ParseInt32(Some(FormatInt(n))) == Some(n)
  {
    var f := FormatInt(n);
    var digits := FormatNat(if n < 0 then -n else n);
    DigitsOfFormatNat(if n < 0 then -n else n);
    assert !IsNumberWhite(f[0]) && !IsNumberWhite(f[|f| - 1]) by {
      assert IsDigit(digits[|digits| - 1]);
      if n < 0 {
        assert f[|f| - 1] == digits[|digits| - 1];
      }
    }
    assert TrimNumberWhite(f) == f;
    if n < 0 {
      assert f[1..] == digits;
    } else {
      assert IsDigit(f[0]);
    }
  }

  /** White space around the number is skipped; other characters are refused. */
  lemma ParseInt32Examples()
    ensures ParseInt32(Some(" 42\t")) == Some(42)
    ensures ParseInt32(Some("4x")) == None && ParseInt32(Some("")) == None && ParseInt32(Some("-")) == None
  {
    assert TrimNumberWhite(" 42\t") == "42" by {
      assert " 42\t"[1..] == "42\t";
      assert "42\t"[..2] == "42";
    }
    assert DigitsValue("42") == 42 by {
      assert "42"[..1] == "4";
      assert "4"[..0] == "";
    }
    assert !AllDigits("4x") by { assert !IsDigit("4x"[1]); }
    assert TrimNumberWhite("-") == "-";
    assert "-"[1..] == "";
  }

  // ---------------------------------------------------------------------------
  // From arguments to options
  // ---------------------------------------------------------------------------

  /** The value stored under a key, or null when the key is absent. */
  function Lookup(args: Arguments, key: string): Option<string>
  {
    if key in args then args[key] else None
  }

  /**
   * The options the arguments describe: fresh options with every given
   * value copied in and every given flag set; a timeout that does not parse
   * as an integer is refused.
   */
  function OptionsFromArguments(args: Arguments): (r: Result<Options, CliError>)
    ensures r.Failure? <==> Timeout in args && ParseInt32(args[Timeout]).None?
    ensures r.Failure? ==> r.error == TimeoutNotInteger
    ensures r.Success? ==>
      var o := r.value;
      o.connectionString == Lookup(args, Conn) && o.database == Lookup(args, Db) && o.server == Lookup(args, Server)
      && o.directory == Lookup(args, Dir) && o.migrationsTable == Lookup(args, Table)
      && o.commandTimeout == (if Timeout in args then ParseInt32(args[Timeout]).value else DefaultOptions.commandTimeout)
      && o.isPreview == (Preview in args) && o.useGlobalTransaction == (Global in args) && o.force == (Force in args)
      && o.autoRunPrefixes == DefaultOptions.autoRunPrefixes && o.provider == DefaultOptions.provider
  {
    if Timeout in args && ParseInt32(args[Timeout]).None? then Failure(TimeoutNotInteger)
    else
      Success(Options(
        Lookup(args, Conn), Lookup(args, Db), Lookup(args, Server),
        if Timeout in args then ParseInt32(args[Timeout]).value else DefaultOptions.commandTimeout,
        Lookup(args, Dir), Preview in args, Global in args, Lookup(args, Table), Force in args,
        DefaultOptions.autoRunPrefixes, DefaultOptions.provider))
  }

  /** Copies the arguments onto fresh options, one field at a time. */
  method CreateOptions(args: Arguments) returns (r: Result<Options, CliError>)
    ensures r == OptionsFromArguments(args)
  {
    var options := DefaultOptions;
    var commandTimeout := options.commandTimeout;
    if Timeout in args {
      var timeout := ParseInt32(args[Timeout]);
      if timeout.None? {
        return Failure(TimeoutNotInteger);
      }
      commandTimeout := timeout.value;
    }
    options := options.(
      connectionString := Lookup(args, Conn),
      database := Lookup(args, Db),
      server := Lookup(args, Server),
      directory := Lookup(args, Dir),
      migrationsTable := Lookup(args, Table),
      commandTimeout := commandTimeout);
    if Preview in args {
      options := options.(isPreview := true);
    }
    if Global in args {
      options := options.(useGlobalTransaction := true);
    }
    if Force in args {
      options := options.(force := true);
    }
    r := Success(options);
  }

  /** Options built from flags alone name neither a connection string nor a database. */
  lemma FlagOptionsAreInvalid(args: Arguments)
    requires forall a :: a in args ==> IsFlagOption(a)
    ensures OptionsFromArguments(args).Success?
    ensures AssertValid(OptionsFromArguments(args).value) == Fail(NoSingleTarget)
  {
    assert Conn !in args && Db !in args && Timeout !in args;
  }

  // ---------------------------------------------------------------------------
  // Dispatch
  // ---------------------------------------------------------------------------

  datatype ExecuteError = ArgumentError(argumentError: CliError) | InvalidOptions(optionsError: OptionsError)

  /** What `Execute` writes. */
  datatype Output = HelpText | VersionLine(text: string) | OutstandingLine(count: nat) | ErrorText(error: ExecuteError)

  /**
   * What `Execute` returns and writes, and the database state it leaves:
   * help for no arguments or `--help`, then the version, then the count or
   * the run; any error is written followed by the help text.
   */
  function ExecuteSpec(args: seq<string>, env: Runner.Environment, s: DbState, clock: nat -> Orchestration.Stamp)
    : (r: (bool, seq<Output>, DbState))
  {
    match ParseArguments(args)
    case Failure(e) => (false, [ErrorText(ArgumentError(e)), HelpText], s)
    case Success(dict) =>
      if |dict| == 0 || Help in dict then (true, [HelpText], s)
      else if Version in dict then (true, [VersionLine(VersionText)], s)
      else match OptionsFromArguments(dict)
        case Failure(e) => (false, [ErrorText(ArgumentError(e)), HelpText], s)
        case Success(o) =>
          if AssertValid(o).Fail? then (false, [ErrorText(InvalidOptions(AssertValid(o).error)), HelpText], s)
          else
            var config := Runner.StartConfig(o, env, s);
            var migrations := Runner.AllMigrations(env.files, o.autoRunPrefixes, env);
            if Count in dict then
              (true, [OutstandingLine(Orchestration.CountOutstanding(config, migrations))], Runner.StartState(o, s))
            else
              var run := Orchestration.RunAll(config, Runner.StartState(o, s), migrations, clock);
              (run.1.success, [], run.0)
  }

  /** Parses the arguments and dispatches; returns whether the command succeeded. */
  method Execute(args: seq<string>, env: Runner.Environment, conn: Connection, clock: nat -> Orchestration.Stamp)
    returns (ok: bool, output: seq<Output>)
    modifies conn
    ensures (ok, output, conn.State()) == ExecuteSpec(args, env, old(conn.State()), clock)
  {
    var parsed := GetArgumentsDictionary(args);
    if parsed.Failure? {
      return false, [ErrorText(ArgumentError(parsed.error)), HelpText];
    }
    var argsDictionary := parsed.value;
    if |argsDictionary| == 0 || Help in argsDictionary {
      return true, [HelpText];
    }
    if Version in argsDictionary {
      return true, [VersionLine(VersionText)];
    }
    var options := CreateOptions(argsDictionary);
    if options.Failure? {
      return false, [ErrorText(ArgumentError(options.error)), HelpText];
    }
    if Count in argsDictionary {
      var count := Runner.GetOutstandingMigrationsCount(options.value, env, conn);
      if count.Failure? {
        return false, [ErrorText(InvalidOptions(count.error)), HelpText];
      }
      return true, [OutstandingLine(count.value)];
    }
    var result := Runner.RunOutstandingMigrations(options.value, env, conn, clock);
    if result.Failure? {
      return false, [ErrorText(InvalidOptions(result.error)), HelpText];
    }
    return result.value.success, [];
  }

  /**
   * As written, the command line succeeds exactly for no arguments, `--help`
   * or `--version`, writing only the help text or the version, and it never
   * changes the database: every other command is refused with the help text.
   */
  lemma ExecuteOnlyHelpOrVersion(args: seq<string>, env: Runner.Environment, s: DbState, clock: nat -> Orchestration.Stamp)
    ensures var (ok, output, s') := ExecuteSpec(args, env, s, clock);
      s' == s
      && (ok <==> ParseArguments(args).Success?
                  && (|ParseArguments(args).value| == 0 || Help in ParseArguments(args).value || Version in ParseArguments(args).value))
      && (ok ==> output == [HelpText] || output == [VersionLine(VersionText)])
      && (!ok ==> |output| == 2 && output[0].ErrorText? && output[1] == HelpText)
  {
    if ParseArguments(args).Success? {
      var dict := ParseArguments(args).value;
      ParsedArgumentsAreFlags(args);
      FlagOptionsAreInvalid(dict);
    }
  }
}

=== FILE: connection_info.dfy ===
/**
 * The older connection description: the same two factories as `Database`,
 * without a bookkeeping table name.
 */
module Connections {
  import opened Wrappers
  import opened Types
  import opened Text
  import Databases

  /** A connection string with the database and server it names. */
  datatype ConnectionInfo = ConnectionInfo(connectionString: string, databaseName: string, serverName: string)

  /**
   * An integrated-authentication connection: refused when the database
   * name or, after it, the server name is null or white space; otherwise
   * the names are kept and the connection string is built from them.
   */
  function BuildIntegratedAuth(databaseName: Option<string>, serverName: Option<string> := Some("localhost"))
    : (r: Result<ConnectionInfo, FactoryError>)
    ensures r.Failure? <==> IsNullOrWhiteSpace(databaseName) || IsNullOrWhiteSpace(serverName)
    ensures IsNullOrWhiteSpace(databaseName) ==> r == Failure(MissingDatabaseName)
    ensures !IsNullOrWhiteSpace(databaseName) && IsNullOrWhiteSpace(serverName) ==> r == Failure(MissingServerName)
    ensures r.Success? ==>
      r.value.databaseName == databaseName.value && r.value.serverName == serverName.value
      && r.value.connectionString == IntegratedAuthConnectionString(databaseName.value, serverName.value)
  {
    if IsNullOrWhiteSpace(databaseName) then Failure(MissingDatabaseName)
    else if IsNullOrWhiteSpace(serverName) then Failure(MissingServerName)
    else
      var conn := IntegratedAuthConnectionString(databaseName.value, serverName.value);
      Success(ConnectionInfo(conn, databaseName.value, serverName.value))
  }

  /**
   * A connection from a raw connection string: refused when the string is
   * null or white space, before it is parsed; refused when the builder
   * rejects it or finds no catalog or no data source; otherwise the string
   * is kept verbatim.
   */
  function FromConnectionString(connectionString: Option<string>, parse: ConnectionStringParser)
    : (r: Result<ConnectionInfo, FactoryError>)
    ensures IsNullOrWhiteSpace(connectionString) ==> r == Failure(MissingConnectionString)
    ensures !IsNullOrWhiteSpace(connectionString) ==>
      (r.Success? <==> parse(connectionString.value).Some?
                       && !IsBlank(parse(connectionString.value).value.initialCatalog)
                       && !IsBlank(parse(connectionString.value).value.dataSource))
    ensures r.Success? ==>
      r.value.connectionString == connectionString.value
      && r.value.databaseName == parse(connectionString.value).value.initialCatalog
      && r.value.serverName == parse(connectionString.value).value.dataSource
  {
    if IsNullOrWhiteSpace(connectionString) then Failure(MissingConnectionString)
    else match parse(connectionString.value)
      case None => Failure(MalformedConnectionString)
      case Some(builder) =>
        if IsBlank(builder.initialCatalog) then Failure(MissingInitialCatalog)
        else if IsBlank(builder.dataSource) then Failure(MissingDataSource)
        else Success(ConnectionInfo(connectionString.value, builder.initialCatalog, builder.dataSource))
  }

  /** The connection part of a database description. */
  function InfoOf(db: Databases.Database): ConnectionInfo
  {
    ConnectionInfo(db.connectionString, db.databaseName, db.serverName)
  }

  /**
   * The two descriptions agree: for the same names, or the same connection
   * string and builder, both succeed or fail with the same error, and on
   * success they hold the same connection string and names.
   */
  lemma FactoriesAgree(databaseName: Option<string>, serverName: Option<string>, table: Option<string>,
                       connectionString: Option<string>, parse: ConnectionStringParser)
    ensures var c := BuildIntegratedAuth(databaseName, serverName);
            var d := Databases.FromIntegratedAuth(databaseName, serverName, table);
            (c.Failure? <==> d.Failure?) && (c.Failure? ==> c.error == d.error) && (c.Success? ==> c.value == InfoOf(d.value))
    ensures var c := FromConnectionString(connectionString, parse);
            var d := Databases.FromConnectionString(connectionString, parse, table);
            (c.Failure? <==> d.Failure?) && (c.Failure? ==> c.error == d.error) && (c.Success? ==> c.value == InfoOf(d.value))
  {
  }
}

=== FILE: database.dfy ===
/**
 * The description of a SQL Server database to migrate: built from a
 * database and server name with integrated authentication, or from a raw
 * connection string.
 */
module Databases {
  import opened Wrappers
  import opened Types
  import opened Text
  import Configuration

  /** A database to connect to and the bookkeeping table to use in it. */
  datatype Database = Database(
    connectionString: string,
    databaseName: string,
    serverName: string,
    migrationsTableName: Option<string>)

  /**
   * An integrated-authentication database: refused when the database name
   * or, after it, the server name is null or white space; otherwise the
   * names are kept and the connection string is built from them.
   */
  function FromIntegratedAuth(databaseName: Option<string>, serverName: Option<string> := Some("localhost"),
                              migrationsTableName: Option<string> := Some(DefaultMigrationsTable))
    : (r: Result<Database, FactoryError>)
    ensures r.Failure? <==> IsNullOrWhiteSpace(databaseName) || IsNullOrWhiteSpace(serverName)
    ensures IsNullOrWhiteSpace(databaseName) ==> r == Failure(MissingDatabaseName)
    ensures !IsNullOrWhiteSpace(databaseName) && IsNullOrWhiteSpace(serverName) ==> r == Failure(MissingServerName)
    ensures r.Success? ==>
      r.value.databaseName == databaseName.value && r.value.serverName == serverName.value
      && r.value.migrationsTableName == migrationsTableName
      && r.value.connectionString == IntegratedAuthConnectionString(databaseName.value, serverName.value)
  {
    if IsNullOrWhiteSpace(databaseName) then Failure(MissingDatabaseName)
    else if IsNullOrWhiteSpace(serverName) then Failure(MissingServerName)
    else
      var conn := IntegratedAuthConnectionString(databaseName.value, serverName.value);
      Success(Database(conn, databaseName.value, serverName.value, migrationsTableName))
  }

  /**
   * A database from a raw connection string: refused when the string is
   * null or white space, before it is parsed; refused when the builder
   * rejects it or finds no catalog or no data source; otherwise the string
   * is kept verbatim with the catalog and data source the builder read.
   */
  function FromConnectionString(connectionString: Option<string>, parse: ConnectionStringParser,
                                migrationsTableName: Option<string> := Some(DefaultMigrationsTable))
    : (r: Result<Database, FactoryError>)
    ensures IsNullOrWhiteSpace(connectionString) ==> r == Failure(MissingConnectionString)
    ensures !IsNullOrWhiteSpace(connectionString) ==>
      (r.Success? <==> parse(connectionString.value).Some?
                       && !IsBlank(parse(connectionString.value).value.initialCatalog)
                       && !IsBlank(parse(connectionString.value).value.dataSource))
    ensures r.Success? ==>
      r.value.connectionString == connectionString.value
      && r.value.databaseName == parse(connectionString.value).value.initialCatalog
      && r.value.serverName == parse(connectionString.value).value.dataSource
      && r.value.migrationsTableName == migrationsTableName
  {
    if IsNullOrWhiteSpace(connectionString) then Failure(MissingConnectionString)
    else match parse(connectionString.value)
      case None => Failure(MalformedConnectionString)
      case Some(builder) =>
        if IsBlank(builder.initialCatalog) then Failure(MissingInitialCatalog)
        else if IsBlank(builder.dataSource) then Failure(MissingDataSource)
        else Success(Database(connectionString.value, builder.initialCatalog, builder.dataSource, migrationsTableName))
  }

  /** With the defaults, the server is localhost and the bookkeeping table is "Migrations". */
  lemma IntegratedAuthDefaults(databaseName: string)
    requires !IsBlank(databaseName)
    ensures FromIntegratedAuth(Some(databaseName)).Success?
    ensures FromIntegratedAuth(Some(databaseName)).value.serverName == "localhost"
    ensures FromIntegratedAuth(Some(databaseName)).value.migrationsTableName == Some(DefaultMigrationsTable)
  {
    assert !IsBlank("localhost") by { assert !IsWhiteSpace("localhost"[0]); }
  }

  /**
   * Reading back a built description: a builder that reads the catalog and
   * server of an integrated-auth string gives the same description again.
   * This is conditional: the integrated-auth string is built without quoting,
   * so a database or server name containing `;` or `=` is not read back as it
   * was, and then the second precondition does not hold.
   */
  lemma IntegratedAuthReadsBack(databaseName: string, serverName: string, table: Option<string>, parse: ConnectionStringParser)
    requires !IsBlank(databaseName) && !IsBlank(serverName)
    requires parse(IntegratedAuthConnectionString(databaseName, serverName)) == Some(ConnectionStringParts(databaseName, serverName))
    ensures FromIntegratedAuth(Some(databaseName), Some(serverName), table).Success?
    ensures FromConnectionString(Some(FromIntegratedAuth(Some(databaseName), Some(serverName), table).value.connectionString), parse, table)
            == FromIntegratedAuth(Some(databaseName), Some(serverName), table)
  {
    var conn := IntegratedAuthConnectionString(databaseName, serverName);
    assert !IsBlank(conn) by {
      assert conn[0] == "Persist Security Info=False;"[0];
    }
  }

  /**
   * For options that name a database and a server, the options and the
   * factory build the same connection string.
   */
  lemma OptionsAgreeWithFactory(o: Configuration.Options)
    requires Configuration.AssertValid(o).Pass? && IsNullOrEmpty(o.connectionString)
    requires !IsNullOrWhiteSpace(o.database) && !IsNullOrWhiteSpace(o.server)
    ensures FromIntegratedAuth(o.database, o.server).Success?
    ensures Configuration.GetConnectionString(o, SqlServer) == Success(FromIntegratedAuth(o.database, o.server).value.connectionString)
  {
    Configuration.ConnectionStringForDatabase(o);
  }
}

=== FILE: hashing.dfy ===
/**
 * The hash that identifies the contents of a migration file: line endings
 * normalised to '\n', the text encoded as UTF-16 little-endian, digested with
 * SHA-256 and written as lower-case hexadecimal. SHA-256 itself is a
 * parameter of the model.
 */
module Hashing {
  import opened Wrappers

  newtype byte = b: int | 0 <= b < 256

  // ---------------------------------------------------------------------------
  // Line endings
  // ---------------------------------------------------------------------------

  /**
   * What normalisation makes of the front of a non-empty text: "\n" for a
   * line ending ("\r\n" tried before a lone "\r"), the character itself
   * otherwise; and how many characters that consumes.
   */
  function Front(s: string): (r: (string, nat))
    requires |s| > 0
    ensures |r.0| == 1 && 1 <= r.1 <= |s|
  {
    if s[0] == '\r' && |s| >= 2 && s[1] == '\n' then ("\n", 2)
    else if s[0] == '\r' then ("\n", 1)
    else ([s[0]], 1)
  }

  /** Every line ending of `s` ("\r\n", "\n" or a lone "\r", matched leftmost) replaced by "\n". */
  function Normalize(s: string): (r: string)
    ensures |r| <= |s|
    decreases |s|
  {
    if |s| == 0 then []
    else
      var (out, len) := Front(s);
      out + Normalize(s[len..])
  }

  /** No carriage return is left after normalising. */
  lemma {:induction false} NormalizeRemovesCarriageReturns(s: string)
    ensures '\r' !in Normalize(s)
    decreases |s|
  {
    if |s| > 0 {
      NormalizeRemovesCarriageReturns(s[Front(s).1..]);
    }
  }

  /** A text without carriage returns is left as it is. */
  lemma {:induction false} NormalizeFixpoint(s: string)
    requires '\r' !in s
    ensures Normalize(s) == s
    decreases |s|
  {
    if |s| > 0 {
      assert s[0] != '\r';
      assert '\r' !in s[1..] by {
        forall i | 0 <= i < |s[1..]| ensures s[1..][i] != '\r' {
          assert s[1..][i] == s[i + 1];
        }
      }
      NormalizeFixpoint(s[1..]);
      assert s == [s[0]] + s[1..];
    }
  }

  /** Normalising twice is normalising once. */
  lemma NormalizeIdempotent(s: string)
    ensures Normalize(Normalize(s)) == Normalize(s)
  {
    NormalizeRemovesCarriageReturns(s);
    NormalizeFixpoint(Normalize(s));
  }

  /** The front of a text is not changed by what follows, unless that splits a "\r\n" pair. */
  lemma FrontAppend(a: string, b: string)
    requires |a| > 0
    requires a[|a| - 1] != '\r' || b == [] || b[0] != '\n'
    ensures Front(a + b) == Front(a)
  {
    var ab := a + b;
    assert ab[0] == a[0];
    if |a| >= 2 {
      assert ab[1] == a[1];
    } else if |b| > 0 {
      assert ab[1] == b[0];
    }
  }

  /**
   * Normalisation works piecewise when the cut does not fall inside a
   * "\r\n" pair.
   */
  lemma {:induction false} NormalizeAppend(a: string, b: string)
    requires a == [] || a[|a| - 1] != '\r' || b == [] || b[0] != '\n'
    ensures Normalize(a + b) == Normalize(a) + Normalize(b)
    decreases |a|
  {
    if |a| == 0 {
      assert a + b == b;
    } else {
      FrontAppend(a, b);
      var (out, len) := Front(a);
      assert (a + b)[len..] == a[len..] + b;
      if len < |a| {
        assert a[len..][|a[len..]| - 1] == a[|a| - 1];
      }
      NormalizeAppend(a[len..], b);
      calc {
        Normalize(a + b);
        out + Normalize(a[len..] + b);
        out + (Normalize(a[len..]) + Normalize(b));
        (out + Normalize(a[len..])) + Normalize(b);
      }
    }
  }

  /**
   * The three line endings are interchangeable: a file whose lines end in
   * "\r\n", "\n" or "\r" normalises to the same text.
   */
  lemma LineEndingsAgree(a: string, b: string)
    requires a == [] || a[|a| - 1] != '\r'
    requires b == [] || b[0] != '\n'
    ensures Normalize(a + "\r\n" + b) == Normalize(a + "\n" + b)
    ensures Normalize(a + "\r" + b) == Normalize(a + "\n" + b)
  {
    NormalizeOfLineEnding("\r\n");
    NormalizeOfLineEnding("\n");
    NormalizeOfLineEnding("\r");
    NormalizeAroundLineEnding(a, "\r\n", b);
    NormalizeAroundLineEnding(a, "\n", b);
    NormalizeAroundLineEnding(a, "\r", b);
  }

  /** A line ending between two texts becomes one "\n" between their normalised forms. */
  lemma NormalizeAroundLineEnding(a: string, e: string, b: string)
    requires a == [] || a[|a| - 1] != '\r'
    requires b == [] || b[0] != '\n'
    requires |e| > 0 && Normalize(e) == "\n"
    ensures Normalize(a + e + b) == Normalize(a) + "\n" + Normalize(b)
  {
    var eb := e + b;
    NormalizeAppend(e, b);
    assert Normalize(eb) == "\n" + Normalize(b);
    NormalizeAppend(a, eb);
    assert a + e + b == a + eb;
  }

  /** Each line ending on its own normalises to "\n". */
  lemma NormalizeOfLineEnding(e: string)
    requires e == "\r\n" || e == "\n" || e == "\r"
    ensures Normalize(e) == "\n"
  {
    assert Front(e).1 == |e|;
    assert e[|e|..] == [];
  }

  /** A line feed followed by a carriage return is two line endings. */
  lemma LineFeedThenCarriageReturn()
    ensures Normalize("\n\r") == "\n\n"
  {
  }

  // ---------------------------------------------------------------------------
  // UTF-16 little-endian
  // ---------------------------------------------------------------------------

  /** The UTF-16 little-endian bytes of one character (two, or four for a surrogate pair). */
  function EncodeChar(c: char): (r: seq<byte>)
    ensures |r| == 2 || |r| == 4
    ensures |r| == 4 <==> c as int >= 0x10000
  {
    var v := c as int;
    if v < 0x10000 then [(v % 256) as byte, (v / 256) as byte]
    else
      var x := v - 0x10000;
      var hi := 0xD800 + x / 0x400;
      var lo := 0xDC00 + x % 0x400;
      [(hi % 256) as byte, (hi / 256) as byte, (lo % 256) as byte, (lo / 256) as byte]
  }

  /** The UTF-16 little-endian encoding of a text. */
  function Utf16Le(s: string): (r: seq<byte>)
    ensures |r| % 2 == 0 && 2 * |s| <= |r| <= 4 * |s|
  {
    if |s| == 0 then [] else EncodeChar(s[0]) + Utf16Le(s[1..])
  }

  /** The code point of a surrogate pair. */
  function SurrogatePair(hi: int, lo: int): (c: char)
    requires 0xD800 <= hi < 0xDC00 && 0xDC00 <= lo < 0xE000
    ensures c as int == 0x10000 + (hi - 0xD800) * 0x400 + (lo - 0xDC00)
  {
    var p := hi - 0xD800;
    assert p * 0x400 <= 0x3FF * 0x400;
    (0x10000 + p * 0x400 + (lo - 0xDC00)) as char
  }

  /** Decoding of UTF-16 little-endian bytes; `None` for an odd length or a broken surrogate pair. */
  function DecodeUtf16Le(b: seq<byte>): (r: Option<string>)
    decreases |b|
  {
    if |b| == 0 then Some([])
    else if |b| < 2 then None
    else
      var u := b[0] as int + 256 * b[1] as int;
      if 0xD800 <= u < 0xDC00 then
        if |b| < 4 then None
        else
          var w := b[2] as int + 256 * b[3] as int;
          if 0xDC00 <= w < 0xE000 then
            match DecodeUtf16Le(b[4..])
            case None => None
            case Some(t) => Some([SurrogatePair(u, w)] + t)
          else None
      else if 0xDC00 <= u < 0xE000 then None
      else
        match DecodeUtf16Le(b[2..])
        case None => None
        case Some(t) => Some([u as char] + t)
  }

  /** Decoding the bytes of one character followed by more bytes gives that character first. */
  lemma DecodeEncodeChar(c: char, rest: seq<byte>)
    ensures DecodeUtf16Le(EncodeChar(c) + rest) ==
      match DecodeUtf16Le(rest)
      case None => None
      case Some(t) => Some([c] + t)
  {
    var e := EncodeChar(c);
    var b := e + rest;
    var v := c as int;
    if v < 0x10000 {
      assert b[0] as int + 256 * b[1] as int == v;
      assert b[2..] == rest;
    } else {
      var x := v - 0x10000;
      assert b[0] as int + 256 * b[1] as int == 0xD800 + x / 0x400;
      assert b[2] as int + 256 * b[3] as int == 0xDC00 + x % 0x400;
      assert b[4..] == rest;
      assert SurrogatePair(0xD800 + x / 0x400, 0xDC00 + x % 0x400) == c;
    }
  }

  /** The encoding loses nothing: decoding it gives the text back. */
  lemma {:induction false} Utf16LeRoundTrip(s: string)
    ensures DecodeUtf16Le(Utf16Le(s)) == Some(s)
    decreases |s|
  {
    if |s| > 0 {
      Utf16LeRoundTrip(s[1..]);
      DecodeEncodeChar(s[0], Utf16Le(s[1..]));
      assert s == [s[0]] + s[1..];
    }
  }

  /** Different texts have different encodings. */
  lemma Utf16LeInjective(s: string, t: string)
    requires Utf16Le(s) == Utf16Le(t)
    ensures s == t
  {
    Utf16LeRoundTrip(s);
    Utf16LeRoundTrip(t);
  }

  // ---------------------------------------------------------------------------
  // Hexadecimal
  // ---------------------------------------------------------------------------

  /** A lower-case hexadecimal digit. */
  predicate IsHexDigit(c: char)
  {
    '0' <= c <= '9' || 'a' <= c <= 'f'
  }

  /** The value of a lower-case hexadecimal digit. */
  function DigitValue(c: char): (r: Option<int>)
    ensures r.Some? <==> IsHexDigit(c)
    ensures r.Some? ==> 0 <= r.value < 16
  {
    if '0' <= c <= '9' then Some(c as int - '0' as int)
    else if 'a' <= c <= 'f' then Some(c as int - 'a' as int + 10)
    else None
  }

  /** The lower-case hexadecimal digit of a nibble, '0' + n below ten and 'a' - 10 + n from ten on; reading it back gives the nibble. */
  function HexDigit(n: int): (c: char)
    requires 0 <= n < 16
    ensures IsHexDigit(c)
    ensures DigitValue(c) == Some(n)
  {
    if n < 0xa then ('0' as int + n) as char else (('a' as int - 10) + n) as char
  }

  /** Two digits per byte, the high nibble first. */
  function Hex(bytes: seq<byte>): (r: string)
    ensures |r| == 2 * |bytes|
  {
    if |bytes| == 0 then []
    else [HexDigit(bytes[0] as int / 16), HexDigit(bytes[0] as int % 16)] + Hex(bytes[1..])
  }

  /** Reading hexadecimal back into bytes; `None` for an odd length or a character that is not a lower-case digit. */
  function FromHex(s: string): (r: Option<seq<byte>>)
    ensures r.Some? ==> 2 * |r.value| == |s|
    decreases |s|
  {
    if |s| == 0 then Some([])
    else if |s| == 1 then None
    else
      var h, l, rest := DigitValue(s[0]), DigitValue(s[1]), FromHex(s[2..]);
      if h.Some? && l.Some? && rest.Some? then Some([(16 * h.value + l.value) as byte] + rest.value)
      else None
  }

  /** The hexadecimal text gives the bytes back. */
  lemma {:induction false} HexRoundTrip(bytes: seq<byte>)
    ensures FromHex(Hex(bytes)) == Some(bytes)
    decreases |bytes|
  {
    if |bytes| > 0 {
      var b := bytes[0] as int;
      var h := Hex(bytes);
      HexRoundTrip(bytes[1..]);
      assert h == [HexDigit(b / 16), HexDigit(b % 16)] + Hex(bytes[1..]);
      assert h[0] == HexDigit(b / 16) && h[1] == HexDigit(b % 16);
      assert h[2..] == Hex(bytes[1..]);
      assert DigitValue(h[0]) == Some(b / 16);
      assert DigitValue(h[1]) == Some(b % 16);
      assert FromHex(h[2..]) == Some(bytes[1..]);
      assert (16 * (b / 16) + b % 16) as byte == bytes[0];
      assert bytes == [bytes[0]] + bytes[1..];
    }
  }

  /** The hexadecimal text consists of lower-case digits only. */
  lemma {:induction false} HexIsLowerCase(bytes: seq<byte>)
    ensures forall i :: 0 <= i < |Hex(bytes)| ==> IsHexDigit(Hex(bytes)[i])
    decreases |bytes|
  {
    if |bytes| > 0 {
      HexIsLowerCase(bytes[1..]);
      var h := Hex(bytes);
      forall i | 2 <= i < |h| ensures IsHexDigit(h[i]) {
        assert h[i] == Hex(bytes[1..])[i - 2];
      }
    }
  }

  /** Appending a byte appends its two digits. */
  lemma {:induction false} HexSnoc(bytes: seq<byte>, b: byte)
    ensures Hex(bytes + [b]) == Hex(bytes) + [HexDigit(b as int / 16), HexDigit(b as int % 16)]
    decreases |bytes|
  {
    if |bytes| == 0 {
      assert bytes + [b] == [b];
    } else {
      assert (bytes + [b])[1..] == bytes[1..] + [b];
      HexSnoc(bytes[1..], b);
    }
  }

  /**
   * Writes the two digits of every byte into a character buffer of twice the
   * length, advancing a write position, and returns the buffer as a text.
   */
  method ToHex(bytes: seq<byte>) returns (r: string)
    ensures r == Hex(bytes)
  {
    var len := |bytes| * 2;
    var buffer := new char[len];
    var ptr := 0;
    var i := 0;
    while i < |bytes|
      invariant 0 <= i <= |bytes| && ptr == 2 * i
      invariant buffer[..ptr] == Hex(bytes[..i])
    {
      var b := bytes[i];
      var nibble := b as int / 16;
      buffer[ptr] := if nibble < 0xa then ('0' as int + nibble) as char else (('a' as int - 10) + nibble) as char;
      ptr := ptr + 1;
      nibble := b as int % 16;
      buffer[ptr] := if nibble < 0xa then ('0' as int + nibble) as char else (('a' as int - 10) + nibble) as char;
      ptr := ptr + 1;
      HexSnoc(bytes[..i], b);
      assert bytes[..i + 1] == bytes[..i] + [b];
      i := i + 1;
    }
    assert bytes[..i] == bytes;
    r := buffer[..len];
  }

  // ---------------------------------------------------------------------------
  // The file hash
  // ---------------------------------------------------------------------------

  /** The hash of a file body, for a given SHA-256 function. */
  function CalculateHash(sha256: seq<byte> -> seq<byte>, body: string): (r: string)
    ensures |r| == 2 * |sha256(Utf16Le(Normalize(body)))|
    ensures FromHex(r) == Some(sha256(Utf16Le(Normalize(body))))
  {
    HexRoundTrip(sha256(Utf16Le(Normalize(body))));
    Hex(sha256(Utf16Le(Normalize(body))))
  }

  /** Files that differ only in which line endings they use have the same hash. */
  lemma HashIgnoresLineEndings(sha256: seq<byte> -> seq<byte>, a: string, b: string)
    requires a == [] || a[|a| - 1] != '\r'
    requires b == [] || b[0] != '\n'
    ensures CalculateHash(sha256, a + "\r\n" + b) == CalculateHash(sha256, a + "\n" + b)
    ensures CalculateHash(sha256, a + "\r" + b) == CalculateHash(sha256, a + "\n" + b)
  {
    LineEndingsAgree(a, b);
  }

  /** Two bodies with the same hash have the same digest of their normalised text. */
  lemma SameHashSameDigest(sha256: seq<byte> -> seq<byte>, a: string, b: string)
    requires CalculateHash(sha256, a) == CalculateHash(sha256, b)
    ensures sha256(Utf16Le(Normalize(a))) == sha256(Utf16Le(Normalize(b)))
  {
  }
}

=== FILE: history.dfy ===
/**
 * The index of migrations that already ran: one pass over the bookkeeping
 * rows fills a dictionary by file name and one by hash, later rows
 * overwriting earlier ones under the same key, and remembers the last row.
 */
module History {
  import opened Wrappers
  import opened Types

  /** Which column a dictionary is keyed by. */
  datatype Column = FilenameColumn | HashColumn

  function KeyOf(column: Column, row: MigrationRow): string
  {
    match column
    case FilenameColumn => row.filename
    case HashColumn => row.hash
  }

  /** The dictionary left by storing every row under its key, in order. */
  function Index(rows: seq<MigrationRow>, column: Column): (m: map<string, MigrationRow>)
    decreases |rows|
  {
    if |rows| == 0 then map[]
    else
      var row := rows[|rows| - 1];
      Index(rows[..|rows| - 1], column)[KeyOf(column, row) := row]
  }

  /** The last row, or null when there is none. */
  function LastRow(rows: seq<MigrationRow>): (r: Option<MigrationRow>)
    ensures r == None <==> |rows| == 0
    ensures r.Some? ==> r.value in rows && r.value == rows[|rows| - 1]
  {
    if |rows| == 0 then None else Some(rows[|rows| - 1])
  }

  /** The keys present: every key of some row, and nothing else. */
  function Keys(rows: seq<MigrationRow>, column: Column): set<string>
  {
    set i | 0 <= i < |rows| :: KeyOf(column, rows[i])
  }

  class AlreadyRan {
    var byFilename: map<string, MigrationRow>
    var byHash: map<string, MigrationRow>
    var last: Option<MigrationRow>

    /** Builds both dictionaries and the last row in one pass over the rows. */
    constructor (rows: seq<MigrationRow>)
      ensures byFilename == Index(rows, FilenameColumn)
      ensures byHash == Index(rows, HashColumn)
      ensures last == LastRow(rows)
    {
      byFilename := map[];
      byHash := map[];
      new;
      var lastSeen: Option<MigrationRow> := None;
      for i := 0 to |rows|
        invariant byFilename == Index(rows[..i], FilenameColumn)
        invariant byHash == Index(rows[..i], HashColumn)
        invariant lastSeen == LastRow(rows[..i])
      {
        var row := rows[i];
        assert rows[..i + 1][..i] == rows[..i];
        byFilename := byFilename[row.filename := row];
        byHash := byHash[row.hash := row];
        lastSeen := Some(row);
      }
      assert rows[..|rows|] == rows;
      last := lastSeen;
    }

    /** The number of entries by file name. */
    function Count(): nat
      reads this
    {
      |byFilename|
    }
  }

  /** The keys of the index are exactly the keys of the rows. */
  lemma {:induction false} IndexKeys(rows: seq<MigrationRow>, column: Column)
    ensures Index(rows, column).Keys == Keys(rows, column)
    decreases |rows|
  {
    if |rows| > 0 {
      var n := |rows|;
      IndexKeys(rows[..n - 1], column);
      forall k | k in Keys(rows, column) ensures k in Index(rows, column) {
        var i :| 0 <= i < n && KeyOf(column, rows[i]) == k;
        if i < n - 1 {
          assert k in Keys(rows[..n - 1], column) by { assert rows[..n - 1][i] == rows[i]; }
        }
      }
      forall k | k in Index(rows, column) ensures k in Keys(rows, column) {
        if k != KeyOf(column, rows[n - 1]) {
          var i :| 0 <= i < n - 1 && KeyOf(column, rows[..n - 1][i]) == k;
          assert rows[..n - 1][i] == rows[i];
        }
      }
    }
  }

  /**
   * Last write wins: the entry under a key is a row with that key, and no
   * later row has the same key.
   */
  lemma {:induction false} IndexLastWriteWins(rows: seq<MigrationRow>, column: Column, k: string)
    requires k in Index(rows, column)
    ensures exists i :: 0 <= i < |rows| && Index(rows, column)[k] == rows[i] && KeyOf(column, rows[i]) == k &&
                        forall j :: i < j < |rows| ==> KeyOf(column, rows[j]) != k
    decreases |rows|
  {
    var n := |rows|;
    if KeyOf(column, rows[n - 1]) == k {
      assert Index(rows, column)[k] == rows[n - 1];
    } else {
      var front := rows[..n - 1];
      IndexLastWriteWins(front, column, k);
      var i :| 0 <= i < |front| && Index(front, column)[k] == front[i] && KeyOf(column, front[i]) == k &&
               forall j :: i < j < |front| ==> KeyOf(column, front[j]) != k;
      assert front[i] == rows[i];
      forall j | i < j < n ensures KeyOf(column, rows[j]) != k {
        if j < n - 1 { assert front[j] == rows[j]; }
      }
    }
  }

  /** Under the uniqueness constraints, every row is the entry under its own key. */
  lemma {:induction false} UniqueRowsIndexed(rows: seq<MigrationRow>, column: Column, i: nat)
    requires UniqueRows(rows) && i < |rows|
    ensures KeyOf(column, rows[i]) in Index(rows, column)
    ensures Index(rows, column)[KeyOf(column, rows[i])] == rows[i]
    decreases |rows|
  {
    var n := |rows|;
    if i < n - 1 {
      var front := rows[..n - 1];
      assert front[i] == rows[i];
      assert UniqueRows(front) by {
        forall a, b | 0 <= a < b < |front| ensures front[a].filename != front[b].filename && front[a].hash != front[b].hash {
          assert front[a] == rows[a] && front[b] == rows[b];
        }
      }
      UniqueRowsIndexed(front, column, i);
      assert KeyOf(column, rows[n - 1]) != KeyOf(column, rows[i]);
    }
  }

  /**
   * Under the uniqueness constraints the two dictionaries agree: the row under
   * file name f has hash h exactly when the row under hash h has file name f.
   */
  lemma IndexesAgree(rows: seq<MigrationRow>, f: string, h: string)
    requires UniqueRows(rows)
    requires f in Index(rows, FilenameColumn) && h in Index(rows, HashColumn)
    ensures Index(rows, FilenameColumn)[f].hash == h <==> Index(rows, HashColumn)[h].filename == f
  {
    IndexLastWriteWins(rows, FilenameColumn, f);
    var i :| 0 <= i < |rows| && Index(rows, FilenameColumn)[f] == rows[i] && rows[i].filename == f;
    IndexLastWriteWins(rows, HashColumn, h);
    var j :| 0 <= j < |rows| && Index(rows, HashColumn)[h] == rows[j] && rows[j].hash == h;
    UniqueRowsIndexed(rows, HashColumn, i);
    UniqueRowsIndexed(rows, FilenameColumn, j);
  }

  /** Under the uniqueness constraints there is one entry per row. */
  lemma {:induction false} UniqueRowsCount(rows: seq<MigrationRow>, column: Column)
    requires UniqueRows(rows)
    ensures |Index(rows, column)| == |rows|
    decreases |rows|
  {
    var n := |rows|;
    if n > 0 {
      var front := rows[..n - 1];
      assert UniqueRows(front) by {
        forall a, b | 0 <= a < b < |front| ensures front[a].filename != front[b].filename && front[a].hash != front[b].hash {
          assert front[a] == rows[a] && front[b] == rows[b];
        }
      }
      UniqueRowsCount(front, column);
      IndexKeys(front, column);
      forall i | 0 <= i < |front| ensures KeyOf(column, front[i]) != KeyOf(column, rows[n - 1]) {
        assert front[i] == rows[i];
      }
      assert KeyOf(column, rows[n - 1]) !in Keys(front, column);
    }
  }

  /** The count is the number of distinct file names among the rows. */
  lemma CountIsDistinctFilenames(a: AlreadyRan, rows: seq<MigrationRow>)
    requires a.byFilename == Index(rows, FilenameColumn)
    ensures a.Count() == |Keys(rows, FilenameColumn)|
  {
    IndexKeys(rows, FilenameColumn);
    assert |a.byFilename| == |a.byFilename.Keys|;
  }

  /** The constructed index counts one entry per row when the table's constraints hold. */
  lemma CountIsRowCount(a: AlreadyRan, rows: seq<MigrationRow>)
    requires UniqueRows(rows) && a.byFilename == Index(rows, FilenameColumn)
    ensures a.Count() == |rows|
  {
    UniqueRowsCount(rows, FilenameColumn);
  }
}

=== FILE: logger.dfy ===
/**
 * Logging: the root logger's verbosity filter, nested loggers that either
 * forward to their parent or buffer until disposed, and the TeamCity block
 * lines that enclose a nested logger's output.
 */
module Logging {
  import opened Wrappers
  import opened Types

  /** One message on its way to a logger. */
  datatype BufferedMessage = BufferedMessage(verbosity: Verbosity, message: string)

  // ---------------------------------------------------------------------------
  // TeamCity escaping
  // ---------------------------------------------------------------------------

  /** `s.Replace(c, replacement)` for a one-character pattern: every `c` becomes `replacement`. */
  function ReplaceChar(s: string, c: char, replacement: string): string
    decreases |s|
  {
    if |s| == 0 then ""
    else (if s[0] == c then replacement else [s[0]]) + ReplaceChar(s[1..], c, replacement)
  }

  lemma {:induction false} ReplaceCharAppend(a: string, b: string, c: char, replacement: string)
    ensures ReplaceChar(a + b, c, replacement) == ReplaceChar(a, c, replacement) + ReplaceChar(b, c, replacement)
    decreases |a|
  {
    if |a| > 0 {
      assert (a + b)[1..] == a[1..] + b;
      ReplaceCharAppend(a[1..], b, c, replacement);
    } else {
      assert a + b == b;
    }
  }

  /** Doubles every bar, then puts a bar before every apostrophe. */
  function EscapeTeamCityString(name: string): string
  {
    ReplaceChar(ReplaceChar(name, '|', "||"), '\'', "|'")
  }

  /** The escape of a single character. */
  function EscapeChar(c: char): (r: string)
    ensures c != '|' && c != '\'' ==> r == [c]
    ensures 1 <= |r| <= 2
  {
    if c == '|' then "||" else if c == '\'' then "|'" else [c]
  }

  /** The reference escape: each character escaped on its own. */
  function EscapeEach(s: string): string
    decreases |s|
  {
    if |s| == 0 then "" else EscapeChar(s[0]) + EscapeEach(s[1..])
  }

  /**
   * The two replacements escape each character independently: the bar
   * inserted before an apostrophe is not doubled again.
   */
  lemma {:induction false} EscapeIsPerCharacter(s: string)
    ensures EscapeTeamCityString(s) == EscapeEach(s)
    decreases |s|
  {
    if |s| > 0 {
      var first := if s[0] == '|' then "||" else [s[0]];
      assert ReplaceChar(s, '|', "||") == first + ReplaceChar(s[1..], '|', "||");
      ReplaceCharAppend(first, ReplaceChar(s[1..], '|', "||"), '\'', "|'");
      EscapeIsPerCharacter(s[1..]);
      if s[0] == '|' {
        assert ReplaceChar(first, '\'', "|'") == "||" by {
          assert first[1..] == "|";
          assert first[1..][1..] == "";
        }
      } else {
        assert ReplaceChar(first, '\'', "|'") == EscapeChar(s[0]) by {
          assert first[1..] == "";
        }
      }
    }
  }

  /** Reads an escaped string back: a bar takes the next character literally. */
  function Unescape(s: string): string
    decreases |s|
  {
    if |s| == 0 then ""
    else if s[0] == '|' && |s| >= 2 then [s[1]] + Unescape(s[2..])
    else [s[0]] + Unescape(s[1..])
  }

  lemma {:induction false} UnescapeEscapeEach(s: string)
    ensures Unescape(EscapeEach(s)) == s
    decreases |s|
  {
    if |s| > 0 {
      UnescapeEscapeEach(s[1..]);
      var e := EscapeEach(s);
      assert e == EscapeChar(s[0]) + EscapeEach(s[1..]);
      if s[0] == '|' || s[0] == '\'' {
        assert e[2..] == EscapeEach(s[1..]);
      } else {
        assert e[1..] == EscapeEach(s[1..]);
      }
      assert s == [s[0]] + s[1..];
    }
  }

  /** Escaping loses nothing: the escaped name reads back as the name. */
  lemma EscapeRoundTrip(name: string)
    ensures Unescape(EscapeTeamCityString(name)) == name
  {
    EscapeIsPerCharacter(name);
    UnescapeEscapeEach(name);
  }

  /** The TeamCity service message that opens a block. */
  function OpenBlockText(name: string): string
  {
    "##teamcity[blockOpened name='" + EscapeTeamCityString(name) + "']"
  }

  /** The TeamCity service message that closes a block. */
  function CloseBlockText(name: string): string
  {
    "##teamcity[blockClosed name='" + EscapeTeamCityString(name) + "']"
  }

  /** The block line a logger of this format writes, if any: only TeamCity has block lines. */
  function BlockLine(format: OutputFormat, level: Verbosity, text: string): (r: seq<BufferedMessage>)
    ensures |r| <= 1
    ensures r != [] <==> format == TeamCity
    ensures r != [] ==> r[0] == BufferedMessage(level, text)
  {
    if format == TeamCity then [BufferedMessage(level, text)] else []
  }

  // ---------------------------------------------------------------------------
  // The root logger
  // ---------------------------------------------------------------------------

  /** The root logger writes a message when its level is at or above the maximum verbosity. */
  predicate Writes(maximumVerbosity: Verbosity, level: Verbosity)
  {
    level.Value() >= maximumVerbosity.Value()
  }

  /** The lines a root logger writes for a sequence of messages. */
  function Written(maximumVerbosity: Verbosity, msgs: seq<BufferedMessage>): (r: seq<string>)
    ensures |r| <= |msgs|
    decreases |msgs|
  {
    if |msgs| == 0 then []
    else Written(maximumVerbosity, msgs[..|msgs| - 1])
         + (if Writes(maximumVerbosity, msgs[|msgs| - 1].verbosity) then [msgs[|msgs| - 1].message] else [])
  }

  /**
   * As written the test keeps messages whose level is at or above the
   * maximum: at Minimal everything is written, at Debug only Debug messages.
   */
  lemma FilterThresholds(level: Verbosity)
    ensures Writes(Minimal, level)
    ensures Writes(Debug, level) <==> level == Debug
    ensures Writes(level, Debug)
  {
  }

  /** Writing keeps order: the lines of two message runs are the lines of each, concatenated. */
  lemma {:induction false} WrittenAppend(max: Verbosity, a: seq<BufferedMessage>, b: seq<BufferedMessage>)
    ensures Written(max, a + b) == Written(max, a) + Written(max, b)
    decreases |b|
  {
    if |b| > 0 {
      assert (a + b)[..|a + b| - 1] == a + b[..|b| - 1];
      WrittenAppend(max, a, b[..|b| - 1]);
    } else {
      assert a + b == a;
    }
  }

  /** Messages at or above the maximum verbosity are written in full and in order. */
  lemma {:induction false} WrittenKeepsLoudMessages(max: Verbosity, msgs: seq<BufferedMessage>)
    requires forall i :: 0 <= i < |msgs| ==> Writes(max, msgs[i].verbosity)
    ensures |Written(max, msgs)| == |msgs|
    ensures forall i :: 0 <= i < |msgs| ==> Written(max, msgs)[i] == msgs[i].message
    decreases |msgs|
  {
    if |msgs| > 0 {
      WrittenKeepsLoudMessages(max, msgs[..|msgs| - 1]);
    }
  }

  class Logger {
    const maximumVerbosity: Verbosity
    const format: OutputFormat
    /** The lines written to the output, in order. */
    var output: seq<string>

    /** Blocks of the root logger are at Minimal verbosity. */
    const blockVerbosity: Verbosity := Minimal

    constructor(verbosity: Verbosity, format: OutputFormat)
      ensures maximumVerbosity == verbosity && this.format == format && output == []
    {
      maximumVerbosity := verbosity;
      this.format := format;
      output := [];
    }

    /** Writes the message when its level passes the filter. */
    method Log(level: Verbosity, message: string)
      modifies this
      ensures output == old(output) + Written(maximumVerbosity, [BufferedMessage(level, message)])
    {
      if level.Value() < maximumVerbosity.Value() {
        return;
      }
      output := output + [message];
    }

    /** A nested logger under this one; its blocks default to Minimal verbosity. */
    method CreateNestedLogger(name: string, buffered: bool, verbosity: Option<Verbosity>) returns (n: NestedLogger)
      ensures fresh(n) && n.Valid() && n.name == name && n.buffered == buffered
      ensures n.format == format && n.maximumVerbosity == maximumVerbosity
      ensures n.blockVerbosity == (if verbosity.Some? then verbosity.value else blockVerbosity)
      ensures n.delivered == (if buffered then [] else n.OpenBlock()) && n.Logged() == []
    {
      n := new NestedLogger(name, format, maximumVerbosity, buffered, if verbosity.Some? then verbosity.value else blockVerbosity);
    }
  }

  // ---------------------------------------------------------------------------
  // Nested loggers
  // ---------------------------------------------------------------------------

  /**
   * A nested logger. Its parent is represented by what the parent is asked
   * to log (`delivered`, in order) and by the format and maximum verbosity
   * it reports.
   */
  class NestedLogger {
    const name: string
    const format: OutputFormat
    const maximumVerbosity: Verbosity
    const blockVerbosity: Verbosity
    const buffered: bool
    /** The buffered messages (unused when not buffered). */
    var buffer: seq<BufferedMessage>
    /** The messages passed on to the parent's `Log`, in order. */
    var delivered: seq<BufferedMessage>
    ghost var disposed: bool

    /** The line that opens this logger's block, if the format has one. */
    function OpenBlock(): seq<BufferedMessage>
    {
      BlockLine(format, blockVerbosity, OpenBlockText(name))
    }

    /** The line that closes this logger's block, if the format has one. */
    function CloseBlock(): seq<BufferedMessage>
    {
      BlockLine(format, blockVerbosity, CloseBlockText(name))
    }

    /**
     * Before disposal: a buffered logger has passed nothing on and holds its
     * open line and then its messages; an unbuffered one has passed on its
     * open line and then its messages.
     */
    ghost predicate Valid()
      reads this
    {
      !disposed
      && (buffered ==> delivered == [] && OpenBlock() <= buffer)
      && (!buffered ==> OpenBlock() <= delivered)
    }

    /** The messages logged so far, without the open line. */
    ghost function Logged(): seq<BufferedMessage>
      reads this
      requires Valid()
    {
      if buffered then buffer[|OpenBlock()|..] else delivered[|OpenBlock()|..]
    }

    /** Creates the logger and logs its open line. */
    constructor(name: string, format: OutputFormat, maximumVerbosity: Verbosity, buffered: bool, blockVerbosity: Verbosity)
      ensures this.name == name && this.format == format && this.maximumVerbosity == maximumVerbosity
      ensures this.buffered == buffered && this.blockVerbosity == blockVerbosity
      ensures Valid() && Logged() == []
      ensures buffered ==> buffer == OpenBlock()
      ensures !buffered ==> delivered == OpenBlock()
    {
      this.name := name;
      this.format := format;
      this.maximumVerbosity := maximumVerbosity;
      this.buffered := buffered;
      this.blockVerbosity := blockVerbosity;
      buffer := [];
      delivered := [];
      disposed := false;
      new;
      if format == TeamCity {
        Log(blockVerbosity, OpenBlockText(name));
      }
    }

    /** Buffers the message, or passes it on to the parent unchanged. */
    method Log(level: Verbosity, message: string)
      modifies this
      ensures buffered ==> buffer == old(buffer) + [BufferedMessage(level, message)] && delivered == old(delivered)
      ensures !buffered ==> delivered == old(delivered) + [BufferedMessage(level, message)] && buffer == old(buffer)
      ensures disposed == old(disposed)
      ensures old(Valid()) ==> Valid() && Logged() == old(Logged()) + [BufferedMessage(level, message)]
    {
      if !buffered {
        delivered := delivered + [BufferedMessage(level, message)];
      } else {
        buffer := buffer + [BufferedMessage(level, message)];
      }
    }

    /** A nested logger under this one, with the same format and maximum; its blocks default to this block's verbosity. */
    method CreateNestedLogger(name: string, buffered: bool, verbosity: Option<Verbosity>) returns (n: NestedLogger)
      ensures fresh(n) && n.Valid() && n.name == name && n.buffered == buffered
      ensures n.format == format && n.maximumVerbosity == maximumVerbosity
      ensures n.blockVerbosity == (if verbosity.Some? then verbosity.value else blockVerbosity)
      ensures n.delivered == (if buffered then [] else n.OpenBlock()) && n.Logged() == []
    {
      n := new NestedLogger(name, format, maximumVerbosity, buffered, if verbosity.Some? then verbosity.value else blockVerbosity);
    }

    /**
     * Logs the close line, then passes every buffered message on in order.
     * Either way the parent ends up with the open line, the messages and
     * the close line, in that order.
     */
    method Dispose()
      requires Valid()
      modifies this
      ensures disposed
      ensures delivered == OpenBlock() + old(Logged()) + CloseBlock()
      ensures buffered ==> buffer == old(buffer) + CloseBlock()
      ensures !buffered ==> buffer == old(buffer)
    {
      ghost var logged := Logged();
      assert buffered ==> buffer == OpenBlock() + logged;
      assert !buffered ==> delivered == OpenBlock() + logged;
      if format == TeamCity {
        Log(blockVerbosity, CloseBlockText(name));
      }
      if buffered && |buffer| > 0 {
        var messages := buffer;
        for i := 0 to |messages|
          invariant delivered == messages[..i]
          invariant buffer == messages
        {
          delivered := delivered + [messages[i]];
        }
        assert messages[..|messages|] == messages;
      }
      disposed := true;
    }
  }
}

=== FILE: migration.dfy ===
/**
 * A migration file: its name, hash, SQL batches and the two flags read from
 * its name and header.
 */
module MigrationFile {
  import opened Wrappers
  import opened Text
  import opened Batches
  import opened Hashing

  /** The header line that switches off the transaction around a file's batches. */
  const NoTransactionHeader := "-- no transaction --"

  datatype Migration = Migration(
    fileName: string,
    fullFileName: Option<string>,
    hash: string,
    sqlCommands: seq<string>,
    useTransaction: bool,
    autoRunIfChanged: bool)

  /**
   * The constructor. It assigns the full file name to itself instead of from
   * its argument, so the full name stays null whatever path is passed.
   */
  function NewMigration(fileName: string, fillFileName: string, hash: string, commands: seq<string>,
                        useTransaction: bool, autoRunIfChanged: bool): (m: Migration)
    ensures m.fullFileName == None
    ensures m.fileName == fileName && m.hash == hash && m.sqlCommands == commands
    ensures m.useTransaction == useTransaction && m.autoRunIfChanged == autoRunIfChanged
  {
    Migration(fileName, None, hash, commands, useTransaction, autoRunIfChanged)
  }

  /** Some prefix of the list starts the file name. */
  predicate HasAutoRunPrefix(fileName: string, autoRunPrefixes: seq<string>)
  {
    exists k :: 0 <= k < |autoRunPrefixes| && StartsWith(fileName, autoRunPrefixes[k])
  }

  /**
   * The command loop of `CreateFromFile`: every piece between `GO` lines is
   * trimmed and kept when it is not empty.
   */
  method SplitCommands(fileBody: string) returns (commands: seq<string>)
    ensures commands == Commands(fileBody)
  {
    var pieces := Pieces(fileBody);
    commands := [];
    for i := 0 to |pieces|
      invariant commands == KeptCommands(pieces[..i])
    {
      KeptCommandsSnoc(pieces, i);
      var trimmed := Trim(pieces[i]);
      if |trimmed| > 0 {
        commands := commands + [trimmed];
      }
    }
    assert pieces[..|pieces|] == pieces;
  }

  /**
   * Reads a migration from its path and body (`fileNameOf` takes the file name
   * out of the path): hashes the body, keeps the
   * trimmed non-empty pieces between `GO` lines as commands, reads the
   * no-transaction header and looks for an auto-run prefix of the name.
   */
  method CreateFromFile(filePath: string, fileBody: string, autoRunPrefixes: seq<string>,
                        fileNameOf: string -> string, sha256: seq<byte> -> seq<byte>) returns (m: Migration)
    ensures m.fileName == fileNameOf(filePath) && m.fullFileName == None
    ensures m.hash == CalculateHash(sha256, fileBody)
    ensures m.sqlCommands == Commands(fileBody)
    ensures m.useTransaction <==> !StartsWith(fileBody, NoTransactionHeader)
    ensures m.autoRunIfChanged <==> HasAutoRunPrefix(fileNameOf(filePath), autoRunPrefixes)
  {
    var fileName := fileNameOf(filePath);
    var hash := ToHex(sha256(Utf16Le(Normalize(fileBody))));

    var commands := SplitCommands(fileBody);

    var useTransaction := !StartsWith(fileBody, NoTransactionHeader);

    var autoRun := false;
    var k := 0;
    while k < |autoRunPrefixes|
      invariant 0 <= k <= |autoRunPrefixes|
      invariant !autoRun
      invariant forall q :: 0 <= q < k ==> !StartsWith(fileName, autoRunPrefixes[q])
    {
      if StartsWith(fileName, autoRunPrefixes[k]) {
        autoRun := true;
        break;
      }
      k := k + 1;
    }

    m := NewMigration(fileName, filePath, hash, commands, useTransaction, autoRun);
  }
}

=== FILE: migrator.dfy ===
/**
 * The migrator object. Its methods change the connection's state in place;
 * each is proved to perform the matching function of `Orchestration`, so the
 * theorems proved there hold of the object.
 */
module Runner {
  import opened Wrappers
  import opened Types
  import opened Text
  import opened Hashing
  import opened Batches
  import opened Persistence
  import opened MigrationFile
  import opened History
  import Orchestration
  import opened Configuration

  /** A `*.sql` file of the migrations directory: its path and its text. */
  datatype SourceFile = SourceFile(path: string, body: string)

  /**
   * What the migrator takes from its surroundings: the directory's `*.sql`
   * files in name order, the file-name part of a path, SHA-256, and the
   * planner that chooses each file's mode.
   */
  datatype Environment = Environment(
    files: seq<SourceFile>,
    fileNameOf: string -> string,
    sha256: seq<byte> -> seq<byte>,
    planner: Orchestration.Planner)

  /** The migration read from a file. */
  function MigrationOf(f: SourceFile, autoRunPrefixes: seq<string>, env: Environment): Migration
  {
    var name := env.fileNameOf(f.path);
    Migration(name, None, CalculateHash(env.sha256, f.body), Commands(f.body),
              !StartsWith(f.body, NoTransactionHeader), HasAutoRunPrefix(name, autoRunPrefixes))
  }

  /** The migrations read from the files, in the files' order. */
  function AllMigrations(files: seq<SourceFile>, autoRunPrefixes: seq<string>, env: Environment): (ms: seq<Migration>)
    ensures |ms| == |files|
    decreases |files|
  {
    if |files| == 0 then []
    else AllMigrations(files[..|files| - 1], autoRunPrefixes, env) + [MigrationOf(files[|files| - 1], autoRunPrefixes, env)]
  }

  /** The i-th migration is the one read from the i-th file. */
  lemma {:induction false} AllMigrationsInOrder(files: seq<SourceFile>, autoRunPrefixes: seq<string>, env: Environment, i: nat)
    requires i < |files|
    ensures AllMigrations(files, autoRunPrefixes, env)[i] == MigrationOf(files[i], autoRunPrefixes, env)
    decreases |files|
  {
    var n := |files| - 1;
    var front := AllMigrations(files[..n], autoRunPrefixes, env);
    assert AllMigrations(files, autoRunPrefixes, env) == front + [MigrationOf(files[n], autoRunPrefixes, env)];
    if i < n {
      AllMigrationsInOrder(files[..n], autoRunPrefixes, env, i);
      assert files[..n][i] == files[i];
    }
  }

  /** Reads every file into a migration, in order. */
  method GetAllMigrations(files: seq<SourceFile>, autoRunPrefixes: seq<string>, env: Environment) returns (ms: seq<Migration>)
    ensures ms == AllMigrations(files, autoRunPrefixes, env)
  {
    ms := [];
    for i := 0 to |files|
      invariant ms == AllMigrations(files[..i], autoRunPrefixes, env)
    {
      var m := CreateFromFile(files[i].path, files[i].body, autoRunPrefixes, env.fileNameOf, env.sha256);
      assert m == MigrationOf(files[i], autoRunPrefixes, env);
      assert files[..i + 1][..i] == files[..i] && files[..i + 1][i] == files[i];
      assert AllMigrations(files[..i + 1], autoRunPrefixes, env) == ms + [m];
      ms := ms + [m];
    }
    assert files[..|files|] == files;
  }

  /**
   * The settings and history a migrator starts from, given the options and
   * the state of the freshly opened connection.
   */
  function StartConfig(options: Options, env: Environment, s: DbState): Orchestration.Config
  {
    var (s1, tableExists) := Orchestration.EnsureMigrationsTable(s, options.isPreview);
    var rows := if tableExists then s1.rows else [];
    Orchestration.Config(options.isPreview, options.useGlobalTransaction || options.isPreview, options.force,
                         tableExists, Index(rows, FilenameColumn), Index(rows, HashColumn), env.planner)
  }

  /**
   * A migrator starts with a valid configuration: preview means one global
   * transaction, and without a table the history is empty.
   */
  lemma StartConfigValid(options: Options, env: Environment, s: DbState)
    requires Orchestration.PlannerRespectsHistory(env.planner)
    ensures Orchestration.ValidConfig(StartConfig(options, env, s))
    ensures StartConfig(options, env, s).isPreview ==> StartConfig(options, env, s).useGlobalTransaction
  {
  }

  class Migrator {
    const db: Connection
    var tableExists: bool
    const isPreview: bool
    const useGlobalTransaction: bool
    const force: bool
    var alreadyRan: AlreadyRan
    const migrations: seq<Migration>
    const planner: Orchestration.Planner

    /** The settings and history, as the orchestration functions take them. */
    function Config(): Orchestration.Config
      reads this, alreadyRan
    {
      Orchestration.Config(isPreview, useGlobalTransaction, force, tableExists, alreadyRan.byFilename, alreadyRan.byHash, planner)
    }

    /**
     * Validates the options, reads the migration files, creates the
     * bookkeeping table if needed and loads the history.
     */
    constructor (options: Options, env: Environment, conn: Connection)
      requires AssertValid(options).Pass?
      modifies conn
      ensures db == conn && migrations == AllMigrations(env.files, options.autoRunPrefixes, env)
      ensures isPreview == options.isPreview && force == options.force && planner == env.planner
      ensures useGlobalTransaction == (options.useGlobalTransaction || options.isPreview)
      ensures (db.State(), tableExists) == Orchestration.EnsureMigrationsTable(old(conn.State()), options.isPreview)
      ensures Config() == StartConfig(options, env, old(conn.State()))
    {
      isPreview := options.isPreview;
      useGlobalTransaction := options.useGlobalTransaction || options.isPreview;
      force := options.force;
      planner := env.planner;
      db := conn;
      var all := GetAllMigrations(env.files, options.autoRunPrefixes, env);
      migrations := all;
      tableExists := false;
      alreadyRan := new AlreadyRan([]);
      new;
      EnsureMigrationsTableExists();
      if tableExists {
        alreadyRan := new AlreadyRan(db.rows);
      }
    }

    /** Creates the table when it is missing, except in preview, and records whether it exists. */
    method EnsureMigrationsTableExists()
      modifies this, db
      ensures (db.State(), tableExists) == Orchestration.EnsureMigrationsTable(old(db.State()), isPreview)
      ensures alreadyRan == old(alreadyRan)
    {
      var exists_ := db.MigrationTableExists();
      if exists_ {
        tableExists := true;
        return;
      }
      if isPreview {
        tableExists := false;
        return;
      }
      db.CreateMigrationsTable();
      tableExists := true;
    }

    /** Opens a transaction when the file wants one and none is pending. */
    method BeginMigration(useTransaction: bool)
      modifies db
      ensures db.State() == Orchestration.BeginMigration(old(db.State()), useTransaction)
    {
      if useTransaction {
        if !db.hasPendingTransaction {
          db.BeginTransaction();
        }
      }
    }

    /** Adds the file to the global transaction, or commits its own transaction. */
    method EndMigration(m: Migration)
      modifies db
      ensures db.State() == Orchestration.EndMigration(Config(), old(db.State()), m)
    {
      if db.hasPendingTransaction {
        if useGlobalTransaction {
          db.filesInCurrentTransaction := db.filesInCurrentTransaction + [m.fileName];
        } else {
          db.Commit();
        }
      }
    }

    /** Runs a file's batches in order and records it. */
    method RunMigrationCommands(m: Migration, mode: Orchestration.MigrateMode, stamp: Orchestration.Stamp)
      returns (outcome: Outcome<Orchestration.Failure>)
      modifies db
      ensures (db.State(), outcome) == Orchestration.RunMigrationCommands(Config(), old(db.State()), m, mode, stamp)
    {
      BeginMigration(m.useTransaction);
      if mode != Orchestration.Run && mode != Orchestration.HashMismatch {
        return Fail(Orchestration.UnexpectedMode(mode));
      }
      ghost var s1 := db.State();
      var i := 0;
      while i < |m.sqlCommands|
        invariant 0 <= i <= |m.sqlCommands|
        invariant Orchestration.ExecuteAll(s1, m.sqlCommands) == Orchestration.ExecuteAll(db.State(), m.sqlCommands[i..])
      {
        assert m.sqlCommands[i..][0] == m.sqlCommands[i] && m.sqlCommands[i..][1..] == m.sqlCommands[i + 1..];
        var result := db.ExecuteCommand(m.sqlCommands[i]);
        if result.Fail? {
          return Fail(Orchestration.Database(result.error));
        }
        i := i + 1;
      }
      if !isPreview || tableExists {
        var recordRow := Orchestration.RecordRow(m, stamp);
        var written;
        if mode == Orchestration.Run {
          written := db.InsertMigrationRecord(recordRow);
        } else {
          written := db.UpdateMigrationRecordHash(recordRow);
        }
        if written.Fail? {
          return Fail(Orchestration.Database(written.error));
        }
      }
      EndMigration(m);
      outcome := Pass;
    }

    /** Gives the history row with the file's hash the file's name, inside a transaction. */
    method RenameMigration(m: Migration) returns (outcome: Outcome<Orchestration.Failure>)
      modifies db
      ensures (db.State(), outcome) == Orchestration.RenameMigration(Config(), old(db.State()), m)
    {
      if m.hash !in alreadyRan.byHash {
        return Fail(Orchestration.MissingHistory(m.hash));
      }
      BeginMigration(true);
      var renamed := db.RenameMigration(m.fileName, m.hash);
      if renamed.Fail? {
        return Fail(Orchestration.Database(renamed.error));
      }
      EndMigration(m);
      outcome := Pass;
    }

    /** Handles one file and returns the mode it is counted under. */
    method Migrate(m: Migration, stamp: Orchestration.Stamp) returns (result: Result<Orchestration.MigrateMode, Orchestration.Failure>)
      modifies db
      ensures (db.State(), result) == Orchestration.Migrate(Config(), old(db.State()), m, stamp)
    {
      var mode := planner(m, alreadyRan.byFilename, alreadyRan.byHash);
      if mode == Orchestration.Skip {
        return Success(mode);
      }
      if mode == Orchestration.Rename {
        var renamed := RenameMigration(m);
        if renamed.Fail? {
          return Failure(renamed.error);
        }
        return Success(mode);
      }
      if mode == Orchestration.HashMismatch && !force {
        return Failure(Orchestration.MigrationChanged(m.fileName));
      }
      if !m.useTransaction && isPreview {
        return Success(Orchestration.Skip);
      }
      var ran := RunMigrationCommands(m, mode, stamp);
      if ran.Fail? {
        return Failure(ran.error);
      }
      result := Success(mode);
    }

    /** Reports the failed file and rolls back a pending transaction. */
    method MigrationFailed(m: Migration) returns (report: Orchestration.FailureReport)
      modifies db
      ensures (db.State(), report) == Orchestration.MigrationFailed(old(db.State()), m)
    {
      var withoutTransaction := !db.hasPendingTransaction && !m.useTransaction;
      var rolledBack: seq<string> := [];
      if db.hasPendingTransaction {
        rolledBack := db.filesInCurrentTransaction;
        db.Rollback();
      }
      report := Orchestration.FailureReport(m.fileName, withoutTransaction, rolledBack);
    }

    /**
     * Runs every file in order, counting the outcomes; commits a pending
     * transaction at the end, or cleans up after the first failure.
     */
    method RunOutstandingMigrations(clock: nat -> Orchestration.Stamp)
      returns (result: Orchestration.MigrationResult, report: Option<Orchestration.FailureReport>)
      modifies db
      ensures (db.State(), result, report) == Orchestration.RunAll(Config(), old(db.State()), migrations, clock)
    {
      ghost var p := Orchestration.RunFrom(Config(), db.State(), migrations, clock, 0, Orchestration.NoCounts);
      var counts := Orchestration.NoCounts;
      var i := 0;
      while i < |migrations|
        invariant 0 <= i <= |migrations|
        invariant p == Orchestration.RunFrom(Config(), db.State(), migrations, clock, i, counts)
      {
        counts := counts.(attempted := counts.attempted + 1);
        ghost var attempted := counts;
        var mode := Migrate(migrations[i], clock(i));
        if mode.Failure? {
          result := Orchestration.MigrationResult(false, counts, Some(mode.error));
          var failed := MigrationFailed(migrations[i]);
          report := Some(failed);
          return;
        }
        match mode.value {
          case Skip => counts := counts.(skipped := counts.skipped + 1);
          case Run => counts := counts.(ran := counts.ran + 1);
          case HashMismatch => counts := counts.(forced := counts.forced + 1);
          case Rename => counts := counts.(renamed := counts.renamed + 1);
        }
        assert counts == Orchestration.Tally(attempted, mode.value);
        i := i + 1;
      }
      if db.hasPendingTransaction {
        db.Commit();
      }
      result := Orchestration.MigrationResult(true, counts, None);
      report := None;
    }

    /** The number of files whose mode is not Skip. */
    method CountOutstanding() returns (count: nat)
      ensures count == Orchestration.CountOutstanding(Config(), migrations)
    {
      count := 0;
      for i := 0 to |migrations|
        invariant count == Orchestration.CountOutstanding(Config(), migrations[..i])
      {
        assert migrations[..i + 1][..i] == migrations[..i];
        if planner(migrations[i], alreadyRan.byFilename, alreadyRan.byHash) != Orchestration.Skip {
          count := count + 1;
        }
      }
      assert migrations[..|migrations|] == migrations;
    }
  }

  /** Builds a migrator, refusing invalid options before touching the connection. */
  method Create(options: Options, env: Environment, conn: Connection) returns (r: Result<Migrator, OptionsError>)
    modifies conn
    ensures r.Failure? <==> AssertValid(options).Fail?
    ensures r.Failure? ==> r.error == AssertValid(options).error && conn.State() == old(conn.State())
    ensures r.Success? ==> r.value.db == conn && r.value.Config() == StartConfig(options, env, old(conn.State()))
    ensures r.Success? ==> r.value.migrations == AllMigrations(env.files, options.autoRunPrefixes, env)
    ensures r.Success? ==> conn.State() == Orchestration.EnsureMigrationsTable(old(conn.State()), options.isPreview).0
  {
    var valid := AssertValid(options);
    if valid.Fail? {
      return Failure(valid.error);
    }
    var migrator := new Migrator(options, env, conn);
    r := Success(migrator);
  }

  /** The state of the connection once a migrator has been built on it. */
  function StartState(options: Options, s: DbState): DbState
  {
    Orchestration.EnsureMigrationsTable(s, options.isPreview).0
  }

  /** Builds a migrator and runs every outstanding migration. */
  method RunOutstandingMigrations(options: Options, env: Environment, conn: Connection, clock: nat -> Orchestration.Stamp)
    returns (r: Result<Orchestration.MigrationResult, OptionsError>)
    modifies conn
    ensures r.Failure? <==> AssertValid(options).Fail?
    ensures r.Failure? ==> r.error == AssertValid(options).error && conn.State() == old(conn.State())
    ensures r.Success? ==>
      var run := Orchestration.RunAll(StartConfig(options, env, old(conn.State())), StartState(options, old(conn.State())),
                                      AllMigrations(env.files, options.autoRunPrefixes, env), clock);
      conn.State() == run.0 && r.value == run.1
  {
    var created := Create(options, env, conn);
    if created.Failure? {
      return Failure(created.error);
    }
    var migrator := created.value;
    var result, _ := migrator.RunOutstandingMigrations(clock);
    r := Success(result);
  }

  /** Builds a migrator and counts the files whose mode is not Skip. */
  method GetOutstandingMigrationsCount(options: Options, env: Environment, conn: Connection) returns (r: Result<nat, OptionsError>)
    modifies conn
    ensures r.Failure? <==> AssertValid(options).Fail?
    ensures r.Failure? ==> r.error == AssertValid(options).error && conn.State() == old(conn.State())
    ensures r.Success? ==> conn.State() == StartState(options, old(conn.State()))
    ensures r.Success? ==> r.value == Orchestration.CountOutstanding(StartConfig(options, env, old(conn.State())),
                                                                     AllMigrations(env.files, options.autoRunPrefixes, env))
    ensures r.Success? ==> r.value <= |env.files|
  {
    var created := Create(options, env, conn);
    if created.Failure? {
      return Failure(created.error);
    }
    var count := created.value.CountOutstanding();
    Orchestration.NoneOutstandingIffAllSkip(created.value.Config(), created.value.migrations);
    r := Success(count);
  }
}

=== FILE: options.dfy ===
/**
 * The migrator's options: their defaults, the validation run before a
 * migrator is built, and the strings derived from them (the connection
 * string and the bookkeeping table's name).
 */
module Configuration {
  import opened Wrappers
  import opened Types
  import opened Text

  /**
   * The options; `None` stands for a null string. The output writer is not
   * modelled.
   */
  datatype Options = Options(
    connectionString: Option<string>,
    database: Option<string>,
    server: Option<string>,
    commandTimeout: int,
    directory: Option<string>,
    isPreview: bool,
    useGlobalTransaction: bool,
    migrationsTable: Option<string>,
    force: bool,
    autoRunPrefixes: seq<string>,
    provider: DatabaseProvider)

  /** A fresh options object: a 30-second timeout, the prefixes SP and AUTORUN, SQL Server. */
  const DefaultOptions := Options(None, None, None, 30, None, false, false, None, false, ["SP", "AUTORUN"], SqlServer)

  datatype OptionsError =
    | NoSingleTarget
    | InvalidTableName(name: string)
    | UnsupportedProvider(provider: DatabaseProvider)

  // ---------------------------------------------------------------------------
  // The table-name pattern ^[a-zA-Z]+$
  // ---------------------------------------------------------------------------

  predicate IsAsciiLetter(c: char)
  {
    'a' <= c <= 'z' || 'A' <= c <= 'Z'
  }

  /** One or more ASCII letters and nothing else. */
  predicate AllLetters(s: string)
  {
    |s| > 0 && forall i :: 0 <= i < |s| ==> IsAsciiLetter(s[i])
  }

  /**
   * The pattern, scanned from index `i` after `seen` letters: letters, then
   * the end of the text or (since `$` also matches before a final line feed)
   * one line feed that ends the text.
   */
  function MatchLettersFrom(s: string, i: nat, seen: bool): bool
    requires i <= |s|
    decreases |s| - i
  {
    if i == |s| then seen
    else if IsAsciiLetter(s[i]) then MatchLettersFrom(s, i + 1, true)
    else seen && s[i] == '\n' && i == |s| - 1
  }

  /** `Regex.IsMatch(s, "^[a-zA-Z]+$")`. */
  predicate MatchesLetters(s: string)
  {
    MatchLettersFrom(s, 0, false)
  }

  lemma {:induction false} MatchLettersFromSpec(s: string, i: nat, seen: bool)
    requires i <= |s|
    requires seen <==> i > 0
    requires forall k :: 0 <= k < i ==> IsAsciiLetter(s[k])
    ensures MatchLettersFrom(s, i, seen) <==> AllLetters(s) || (|s| > 0 && s[|s| - 1] == '\n' && AllLetters(s[..|s| - 1]))
    decreases |s| - i
  {
    if i < |s| {
      if IsAsciiLetter(s[i]) {
        MatchLettersFromSpec(s, i + 1, true);
      } else {
        assert !AllLetters(s);
        if i < |s| - 1 {
          assert s[..|s| - 1][i] == s[i];
        }
      }
    }
  }

  /**
   * The pattern accepts exactly a non-empty run of ASCII letters, optionally
   * followed by one final line feed.
   */
  lemma MatchesLettersIff(s: string)
    ensures MatchesLetters(s) <==> AllLetters(s) || (|s| > 0 && s[|s| - 1] == '\n' && AllLetters(s[..|s| - 1]))
  {
    MatchLettersFromSpec(s, 0, false);
  }

  /** For a name without a line feed the pattern means "ASCII letters only". */
  lemma MatchesLettersSingleLine(s: string)
    requires IsSingleLine(s)
    ensures MatchesLetters(s) <==> AllLetters(s)
  {
    MatchesLettersIff(s);
  }

  /** A table name with a final line feed is accepted. */
  lemma TrailingLineFeedAccepted()
    ensures MatchesLetters("Log\n")
    ensures !MatchesLetters("Log\n\n") && !MatchesLetters("Lo g") && !MatchesLetters("")
  {
    MatchesLettersIff("Log\n");
    assert "Log\n"[..3] == "Log";
    MatchesLettersIff("Log\n\n");
    assert "Log\n\n"[..4] == "Log\n";
    MatchesLettersIff("Lo g");
    assert "Lo g"[..3] == "Lo ";
    assert !IsAsciiLetter("Lo g"[2]);
  }

  // ---------------------------------------------------------------------------
  // Validation and derived strings
  // ---------------------------------------------------------------------------

  /**
   * Exactly one of connection string and database must be given, and a given
   * table name must match the letters pattern.
   */
  function AssertValid(o: Options): (r: Outcome<OptionsError>)
    ensures r.Pass? <==> IsNullOrEmpty(o.connectionString) != IsNullOrEmpty(o.database)
                         && (IsNullOrEmpty(o.migrationsTable) || MatchesLetters(o.migrationsTable.value))
    ensures r == Fail(NoSingleTarget) <==> IsNullOrEmpty(o.connectionString) == IsNullOrEmpty(o.database)
  {
    if IsNullOrEmpty(o.connectionString) == IsNullOrEmpty(o.database) then Fail(NoSingleTarget)
    else if !IsNullOrEmpty(o.migrationsTable) && !MatchesLetters(o.migrationsTable.value) then
      Fail(InvalidTableName(o.migrationsTable.value))
    else Pass
  }

  /** Fresh options name neither a connection string nor a database, so they are refused. */
  lemma DefaultsAreInvalid()
    ensures AssertValid(DefaultOptions) == Fail(NoSingleTarget)
    ensures DefaultOptions.commandTimeout == 30 && DefaultOptions.autoRunPrefixes == ["SP", "AUTORUN"]
  {
  }

  /**
   * The connection string: refused for any provider but SQL Server; the
   * given string verbatim when there is one; otherwise the
   * integrated-authentication string for the database, on localhost unless
   * a server is given.
   */
  function GetConnectionString(o: Options, provider: DatabaseProvider): (r: Result<string, OptionsError>)
    ensures r.Failure? <==> provider != SqlServer
    ensures r.Success? && !IsNullOrEmpty(o.connectionString) ==> r.value == o.connectionString.value
  {
    if provider != SqlServer then Failure(UnsupportedProvider(provider))
    else if !IsNullOrEmpty(o.connectionString) then Success(o.connectionString.value)
    else
      var server := if IsNullOrEmpty(o.server) then "localhost" else o.server.value;
      Success(IntegratedAuthConnectionString(Interpolated(o.database), server))
  }

  /**
   * For valid options without a connection string, the built string names
   * the database and the given server, or localhost.
   */
  lemma ConnectionStringForDatabase(o: Options)
    requires AssertValid(o).Pass? && IsNullOrEmpty(o.connectionString)
    ensures GetConnectionString(o, SqlServer) == Success(IntegratedAuthConnectionString(o.database.value,
              if IsNullOrEmpty(o.server) then "localhost" else o.server.value))
    ensures |o.database.value| > 0
  {
  }

  /** The bookkeeping table's name: the given one, or "Migrations" when none is given. */
  function GetMigrationsTable(o: Options): (r: string)
    ensures |r| > 0
    ensures IsNullOrEmpty(o.migrationsTable) ==> r == DefaultMigrationsTable
    ensures !IsNullOrEmpty(o.migrationsTable) ==> r == o.migrationsTable.value
  {
    if IsNullOrEmpty(o.migrationsTable) then DefaultMigrationsTable else o.migrationsTable.value
  }

  /** After validation the table name in use always matches the letters pattern. */
  lemma ValidTableName(o: Options)
    requires AssertValid(o).Pass?
    ensures MatchesLetters(GetMigrationsTable(o))
  {
    if IsNullOrEmpty(o.migrationsTable) {
      MatchesLettersIff(DefaultMigrationsTable);
    }
  }
}

=== FILE: orchestration.dfy ===
/**
 * What the migrator does, as pure functions over the database state: the
 * per-file steps (begin, run the batches, write the bookkeeping record, end),
 * the choice among skip, run, forced re-run and rename, the loop over all
 * files with its counters, and the clean-up after a failure. The `Migrator`
 * class performs exactly these functions; the theorems about them are here.
 */
module Orchestration {
  import opened Wrappers
  import opened Types
  import opened Persistence
  import opened MigrationFile

  /** What to do with one migration file. */
  datatype MigrateMode = Skip | Run | HashMismatch | Rename

  /**
   * How a file's mode is chosen from the history (the dictionaries by file
   * name and by hash). It is not defined in the source, so it is a parameter.
   */
  type Planner = (Migration, map<string, MigrationRow>, map<string, MigrationRow>) -> MigrateMode

  /** The migrator's settings and the history it read at start-up. */
  datatype Config = Config(
    isPreview: bool,
    useGlobalTransaction: bool,
    force: bool,
    tableExists: bool,
    byFilename: map<string, MigrationRow>,
    byHash: map<string, MigrationRow>,
    planner: Planner)

  /** The mode of a file under this configuration. */
  function ModeOf(c: Config, m: Migration): MigrateMode
  {
    c.planner(m, c.byFilename, c.byHash)
  }

  /**
   * The settings every migrator has: preview implies one global transaction,
   * a missing table means an empty history, and a rename is only chosen for a
   * hash the history knows.
   */
  ghost predicate ValidConfig(c: Config)
  {
    (c.isPreview ==> c.useGlobalTransaction)
    && (!c.tableExists ==> c.byFilename == map[] && c.byHash == map[])
    && PlannerRespectsHistory(c.planner)
  }

  /** The planner only chooses Rename for a hash the history has. */
  ghost predicate PlannerRespectsHistory(planner: Planner)
  {
    forall m, byFilename, byHash :: planner(m, byFilename, byHash) == Rename ==> m.hash in byHash
  }

  /** Timestamp and duration of one run, supplied by the clock. */
  datatype Stamp = Stamp(executionDate: int, duration: int)

  /** Why a run stops. */
  datatype Failure =
    | MigrationChanged(filename: string)
    | Database(error: DbError)
    | UnexpectedMode(mode: MigrateMode)
    | MissingHistory(hash: string)

  /** The counters of `MigrationResult`. */
  datatype Counts = Counts(attempted: nat, ran: nat, skipped: nat, renamed: nat, forced: nat)

  const NoCounts := Counts(0, 0, 0, 0, 0)

  /** The result of a whole run. */
  datatype MigrationResult = MigrationResult(success: bool, counts: Counts, exception: Option<Failure>)

  /** What is reported about a failed file. */
  datatype FailureReport = FailureReport(filename: string, withoutTransaction: bool, rolledBack: seq<string>)

  /** Where a run stopped: the index of the failing file and the failure. */
  datatype Stop = Stop(index: nat, failure: Failure)

  /** The state of the loop over the files. */
  datatype Progress = Progress(state: DbState, counts: Counts, stop: Option<Stop>)

  // ---------------------------------------------------------------------------
  // Per-file steps
  // ---------------------------------------------------------------------------

  /**
   * Opens a transaction when the file wants one and none is pending. A file
   * without a transaction leaves a pending transaction alone.
   */
  function BeginMigration(s: DbState, useTransaction: bool): (r: DbState)
    ensures useTransaction ==> r.pending
    ensures useTransaction && s.pending ==> r == s
    ensures !useTransaction ==> r == s
    ensures r.rows == s.rows && r.executed == s.executed && r.tableExists == s.tableExists
  {
    if useTransaction && !s.pending then BeginTx(s) else s
  }

  /**
   * With a transaction pending: in global mode the file joins the list of
   * files in the transaction, otherwise the transaction is committed.
   */
  function EndMigration(c: Config, s: DbState, m: Migration): (r: DbState)
    ensures s.pending && c.useGlobalTransaction ==> r == s.(filesInTransaction := s.filesInTransaction + [m.fileName])
    ensures s.pending && !c.useGlobalTransaction ==> r == CommitTx(s)
    ensures !s.pending ==> r == s
  {
    if s.pending then
      if c.useGlobalTransaction then s.(filesInTransaction := s.filesInTransaction + [m.fileName])
      else CommitTx(s)
    else s
  }

  /** Sends the batches in order, stopping at the first one the server rejects. */
  function ExecuteAll(s: DbState, commands: seq<string>): (r: (DbState, Outcome<DbError>))
    decreases |commands|
  {
    if |commands| == 0 then (s, Pass)
    else
      var (s1, o) := Execute(s, commands[0]);
      if o.Fail? then (s1, o) else ExecuteAll(s1, commands[1..])
  }

  /** The bookkeeping row written for a file. */
  function RecordRow(m: Migration, stamp: Stamp): MigrationRow
  {
    MigrationRow(m.fileName, m.hash, stamp.executionDate, stamp.duration)
  }

  /** Whether a run of the file's batches is recorded: always, except in preview when there is no table. */
  predicate Records(c: Config)
  {
    !c.isPreview || c.tableExists
  }

  /**
   * Runs a file's batches and records it: insert for a new file, hash update
   * for a forced re-run. Any other mode is refused after the transaction was
   * opened.
   */
  function RunMigrationCommands(c: Config, s: DbState, m: Migration, mode: MigrateMode, stamp: Stamp): (r: (DbState, Outcome<Failure>))
  {
    var s1 := BeginMigration(s, m.useTransaction);
    if mode != Run && mode != HashMismatch then (s1, Fail(UnexpectedMode(mode)))
    else
      var (s2, o) := ExecuteAll(s1, m.sqlCommands);
      if o.Fail? then (s2, Fail(Database(o.error)))
      else if Records(c) then
        var (s3, o3) := if mode == Run then Insert(s2, RecordRow(m, stamp)) else UpdateHash(s2, RecordRow(m, stamp));
        if o3.Fail? then (s3, Fail(Database(o3.error)))
        else (EndMigration(c, s3, m), Pass)
      else (EndMigration(c, s2, m), Pass)
  }

  /** Gives the bookkeeping row with the file's hash the file's new name, inside a transaction. */
  function RenameMigration(c: Config, s: DbState, m: Migration): (r: (DbState, Outcome<Failure>))
  {
    if m.hash !in c.byHash then (s, Fail(MissingHistory(m.hash)))
    else
      var s1 := BeginMigration(s, true);
      var (s2, o) := Persistence.Rename(s1, m.fileName, m.hash);
      if o.Fail? then (s2, Fail(Database(o.error)))
      else (EndMigration(c, s2, m), Pass)
  }

  /** Handles one file and returns the mode it was counted under. */
  function Migrate(c: Config, s: DbState, m: Migration, stamp: Stamp): (r: (DbState, Result<MigrateMode, Failure>))
  {
    var mode := ModeOf(c, m);
    if mode == Skip then (s, Success(Skip))
    else if mode == Rename then
      var (s1, o) := RenameMigration(c, s, m);
      (s1, if o.Fail? then Failure(o.error) else Success(Rename))
    else if mode == HashMismatch && !c.force then (s, Failure(MigrationChanged(m.fileName)))
    else if !m.useTransaction && c.isPreview then (s, Success(Skip))
    else
      var (s1, o) := RunMigrationCommands(c, s, m, mode, stamp);
      (s1, if o.Fail? then Failure(o.error) else Success(mode))
  }

  /** The counter a mode increments. */
  function Tally(counts: Counts, mode: MigrateMode): Counts
  {
    match mode
    case Skip => counts.(skipped := counts.skipped + 1)
    case Run => counts.(ran := counts.ran + 1)
    case HashMismatch => counts.(forced := counts.forced + 1)
    case Rename => counts.(renamed := counts.renamed + 1)
  }

  /** Handles the files from index `i` on, stopping at the first failure. */
  function RunFrom(c: Config, s: DbState, ms: seq<Migration>, clock: nat -> Stamp, i: nat, counts: Counts): (p: Progress)
    requires i <= |ms|
    ensures p.stop.Some? ==> i <= p.stop.value.index < |ms|
    decreases |ms| - i
  {
    if i == |ms| then Progress(s, counts, None)
    else
      var attempted := counts.(attempted := counts.attempted + 1);
      var (s1, r) := Migrate(c, s, ms[i], clock(i));
      if r.Failure? then Progress(s1, attempted, Some(Stop(i, r.error)))
      else RunFrom(c, s1, ms, clock, i + 1, Tally(attempted, r.value))
  }

  /** The report about a failed file, and the rollback of a pending transaction. */
  function MigrationFailed(s: DbState, m: Migration): (r: (DbState, FailureReport))
    ensures !r.0.pending
    ensures r.1.withoutTransaction <==> !s.pending && !m.useTransaction
    ensures s.pending ==> r.0 == RollbackTx(s) && r.1.rolledBack == s.filesInTransaction
    ensures !s.pending ==> r.0 == s && r.1.rolledBack == []
  {
    var report := FailureReport(m.fileName, !s.pending && !m.useTransaction, if s.pending then s.filesInTransaction else []);
    (if s.pending then RollbackTx(s) else s, report)
  }

  /** A whole run: every file in order, then a commit, or the clean-up after the first failure. */
  function RunAll(c: Config, s: DbState, ms: seq<Migration>, clock: nat -> Stamp): (r: (DbState, MigrationResult, Option<FailureReport>))
  {
    Finish(RunFrom(c, s, ms, clock, 0, NoCounts), ms)
  }

  /** The end of a run: commit a pending transaction after success, or clean up after the failing file. */
  function Finish(p: Progress, ms: seq<Migration>): (r: (DbState, MigrationResult, Option<FailureReport>))
    requires p.stop.Some? ==> p.stop.value.index < |ms|
  {
    match p.stop
    case None =>
      (if p.state.pending then CommitTx(p.state) else p.state, MigrationResult(true, p.counts, None), None)
    case Some(stop) =>
      var (s1, report) := MigrationFailed(p.state, ms[stop.index]);
      (s1, MigrationResult(false, p.counts, Some(stop.failure)), Some(report))
  }

  /** Creates the table when it is missing, except in preview; returns whether the table now exists. */
  function EnsureMigrationsTable(s: DbState, isPreview: bool): (r: (DbState, bool))
  {
    if s.tableExists then (s, true)
    else if isPreview then (s, false)
    else (CreateTable(s), true)
  }

  /** The number of files whose mode is not Skip. */
  function CountOutstanding(c: Config, ms: seq<Migration>): (n: nat)
    decreases |ms|
  {
    if |ms| == 0 then 0
    else CountOutstanding(c, ms[..|ms| - 1]) + (if ModeOf(c, ms[|ms| - 1]) != Skip then 1 else 0)
  }

  // ---------------------------------------------------------------------------
  // Theorems
  // ---------------------------------------------------------------------------

  /**
   * The table is created only when it is missing and this is not a preview;
   * afterwards the flag says whether it existed already or preview is off.
   */
  lemma EnsureMigrationsTableCreatesOnlyWhenNeeded(s: DbState, isPreview: bool)
    ensures var (r, exists_) := EnsureMigrationsTable(s, isPreview);
      (exists_ <==> s.tableExists || !isPreview)
      && r.tableExists == exists_
      && (r != s <==> !s.tableExists && !isPreview)
      && r.rows == s.rows && r.executed == s.executed && r.pending == s.pending
  {
  }

  /**
   * The batches run in list order: all of them when the server accepts them
   * all, otherwise those before the first rejected one, which is reported.
   */
  lemma {:induction false} ExecuteAllInOrder(s: DbState, commands: seq<string>)
    ensures var (r, o) := ExecuteAll(s, commands);
      (o.Pass? <==> forall k :: 0 <= k < |commands| ==> commands[k] !in s.failing)
      && (o.Pass? ==> r == s.(executed := s.executed + commands))
      && (o.Fail? ==> exists k :: 0 <= k < |commands| && commands[k] in s.failing && o.error == BatchFailed(commands[k])
                               && r == s.(executed := s.executed + commands[..k]))
    decreases |commands|
  {
    if |commands| > 0 {
      var (s1, o1) := Execute(s, commands[0]);
      if o1.Pass? {
        var rest := commands[1..];
        ExecuteAllInOrder(s1, rest);
        var (r, o) := ExecuteAll(s1, rest);
        assert s.executed + commands == s1.executed + rest;
        if o.Fail? {
          var k :| 0 <= k < |rest| && rest[k] in s1.failing && o.error == BatchFailed(rest[k])
                   && r == s1.(executed := s1.executed + rest[..k]);
          assert commands[k + 1] == rest[k];
          assert s.executed + commands[..k + 1] == s1.executed + rest[..k];
        } else {
          forall k | 0 <= k < |commands| ensures commands[k] !in s.failing {
            if k > 0 { assert commands[k] == rest[k - 1]; }
          }
        }
      } else {
        assert commands[..0] == [];
      }
    }
  }

  /** Batches never change the bookkeeping rows or the transaction. */
  lemma {:induction false} ExecuteAllKeepsRows(s: DbState, commands: seq<string>)
    ensures var r := ExecuteAll(s, commands).0;
      r.rows == s.rows && r.rowsAtBegin == s.rowsAtBegin && r.pending == s.pending
      && r.filesInTransaction == s.filesInTransaction && r.tableExists == s.tableExists && r.failing == s.failing
    decreases |commands|
  {
    if |commands| > 0 && Execute(s, commands[0]).1.Pass? {
      ExecuteAllKeepsRows(Execute(s, commands[0]).0, commands[1..]);
    }
  }

  /**
   * A file's run executes its batches in order and then writes one record,
   * an insert for a new file and a hash update for a forced re-run, exactly
   * when the run is recorded; a failed run writes no record.
   */
  lemma RunMigrationCommandsEffect(c: Config, s: DbState, m: Migration, mode: MigrateMode, stamp: Stamp)
    requires mode == Run || mode == HashMismatch
    ensures var (r, o) := RunMigrationCommands(c, s, m, mode, stamp);
      (o.Pass? ==> r.executed == s.executed + m.sqlCommands)
      && (o.Pass? && Records(c) && mode == Run ==> r.rows == s.rows + [RecordRow(m, stamp)])
      && (o.Pass? && Records(c) && mode == HashMismatch ==> r.rows == SetHashWhereFilename(s.rows, RecordRow(m, stamp)))
      && (o.Pass? && Records(c) && mode == HashMismatch ==> FilenameCount(s.rows, m.fileName) == 1)
      && (!Records(c) || o.Fail? ==> r.rows == s.rows)
  {
    var s1 := BeginMigration(s, m.useTransaction);
    ExecuteAllInOrder(s1, m.sqlCommands);
    ExecuteAllKeepsRows(s1, m.sqlCommands);
  }

  /** Any mode other than Run or HashMismatch is refused once the transaction is open, before any batch. */
  lemma RunMigrationCommandsRefusesOtherModes(c: Config, s: DbState, m: Migration, mode: MigrateMode, stamp: Stamp)
    requires mode == Skip || mode == Rename
    ensures var (r, o) := RunMigrationCommands(c, s, m, mode, stamp);
      o == Fail(UnexpectedMode(mode)) && r.executed == s.executed && r.rows == s.rows
      && (m.useTransaction ==> r.pending)
  {
  }

  /** A changed file without force fails before anything happens to the database. */
  lemma HashMismatchWithoutForceChangesNothing(c: Config, s: DbState, m: Migration, stamp: Stamp)
    requires ModeOf(c, m) == HashMismatch && !c.force
    ensures Migrate(c, s, m, stamp) == (s, Failure(MigrationChanged(m.fileName)))
  {
  }

  /** In preview a file without a transaction is counted as skipped and nothing runs. */
  lemma PreviewSkipsFileWithoutTransaction(c: Config, s: DbState, m: Migration, stamp: Stamp)
    requires c.isPreview && !m.useTransaction
    requires ModeOf(c, m) == Run || (ModeOf(c, m) == HashMismatch && c.force)
    ensures Migrate(c, s, m, stamp) == (s, Success(Skip))
  {
  }

  /**
   * A rename runs none of the file's batches; it renames the row with the
   * file's hash, inside a transaction, whatever the file's header says. It
   * cannot miss the row when the planner respects the history.
   */
  lemma RenameExecutesNothing(c: Config, s: DbState, m: Migration, stamp: Stamp)
    requires ModeOf(c, m) == Rename
    ensures var (r, res) := Migrate(c, s, m, stamp);
      r.executed == s.executed
      && (res.Success? ==> res.value == Rename && r.rows == SetFilenameWhereHash(s.rows, m.fileName, m.hash))
      && (res.Success? && c.useGlobalTransaction ==> r.pending && r.filesInTransaction[|r.filesInTransaction| - 1] == m.fileName)
      && (res.Success? && !c.useGlobalTransaction ==> !r.pending)
      && (PlannerRespectsHistory(c.planner) ==> res != Failure(MissingHistory(m.hash)))
      && (res.Success? ==> HashCount(s.rows, m.hash) == 1)
      && (m.hash in c.byHash && s.tableExists && !HasHash(s.rows, m.hash) ==> res == Failure(Database(RowsAffected(0))))
  {
  }

  /** The counted mode is the planned one, except for a file preview skips. */
  lemma MigrateCountsPlannedMode(c: Config, s: DbState, m: Migration, stamp: Stamp)
    ensures var res := Migrate(c, s, m, stamp).1;
      res.Success? ==> res.value == ModeOf(c, m) || (res.value == Skip && c.isPreview && !m.useTransaction)
  {
  }

  /** The sum of the four outcome counters. */
  function Counted(n: Counts): nat
  {
    n.ran + n.skipped + n.renamed + n.forced
  }

  /**
   * The counters of a finished loop: every file attempted and counted, or the
   * files up to the failing one attempted and all but that one counted.
   */
  predicate CountsAgree(p: Progress, ms: seq<Migration>)
  {
    (p.stop.None? ==> p.counts.attempted == |ms| == Counted(p.counts))
    && (p.stop.Some? ==> p.counts.attempted == p.stop.value.index + 1 == Counted(p.counts) + 1 <= |ms|)
  }

  lemma {:induction false} RunFromCounts(c: Config, s: DbState, ms: seq<Migration>, clock: nat -> Stamp, i: nat, counts: Counts)
    requires i <= |ms| && counts.attempted == i == Counted(counts)
    ensures CountsAgree(RunFrom(c, s, ms, clock, i, counts), ms)
    decreases |ms| - i
  {
    if i < |ms| {
      var attempted := counts.(attempted := counts.attempted + 1);
      var (s1, r) := Migrate(c, s, ms[i], clock(i));
      if r.Success? {
        RunFromCounts(c, s1, ms, clock, i + 1, Tally(attempted, r.value));
      }
    }
  }

  /**
   * What a finished run reports: no transaction is left pending; on success
   * every file was attempted and counted under exactly one outcome; on
   * failure the failing file is the one attempted but not counted, the
   * failure is kept and the report names that file.
   */
  predicate WellReported(r: (DbState, MigrationResult, Option<FailureReport>), ms: seq<Migration>)
  {
    var (state, res, report) := r;
    var n := res.counts;
    !state.pending
    && (res.success ==> n.attempted == |ms| == Counted(n) && res.exception == None && report == None)
    && (!res.success ==> 0 < n.attempted == Counted(n) + 1 <= |ms| && res.exception.Some? && report.Some?
                         && report.value.filename == ms[n.attempted - 1].fileName)
  }

  /**
   * The end of a run reports the loop's own counters, and on failure exactly
   * the failure that stopped the loop.
   */
  lemma FinishOutcome(p: Progress, ms: seq<Migration>)
    requires CountsAgree(p, ms)
    ensures WellReported(Finish(p, ms), ms)
    ensures Finish(p, ms).1.counts == p.counts
    ensures Finish(p, ms).1.success <==> p.stop.None?
    ensures p.stop.Some? ==> Finish(p, ms).1.exception == Some(p.stop.value.failure)
  {
  }

  /** Every run is reported as `WellReported` describes. */
  lemma RunAllOutcome(c: Config, s: DbState, ms: seq<Migration>, clock: nat -> Stamp)
    ensures WellReported(RunAll(c, s, ms, clock), ms)
  {
    var p := RunFrom(c, s, ms, clock, 0, NoCounts);
    assert CountsAgree(p, ms) by {
      RunFromCounts(c, s, ms, clock, 0, NoCounts);
    }
    FinishOutcome(p, ms);
    assert RunAll(c, s, ms, clock) == Finish(p, ms);
  }

  /**
   * A loop that stops ran the files before the failing one without a
   * failure, from `s` to `before`, and the failing file's `Migrate` from
   * `before` gives the final state and the failure.
   */
  lemma {:induction false} RunFromStopsAtFailure(c: Config, s: DbState, ms: seq<Migration>, clock: nat -> Stamp, i: nat, counts: Counts)
    returns (before: DbState)
    requires i <= |ms| && RunFrom(c, s, ms, clock, i, counts).stop.Some?
    ensures var p := RunFrom(c, s, ms, clock, i, counts);
      var k := p.stop.value.index;
      i <= k < |ms|
      && RunFrom(c, s, ms[..k], clock, i, counts).stop.None?
      && before == RunFrom(c, s, ms[..k], clock, i, counts).state
      && Migrate(c, before, ms[k], clock(k)) == (p.state, Failure(p.stop.value.failure))
    decreases |ms| - i
  {
    var p := RunFrom(c, s, ms, clock, i, counts);
    var k := p.stop.value.index;
    var attempted := counts.(attempted := counts.attempted + 1);
    var (s1, r) := Migrate(c, s, ms[i], clock(i));
    if r.Failure? {
      before := s;
      assert k == i;
      assert |ms[..k]| == i;
    } else {
      before := RunFromStopsAtFailure(c, s1, ms, clock, i + 1, Tally(attempted, r.value));
      assert |ms[..k]| == k && ms[..k][i] == ms[i];
    }
  }

  /**
   * A failed run's exception is the failure of the last attempted file's
   * `Migrate`, run from the state the files before it left behind without
   * a failure.
   */
  lemma RunAllFailure(c: Config, s: DbState, ms: seq<Migration>, clock: nat -> Stamp) returns (before: DbState)
    requires !RunAll(c, s, ms, clock).1.success
    ensures var res := RunAll(c, s, ms, clock).1;
      var k := res.counts.attempted - 1;
      0 <= k < |ms| && res.exception.Some?
      && RunFrom(c, s, ms[..k], clock, 0, NoCounts).stop.None?
      && before == RunFrom(c, s, ms[..k], clock, 0, NoCounts).state
      && Migrate(c, before, ms[k], clock(k)).1 == Failure(res.exception.value)
  {
    var p := RunFrom(c, s, ms, clock, 0, NoCounts);
    assert CountsAgree(p, ms) by {
      RunFromCounts(c, s, ms, clock, 0, NoCounts);
    }
    FinishOutcome(p, ms);
    var res := RunAll(c, s, ms, clock).1;
    assert res == Finish(p, ms).1;
    assert p.stop.Some? && res.counts == p.counts;
    var k := p.stop.value.index;
    assert p.counts.attempted == k + 1;
    before := RunFromStopsAtFailure(c, s, ms, clock, 0, NoCounts);
  }

  /**
   * As written, a successful run commits a pending transaction, in preview
   * as well: it ends with the rows its loop produced.
   */
  lemma SuccessKeepsLoopRows(c: Config, s: DbState, ms: seq<Migration>, clock: nat -> Stamp)
    ensures var (r, res, _) := RunAll(c, s, ms, clock);
      res.success ==> !r.pending && r.rows == RunFrom(c, s, ms, clock, 0, NoCounts).state.rows
  {
  }

  /**
   * A one-file preview run that the server accepts keeps the record it
   * inserted: the rows it ends with differ from those it started with.
   */
  lemma PreviewKeepsRecordWitness()
    ensures var m := Migration("a.sql", None, "h1", ["select 1"], true, false);
      var c := Config(true, true, false, true, map[], map[], (_: Migration, _: map<string, MigrationRow>, _: map<string, MigrationRow>) => Run);
      var s := Opened(true, [], {});
      var (r, res, _) := RunAll(c, s, [m], (_: nat) => Stamp(0, 0));
      ValidConfig(c) && res.success && s.rows == [] && r.rows == [MigrationRow("a.sql", "h1", 0, 0)]
  {
    var m := Migration("a.sql", None, "h1", ["select 1"], true, false);
    var c := Config(true, true, false, true, map[], map[], (_: Migration, _: map<string, MigrationRow>, _: map<string, MigrationRow>) => Run);
    var s := Opened(true, [], {});
    var clock := (_: nat) => Stamp(0, 0);
    assert ModeOf(c, m) == Run;
    var s1 := BeginMigration(s, true);
    assert ExecuteAll(s1, ["select 1"]).0 == s1.(executed := ["select 1"]);
    assert !HasFilename([], "a.sql") && !HasHash([], "h1");
  }

  // --- A failed run in one global transaction leaves no bookkeeping change ---

  /** Either no transaction is pending and the rows are the original ones, or the pending one began on them. */
  predicate Undoable(rows0: seq<MigrationRow>, s: DbState)
  {
    if s.pending then s.rowsAtBegin == rows0 else s.rows == rows0
  }

  lemma MigrateKeepsUndoable(c: Config, s: DbState, m: Migration, stamp: Stamp, rows0: seq<MigrationRow>)
    requires c.useGlobalTransaction && (m.useTransaction || c.isPreview) && Undoable(rows0, s)
    ensures Undoable(rows0, Migrate(c, s, m, stamp).0)
  {
    var mode := ModeOf(c, m);
    if mode == Run || (mode == HashMismatch && c.force) {
      var s1 := BeginMigration(s, m.useTransaction);
      ExecuteAllKeepsRows(s1, m.sqlCommands);
    }
  }

  lemma {:induction false} RunFromKeepsUndoable(c: Config, s: DbState, ms: seq<Migration>, clock: nat -> Stamp, i: nat, counts: Counts, rows0: seq<MigrationRow>)
    requires i <= |ms| && c.useGlobalTransaction && Undoable(rows0, s)
    requires c.isPreview || forall k :: i <= k < |ms| ==> ms[k].useTransaction
    ensures Undoable(rows0, RunFrom(c, s, ms, clock, i, counts).state)
    decreases |ms| - i
  {
    if i < |ms| {
      MigrateKeepsUndoable(c, s, ms[i], clock(i), rows0);
      var attempted := counts.(attempted := counts.attempted + 1);
      var (s1, r) := Migrate(c, s, ms[i], clock(i));
      if r.Success? {
        RunFromKeepsUndoable(c, s1, ms, clock, i + 1, Tally(attempted, r.value), rows0);
      }
    }
  }

  /**
   * In global-transaction mode, when every file uses a transaction, a failed
   * run rolls back every bookkeeping change it made.
   */
  lemma GlobalFailureRestoresRows(c: Config, s: DbState, ms: seq<Migration>, clock: nat -> Stamp)
    requires c.useGlobalTransaction && !s.pending
    requires forall k :: 0 <= k < |ms| ==> ms[k].useTransaction
    ensures var (r, res, _) := RunAll(c, s, ms, clock);
      !res.success ==> r.rows == s.rows
  {
    RunFromKeepsUndoable(c, s, ms, clock, 0, NoCounts, s.rows);
  }

  /**
   * A failed preview run leaves the bookkeeping rows as they were, whatever
   * its files: preview skips every file without a transaction except a
   * rename, and a rename always opens one.
   */
  lemma PreviewFailureRestoresRows(c: Config, s: DbState, ms: seq<Migration>, clock: nat -> Stamp)
    requires c.isPreview && c.useGlobalTransaction && !s.pending
    ensures var (r, res, _) := RunAll(c, s, ms, clock);
      !res.success ==> r.rows == s.rows
  {
    RunFromKeepsUndoable(c, s, ms, clock, 0, NoCounts, s.rows);
  }

  // --- Consistency ---

  lemma {:induction false} ExecuteAllKeepsConsistent(s: DbState, commands: seq<string>)
    requires Consistent(s)
    ensures Consistent(ExecuteAll(s, commands).0)
    decreases |commands|
  {
    ExecuteAllKeepsRows(s, commands);
  }

  lemma RecordKeepsConsistent(s: DbState, mode: MigrateMode, row: MigrationRow)
    requires Consistent(s)
    ensures Consistent((if mode == Run then Insert(s, row) else UpdateHash(s, row)).0)
  {
    TransitionsKeepConsistent(s, "", row, "", "");
  }

  lemma EndMigrationKeepsConsistent(c: Config, s: DbState, m: Migration)
    requires Consistent(s)
    ensures Consistent(EndMigration(c, s, m))
  {
    TransitionsKeepConsistent(s, "", MigrationRow("", "", 0, 0), "", "");
  }

  lemma RunMigrationCommandsKeepsConsistent(c: Config, s: DbState, m: Migration, mode: MigrateMode, stamp: Stamp)
    requires Consistent(s)
    ensures Consistent(RunMigrationCommands(c, s, m, mode, stamp).0)
  {
    var row := RecordRow(m, stamp);
    var s1 := BeginMigration(s, m.useTransaction);
    assert Consistent(s1) by { TransitionsKeepConsistent(s, "", row, "", ""); }
    var s2 := ExecuteAll(s1, m.sqlCommands).0;
    assert Consistent(s2) by { ExecuteAllKeepsConsistent(s1, m.sqlCommands); }
    var s3 := (if mode == Run then Insert(s2, row) else UpdateHash(s2, row)).0;
    assert Consistent(s3) by { RecordKeepsConsistent(s2, mode, row); }
    EndMigrationKeepsConsistent(c, s2, m);
    EndMigrationKeepsConsistent(c, s3, m);
  }

  lemma RenameMigrationKeepsConsistent(c: Config, s: DbState, m: Migration)
    requires Consistent(s)
    ensures Consistent(RenameMigration(c, s, m).0)
  {
    var row := MigrationRow("", "", 0, 0);
    TransitionsKeepConsistent(s, "", row, m.fileName, m.hash);
    var t1 := BeginMigration(s, true);
    TransitionsKeepConsistent(t1, "", row, m.fileName, m.hash);
    TransitionsKeepConsistent(Persistence.Rename(t1, m.fileName, m.hash).0, "", row, "", "");
  }

  lemma MigrateKeepsConsistent(c: Config, s: DbState, m: Migration, stamp: Stamp)
    requires Consistent(s)
    ensures Consistent(Migrate(c, s, m, stamp).0)
  {
    RunMigrationCommandsKeepsConsistent(c, s, m, ModeOf(c, m), stamp);
    RenameMigrationKeepsConsistent(c, s, m);
  }

  lemma {:induction false} RunFromKeepsConsistent(c: Config, s: DbState, ms: seq<Migration>, clock: nat -> Stamp, i: nat, counts: Counts)
    requires i <= |ms| && Consistent(s)
    ensures Consistent(RunFrom(c, s, ms, clock, i, counts).state)
    decreases |ms| - i
  {
    if i < |ms| {
      MigrateKeepsConsistent(c, s, ms[i], clock(i));
      var attempted := counts.(attempted := counts.attempted + 1);
      var (s1, r) := Migrate(c, s, ms[i], clock(i));
      if r.Success? {
        RunFromKeepsConsistent(c, s1, ms, clock, i + 1, Tally(attempted, r.value));
      }
    }
  }

  /** A run keeps the table's uniqueness constraints and leaves no stray transaction state. */
  lemma RunAllKeepsConsistent(c: Config, s: DbState, ms: seq<Migration>, clock: nat -> Stamp)
    requires Consistent(s)
    ensures Consistent(RunAll(c, s, ms, clock).0)
  {
    var p := RunFrom(c, s, ms, clock, 0, NoCounts);
    RunFromKeepsConsistent(c, s, ms, clock, 0, NoCounts);
    TransitionsKeepConsistent(p.state, "", MigrationRow("", "", 0, 0), "", "");
  }

  // --- Outstanding files ---

  /** Nothing is outstanding exactly when every file is planned as Skip. */
  lemma {:induction false} NoneOutstandingIffAllSkip(c: Config, ms: seq<Migration>)
    ensures CountOutstanding(c, ms) <= |ms|
    ensures CountOutstanding(c, ms) == 0 <==> forall k :: 0 <= k < |ms| ==> ModeOf(c, ms[k]) == Skip
    decreases |ms|
  {
    if |ms| > 0 {
      var front := ms[..|ms| - 1];
      NoneOutstandingIffAllSkip(c, front);
      if CountOutstanding(c, ms) == 0 {
        forall k | 0 <= k < |ms| ensures ModeOf(c, ms[k]) == Skip {
          if k < |ms| - 1 { assert ms[k] == front[k]; }
        }
      } else if CountOutstanding(c, front) > 0 {
        var k :| 0 <= k < |front| && ModeOf(c, front[k]) != Skip;
        assert ms[k] == front[k];
      }
    }
  }

  lemma {:induction false} AllSkipRunsNothing(c: Config, s: DbState, ms: seq<Migration>, clock: nat -> Stamp, i: nat, counts: Counts)
    requires i <= |ms|
    requires forall k :: i <= k < |ms| ==> ModeOf(c, ms[k]) == Skip
    ensures var p := RunFrom(c, s, ms, clock, i, counts);
      p.state == s && p.stop == None && p.counts.skipped == counts.skipped + (|ms| - i)
    decreases |ms| - i
  {
    if i < |ms| {
      var attempted := counts.(attempted := counts.attempted + 1);
      AllSkipRunsNothing(c, s, ms, clock, i + 1, Tally(attempted, Skip));
    }
  }

  /** When no file is outstanding, a run succeeds, counts every file as skipped and leaves the database as it was. */
  lemma NothingOutstandingRunsNothing(c: Config, s: DbState, ms: seq<Migration>, clock: nat -> Stamp)
    requires CountOutstanding(c, ms) == 0 && !s.pending
    ensures var (r, res, _) := RunAll(c, s, ms, clock);
      r == s && res.success && res.counts.skipped == |ms|
  {
    NoneOutstandingIffAllSkip(c, ms);
    AllSkipRunsNothing(c, s, ms, clock, 0, NoCounts);
  }
}

=== FILE: persistence.dfy ===
/**
 * The database as the migrator sees it: whether the bookkeeping table
 * exists, whether a transaction is pending, the files run inside that
 * transaction, the bookkeeping rows, and the SQL batches sent so far.
 * Each operation of the connection is a pure transition here; the
 * `Connection` class holds the same state in fields and its methods are
 * proved to perform these transitions.
 */
module Persistence {
  import opened Wrappers
  import opened Types

  /**
   * What the database refuses: a batch it cannot run, a uniqueness
   * violation, a missing table, or a bookkeeping update that did not affect
   * exactly one row.
   */
  datatype DbError =
    | BatchFailed(sql: string)
    | DuplicateFilename(filename: string)
    | DuplicateHash(hash: string)
    | MissingTable
    | RowsAffected(count: nat)

  /**
   * The state of one connection. `failing` is the set of batches the server
   * rejects; it never changes. `rowsAtBegin` is the bookkeeping content when
   * the pending transaction began, which a rollback restores.
   */
  datatype DbState = DbState(
    tableExists: bool,
    pending: bool,
    filesInTransaction: seq<string>,
    rows: seq<MigrationRow>,
    rowsAtBegin: seq<MigrationRow>,
    executed: seq<string>,
    failing: set<string>)

  /** The invariants every reachable state keeps. */
  predicate Consistent(s: DbState)
  {
    UniqueRows(s.rows) && UniqueRows(s.rowsAtBegin)
    && (!s.pending ==> s.filesInTransaction == [])
    && (!s.tableExists ==> s.rows == [] && s.rowsAtBegin == [])
  }

  /** A freshly opened connection: no transaction, nothing executed yet. */
  function Opened(tableExists: bool, rows: seq<MigrationRow>, failing: set<string>): (s: DbState)
    requires !tableExists ==> rows == []
    requires UniqueRows(rows)
    ensures Consistent(s) && !s.pending && s.executed == []
  {
    DbState(tableExists, false, [], rows, rows, [], failing)
  }

  function HasFilename(rows: seq<MigrationRow>, filename: string): bool
  {
    exists i :: 0 <= i < |rows| && rows[i].filename == filename
  }

  function HasHash(rows: seq<MigrationRow>, hash: string): bool
  {
    exists i :: 0 <= i < |rows| && rows[i].hash == hash
  }

  /** The number of rows with the given file name. */
  function FilenameCount(rows: seq<MigrationRow>, filename: string): (n: nat)
    ensures n <= |rows|
    ensures n == 0 <==> !HasFilename(rows, filename)
  {
    if |rows| == 0 then 0
    else
      assert HasFilename(rows, filename) <==> rows[0].filename == filename || HasFilename(rows[1..], filename) by {
        if HasFilename(rows, filename) {
          var i :| 0 <= i < |rows| && rows[i].filename == filename;
          if i > 0 { assert rows[1..][i - 1] == rows[i]; }
        }
        if HasFilename(rows[1..], filename) {
          var i :| 0 <= i < |rows[1..]| && rows[1..][i].filename == filename;
          assert rows[i + 1] == rows[1..][i];
        }
      }
      (if rows[0].filename == filename then 1 else 0) + FilenameCount(rows[1..], filename)
  }

  /** The number of rows with the given hash. */
  function HashCount(rows: seq<MigrationRow>, hash: string): (n: nat)
    ensures n <= |rows|
    ensures n == 0 <==> !HasHash(rows, hash)
  {
    if |rows| == 0 then 0
    else
      assert HasHash(rows, hash) <==> rows[0].hash == hash || HasHash(rows[1..], hash) by {
        if HasHash(rows, hash) {
          var i :| 0 <= i < |rows| && rows[i].hash == hash;
          if i > 0 { assert rows[1..][i - 1] == rows[i]; }
        }
        if HasHash(rows[1..], hash) {
          var i :| 0 <= i < |rows[1..]| && rows[1..][i].hash == hash;
          assert rows[i + 1] == rows[1..][i];
        }
      }
      (if rows[0].hash == hash then 1 else 0) + HashCount(rows[1..], hash)
  }

  /** Another row than the one with this file name already holds the hash. */
  predicate HashTakenByOther(rows: seq<MigrationRow>, filename: string, hash: string)
  {
    exists i :: 0 <= i < |rows| && rows[i].hash == hash && rows[i].filename != filename
  }

  /** Another row than the one with this hash already holds the file name. */
  predicate FilenameTakenByOther(rows: seq<MigrationRow>, filename: string, hash: string)
  {
    exists i :: 0 <= i < |rows| && rows[i].filename == filename && rows[i].hash != hash
  }

  /**
   * In a table whose file names and hashes are unique, a key matches at most
   * one row, so an update by that key affects exactly one row precisely when
   * the key is present.
   */
  lemma {:induction false} UniqueRowsMatchOnce(rows: seq<MigrationRow>, filename: string, hash: string)
    requires UniqueRows(rows)
    ensures FilenameCount(rows, filename) <= 1 && HashCount(rows, hash) <= 1
    ensures FilenameCount(rows, filename) == 1 <==> HasFilename(rows, filename)
    ensures HashCount(rows, hash) == 1 <==> HasHash(rows, hash)
    decreases |rows|
  {
    if |rows| > 0 {
      var tail := rows[1..];
      assert UniqueRows(tail) by {
        forall i, j | 0 <= i < j < |tail| ensures tail[i].filename != tail[j].filename && tail[i].hash != tail[j].hash {
          assert tail[i] == rows[i + 1] && tail[j] == rows[j + 1];
        }
      }
      UniqueRowsMatchOnce(tail, filename, hash);
      if rows[0].filename == filename {
        assert !HasFilename(tail, filename) by {
          forall i | 0 <= i < |tail| ensures tail[i].filename != filename {
            assert tail[i] == rows[i + 1];
          }
        }
      }
      if rows[0].hash == hash {
        assert !HasHash(tail, hash) by {
          forall i | 0 <= i < |tail| ensures tail[i].hash != hash {
            assert tail[i] == rows[i + 1];
          }
        }
      }
    }
  }

  // ---------------------------------------------------------------------------
  // Transitions
  // ---------------------------------------------------------------------------

  /** Starts a transaction, remembering the bookkeeping content. */
  function BeginTx(s: DbState): (r: DbState)
    ensures r.pending && r.rows == s.rows && r.rowsAtBegin == s.rows
    ensures r.filesInTransaction == [] && r.executed == s.executed && r.tableExists == s.tableExists
  {
    s.(pending := true, rowsAtBegin := s.rows, filesInTransaction := [])
  }

  /** Commits: the changes stay, the transaction and its file list end. */
  function CommitTx(s: DbState): (r: DbState)
    ensures !r.pending && r.filesInTransaction == [] && r.rows == s.rows && r.executed == s.executed
  {
    s.(pending := false, filesInTransaction := [], rowsAtBegin := s.rows)
  }

  /** Rolls back: the bookkeeping content returns to what it was when the transaction began. */
  function RollbackTx(s: DbState): (r: DbState)
    ensures !r.pending && r.filesInTransaction == [] && r.rows == s.rowsAtBegin && r.executed == s.executed
  {
    s.(pending := false, filesInTransaction := [], rows := s.rowsAtBegin)
  }

  /** Creates the bookkeeping table. */
  function CreateTable(s: DbState): (r: DbState)
    ensures r.tableExists && r.rows == s.rows && r.pending == s.pending
  {
    s.(tableExists := true)
  }

  /**
   * Sends one batch; the server either runs it or rejects it. A batch's own
   * effects are not modelled: it is only logged, it leaves the bookkeeping rows
   * and the transaction alone, and whether it is rejected depends on its text
   * alone, through the fixed set `failing`.
   */
  function Execute(s: DbState, sql: string): (r: (DbState, Outcome<DbError>))
    ensures r.1.Fail? <==> sql in s.failing
    ensures r.1.Pass? ==> r.0 == s.(executed := s.executed + [sql])
    ensures r.1.Fail? ==> r.0 == s
  {
    if sql in s.failing then (s, Fail(BatchFailed(sql)))
    else (s.(executed := s.executed + [sql]), Pass)
  }

  /** `insert` of a new bookkeeping row, refused when its file name or hash is taken. */
  function Insert(s: DbState, row: MigrationRow): (r: (DbState, Outcome<DbError>))
    ensures r.1.Pass? <==> s.tableExists && !HasFilename(s.rows, row.filename) && !HasHash(s.rows, row.hash)
    ensures r.1.Pass? ==> r.0 == s.(rows := s.rows + [row])
    ensures r.1.Fail? ==> r.0 == s
  {
    if !s.tableExists then (s, Fail(MissingTable))
    else if HasFilename(s.rows, row.filename) then (s, Fail(DuplicateFilename(row.filename)))
    else if HasHash(s.rows, row.hash) then (s, Fail(DuplicateHash(row.hash)))
    else (s.(rows := s.rows + [row]), Pass)
  }

  /** The rows with the given file name take a new hash, date and duration. */
  function SetHashWhereFilename(rows: seq<MigrationRow>, row: MigrationRow): (r: seq<MigrationRow>)
    ensures |r| == |rows|
    ensures forall i :: 0 <= i < |rows| ==>
      r[i] == (if rows[i].filename == row.filename then rows[i].(hash := row.hash, executionDate := row.executionDate, duration := row.duration) else rows[i])
  {
    if |rows| == 0 then []
    else
      var head := if rows[0].filename == row.filename
        then rows[0].(hash := row.hash, executionDate := row.executionDate, duration := row.duration)
        else rows[0];
      [head] + SetHashWhereFilename(rows[1..], row)
  }

  /** The rows with the given hash take a new file name. */
  function SetFilenameWhereHash(rows: seq<MigrationRow>, filename: string, hash: string): (r: seq<MigrationRow>)
    ensures |r| == |rows|
    ensures forall i :: 0 <= i < |rows| ==> r[i] == (if rows[i].hash == hash then rows[i].(filename := filename) else rows[i])
  {
    if |rows| == 0 then []
    else
      var head := if rows[0].hash == hash then rows[0].(filename := filename) else rows[0];
      [head] + SetFilenameWhereHash(rows[1..], filename, hash)
  }

  /**
   * `update ... set Hash, ExecutionDate, Duration where Filename`: refused
   * unless it affects exactly one row, and refused when another row already
   * has the new hash.
   */
  function UpdateHash(s: DbState, row: MigrationRow): (r: (DbState, Outcome<DbError>))
    ensures r.1.Pass? <==> s.tableExists && FilenameCount(s.rows, row.filename) == 1
                           && !HashTakenByOther(s.rows, row.filename, row.hash)
    ensures s.tableExists && FilenameCount(s.rows, row.filename) != 1 ==>
      r.1 == Fail(RowsAffected(FilenameCount(s.rows, row.filename)))
    ensures r.1.Fail? ==> r.0 == s
    ensures r.1.Pass? ==> r.0 == s.(rows := SetHashWhereFilename(s.rows, row))
  {
    if !s.tableExists then (s, Fail(MissingTable))
    else if FilenameCount(s.rows, row.filename) != 1 then (s, Fail(RowsAffected(FilenameCount(s.rows, row.filename))))
    else if HashTakenByOther(s.rows, row.filename, row.hash) then (s, Fail(DuplicateHash(row.hash)))
    else (s.(rows := SetHashWhereFilename(s.rows, row)), Pass)
  }

  /**
   * `update ... set Filename where Hash`: refused unless it affects exactly
   * one row, and refused when another row already has the new file name.
   */
  function Rename(s: DbState, filename: string, hash: string): (r: (DbState, Outcome<DbError>))
    ensures r.1.Pass? <==> s.tableExists && HashCount(s.rows, hash) == 1
                           && !FilenameTakenByOther(s.rows, filename, hash)
    ensures s.tableExists && HashCount(s.rows, hash) != 1 ==>
      r.1 == Fail(RowsAffected(HashCount(s.rows, hash)))
    ensures r.1.Fail? ==> r.0 == s
    ensures r.1.Pass? ==> r.0 == s.(rows := SetFilenameWhereHash(s.rows, filename, hash))
  {
    if !s.tableExists then (s, Fail(MissingTable))
    else if HashCount(s.rows, hash) != 1 then (s, Fail(RowsAffected(HashCount(s.rows, hash))))
    else if FilenameTakenByOther(s.rows, filename, hash) then (s, Fail(DuplicateFilename(filename)))
    else (s.(rows := SetFilenameWhereHash(s.rows, filename, hash)), Pass)
  }

  // ---------------------------------------------------------------------------
  // The transitions keep the invariants
  // ---------------------------------------------------------------------------

  lemma InsertKeepsUnique(rows: seq<MigrationRow>, row: MigrationRow)
    requires UniqueRows(rows) && !HasFilename(rows, row.filename) && !HasHash(rows, row.hash)
    ensures UniqueRows(rows + [row])
  {
    var r := rows + [row];
    forall i, j | 0 <= i < j < |r| ensures r[i].filename != r[j].filename && r[i].hash != r[j].hash {
      if j == |rows| {
        assert r[i] == rows[i];
      } else {
        assert r[i] == rows[i] && r[j] == rows[j];
      }
    }
  }

  lemma UpdateHashKeepsUnique(rows: seq<MigrationRow>, row: MigrationRow)
    requires UniqueRows(rows)
    requires !exists i :: 0 <= i < |rows| && rows[i].hash == row.hash && rows[i].filename != row.filename
    ensures UniqueRows(SetHashWhereFilename(rows, row))
  {
    var r := SetHashWhereFilename(rows, row);
    forall i, j | 0 <= i < j < |r| ensures r[i].filename != r[j].filename && r[i].hash != r[j].hash {
      assert r[i].filename == rows[i].filename && r[j].filename == rows[j].filename;
      if rows[i].filename == row.filename {
        assert rows[j].filename != row.filename;
        assert rows[j].hash != row.hash;
      } else if rows[j].filename == row.filename {
        assert rows[i].hash != row.hash;
      }
    }
  }

  lemma RenameKeepsUnique(rows: seq<MigrationRow>, filename: string, hash: string)
    requires UniqueRows(rows)
    requires !exists i :: 0 <= i < |rows| && rows[i].filename == filename && rows[i].hash != hash
    ensures UniqueRows(SetFilenameWhereHash(rows, filename, hash))
  {
    var r := SetFilenameWhereHash(rows, filename, hash);
    forall i, j | 0 <= i < j < |r| ensures r[i].filename != r[j].filename && r[i].hash != r[j].hash {
      assert r[i].hash == rows[i].hash && r[j].hash == rows[j].hash;
      if rows[i].hash == hash {
        assert rows[j].hash != hash;
        assert rows[j].filename != filename;
      } else if rows[j].hash == hash {
        assert rows[i].filename != filename;
      }
    }
  }

  /** Every transition of the connection keeps the state consistent. */
  lemma TransitionsKeepConsistent(s: DbState, sql: string, row: MigrationRow, filename: string, hash: string)
    requires Consistent(s)
    ensures Consistent(BeginTx(s)) && Consistent(CommitTx(s)) && Consistent(RollbackTx(s))
    ensures Consistent(CreateTable(s))
    ensures Consistent(Execute(s, sql).0)
    ensures Consistent(Insert(s, row).0)
    ensures Consistent(UpdateHash(s, row).0)
    ensures Consistent(Rename(s, filename, hash).0)
  {
    if Insert(s, row).1.Pass? {
      InsertKeepsUnique(s.rows, row);
    }
    if UpdateHash(s, row).1.Pass? {
      UpdateHashKeepsUnique(s.rows, row);
    }
    if Rename(s, filename, hash).1.Pass? {
      RenameKeepsUnique(s.rows, filename, hash);
    }
  }

  /** A rollback undoes every bookkeeping change made since the transaction began. */
  lemma RollbackUndoesInsert(s: DbState, row: MigrationRow)
    requires Consistent(s) && !s.pending && s.tableExists
    ensures RollbackTx(Insert(BeginTx(s), row).0).rows == s.rows
  {
  }

  // ---------------------------------------------------------------------------
  // The connection object
  // ---------------------------------------------------------------------------

  /** An open connection; its methods change its state in place. */
  class Connection {
    var tableExists: bool
    var hasPendingTransaction: bool
    var filesInCurrentTransaction: seq<string>
    var rows: seq<MigrationRow>
    var rowsAtBegin: seq<MigrationRow>
    var executed: seq<string>
    const failing: set<string>

    /** The state as a value. */
    function State(): DbState
      reads this
    {
      DbState(tableExists, hasPendingTransaction, filesInCurrentTransaction, rows, rowsAtBegin, executed, failing)
    }

    /** Opens a connection to a database with the given table, rows and rejected batches. */
    constructor (tableExists: bool, rows: seq<MigrationRow>, failing: set<string>)
      requires !tableExists ==> rows == []
      requires UniqueRows(rows)
      ensures State() == Opened(tableExists, rows, failing)
    {
      this.tableExists := tableExists;
      this.hasPendingTransaction := false;
      this.filesInCurrentTransaction := [];
      this.rows := rows;
      this.rowsAtBegin := rows;
      this.executed := [];
      this.failing := failing;
    }

    method MigrationTableExists() returns (b: bool)
      ensures b == tableExists
    {
      b := tableExists;
    }

    method CreateMigrationsTable()
      modifies this
      ensures State() == CreateTable(old(State()))
    {
      tableExists := true;
    }

    method BeginTransaction()
      modifies this
      ensures State() == BeginTx(old(State()))
    {
      hasPendingTransaction := true;
      rowsAtBegin := rows;
      filesInCurrentTransaction := [];
    }

    method Commit()
      modifies this
      ensures State() == CommitTx(old(State()))
    {
      hasPendingTransaction := false;
      filesInCurrentTransaction := [];
      rowsAtBegin := rows;
    }

    method Rollback()
      modifies this
      ensures State() == RollbackTx(old(State()))
    {
      hasPendingTransaction := false;
      filesInCurrentTransaction := [];
      rows := rowsAtBegin;
    }

    method ExecuteCommand(sql: string) returns (outcome: Outcome<DbError>)
      modifies this
      ensures (State(), outcome) == Execute(old(State()), sql)
    {
      if sql in failing {
        return Fail(BatchFailed(sql));
      }
      executed := executed + [sql];
      outcome := Pass;
    }

    method InsertMigrationRecord(row: MigrationRow) returns (outcome: Outcome<DbError>)
      modifies this
      ensures (State(), outcome) == Insert(old(State()), row)
    {
      if !tableExists {
        return Fail(MissingTable);
      }
      if HasFilename(rows, row.filename) {
        return Fail(DuplicateFilename(row.filename));
      }
      if HasHash(rows, row.hash) {
        return Fail(DuplicateHash(row.hash));
      }
      rows := rows + [row];
      outcome := Pass;
    }

    method UpdateMigrationRecordHash(row: MigrationRow) returns (outcome: Outcome<DbError>)
      modifies this
      ensures (State(), outcome) == UpdateHash(old(State()), row)
    {
      if !tableExists {
        return Fail(MissingTable);
      }
      var matched := FilenameCount(rows, row.filename);
      if matched != 1 {
        return Fail(RowsAffected(matched));
      }
      if HashTakenByOther(rows, row.filename, row.hash) {
        return Fail(DuplicateHash(row.hash));
      }
      rows := SetHashWhereFilename(rows, row);
      outcome := Pass;
    }

    method RenameMigration(filename: string, hash: string) returns (outcome: Outcome<DbError>)
      modifies this
      ensures (State(), outcome) == Rename(old(State()), filename, hash)
    {
      if !tableExists {
        return Fail(MissingTable);
      }
      var matched := HashCount(rows, hash);
      if matched != 1 {
        return Fail(RowsAffected(matched));
      }
      if FilenameTakenByOther(rows, filename, hash) {
        return Fail(DuplicateFilename(filename));
      }
      rows := SetFilenameWhereHash(rows, filename, hash);
      outcome := Pass;
    }
  }
}

=== FILE: text.dfy ===
/**
 * The string operations of the .NET base library that the components rely
 * on: white-space classification, `Trim`, `StartsWith`, the null-or-empty
 * tests, and splitting a text into its '\n'-separated lines.
 */
module Text {
  import opened Wrappers

  /**
   * `char.IsWhiteSpace`, which is also the class `\s` of .NET regular
   * expressions: the separators (Zs, Zl, Zp), U+0009..U+000D and U+0085.
   */
  predicate IsWhiteSpace(c: char)
  {
    ('\t' <= c <= '\r') || c == ' ' || c == '\U{85}' || c == '\U{A0}' || c == '\U{1680}'
    || ('\U{2000}' <= c <= '\U{200A}') || c == '\U{2028}' || c == '\U{2029}'
    || c == '\U{202F}' || c == '\U{205F}' || c == '\U{3000}'
  }

  /** Every character of `s` is white space (true of the empty string). */
  predicate IsBlank(s: string)
  {
    forall i :: 0 <= i < |s| ==> IsWhiteSpace(s[i])
  }

  /** `String.TrimStart()`: drops the leading white space. */
  function TrimStart(s: string): (r: string)
  {
    if |s| > 0 && IsWhiteSpace(s[0]) then TrimStart(s[1..]) else s
  }

  /** `TrimStart` removes a blank prefix and leaves a text that does not start with white space. */
  lemma {:induction false} TrimStartShape(s: string)
    ensures var r := TrimStart(s);
      |r| <= |s| && r == s[|s| - |r|..] && IsBlank(s[..|s| - |r|]) && (r == [] || !IsWhiteSpace(r[0]))
    decreases |s|
  {
    if |s| > 0 && IsWhiteSpace(s[0]) {
      TrimStartShape(s[1..]);
      var r := TrimStart(s);
      assert s[1..][|s| - 1 - |r|..] == s[|s| - |r|..];
      assert s[..|s| - |r|] == [s[0]] + s[1..][..|s| - 1 - |r|];
    }
  }

  /** `String.TrimEnd()`: drops the trailing white space. */
  function TrimEnd(s: string): (r: string)
  {
    if |s| > 0 && IsWhiteSpace(s[|s| - 1]) then TrimEnd(s[..|s| - 1]) else s
  }

  /** `TrimEnd` removes a blank suffix and leaves a text that does not end with white space. */
  lemma {:induction false} TrimEndShape(s: string)
    ensures var r := TrimEnd(s);
      |r| <= |s| && r == s[..|r|] && IsBlank(s[|r|..]) && (r == [] || !IsWhiteSpace(r[|r| - 1]))
    decreases |s|
  {
    if |s| > 0 && IsWhiteSpace(s[|s| - 1]) {
      TrimEndShape(s[..|s| - 1]);
      var r := TrimEnd(s);
      assert s[..|s| - 1][..|r|] == s[..|r|];
      assert forall i :: 0 <= i < |s| - 1 - |r| ==> s[|r|..][i] == s[..|s| - 1][|r|..][i];
    }
  }

  /** `String.Trim()`: drops the white space at both ends. */
  function Trim(s: string): (r: string)
  {
    TrimEnd(TrimStart(s))
  }

  /** A trimmed text is empty exactly when the text is blank. */
  lemma TrimEmptyIffBlank(s: string)
    ensures Trim(s) == [] <==> IsBlank(s)
  {
    var t := TrimStart(s);
    TrimStartShape(s);
    TrimEndShape(t);
    assert s == s[..|s| - |t|] + t;
    if IsBlank(s) {
      assert IsBlank(t);
      assert t == [];
    }
    if Trim(s) == [] {
      assert IsBlank(t) by { assert t[|Trim(s)|..] == t; }
      assert t == [];
      assert s == s[..|s| - |t|];
    }
  }

  /** A trimmed text starts and ends with a character that is not white space. */
  lemma TrimmedEnds(s: string)
    ensures var r := Trim(s); r == [] || (!IsWhiteSpace(r[0]) && !IsWhiteSpace(r[|r| - 1]))
  {
    var t := TrimStart(s);
    var r := TrimEnd(t);
    TrimStartShape(s);
    TrimEndShape(t);
    if r != [] {
      assert r[0] == t[0];
    }
  }

  /** Trimming is idempotent. */
  lemma TrimIdempotent(s: string)
    ensures Trim(Trim(s)) == Trim(s)
  {
    var r := Trim(s);
    TrimmedEnds(s);
    TrimStartShape(r);
    TrimEndShape(r);
  }

  /** Leading blank text does not change `TrimStart`. */
  lemma {:induction false} TrimStartBlankPrefix(x: string, y: string)
    requires IsBlank(x)
    ensures TrimStart(x + y) == TrimStart(y)
    decreases |x|
  {
    if |x| > 0 {
      assert (x + y)[1..] == x[1..] + y;
      TrimStartBlankPrefix(x[1..], y);
    } else {
      assert x + y == y;
    }
  }

  /** After a character that is not white space, `TrimStart` keeps the rest as it is. */
  lemma {:induction false} TrimStartNonBlankPrefix(x: string, y: string)
    requires !IsBlank(x)
    ensures TrimStart(x + y) == TrimStart(x) + y
    decreases |x|
  {
    if IsWhiteSpace(x[0]) {
      assert (x + y)[1..] == x[1..] + y;
      TrimStartNonBlankPrefix(x[1..], y);
    }
  }

  /** Trailing blank text does not change `TrimEnd`. */
  lemma {:induction false} TrimEndBlankSuffix(x: string, y: string)
    requires IsBlank(y)
    ensures TrimEnd(x + y) == TrimEnd(x)
    decreases |y|
  {
    if |y| > 0 {
      assert (x + y)[..|x + y| - 1] == x + y[..|y| - 1];
      TrimEndBlankSuffix(x, y[..|y| - 1]);
    } else {
      assert x + y == x;
    }
  }

  /** Before a character that is not white space, `TrimEnd` keeps the front as it is. */
  lemma {:induction false} TrimEndNonBlankSuffix(x: string, y: string)
    requires !IsBlank(y)
    ensures TrimEnd(x + y) == x + TrimEnd(y)
    decreases |y|
  {
    if IsWhiteSpace(y[|y| - 1]) {
      assert (x + y)[..|x + y| - 1] == x + y[..|y| - 1];
      TrimEndNonBlankSuffix(x, y[..|y| - 1]);
    }
  }

  /** Trimming one side first does not change the fully trimmed text. */
  lemma TrimAfterTrimStart(s: string)
    ensures Trim(TrimStart(s)) == Trim(s)
  {
    if IsBlank(s) {
      TrimEmptyIffBlank(s);
      var t := TrimStart(s);
      TrimStartShape(s);
      assert IsBlank(t) by { assert t == s[|s| - |t|..]; }
      TrimEmptyIffBlank(t);
    } else {
      var a, b := TrimSplit(s);
      var m := Trim(s);
      TrimDecomposed(a, m, b);
      TrimDecomposed("", m, b);
      assert "" + m + b == m + b;
    }
  }

  /**
   * A text made of blank text, a core that begins and ends with a character
   * that is not white space, and blank text: trimming keeps exactly the core.
   */
  lemma TrimDecomposed(a: string, m: string, b: string)
    requires IsBlank(a) && IsBlank(b)
    requires m != [] && !IsWhiteSpace(m[0]) && !IsWhiteSpace(m[|m| - 1])
    ensures TrimStart(a + m + b) == m + b
    ensures TrimEnd(a + m + b) == a + m
    ensures Trim(a + m + b) == m
  {
    assert a + m + b == a + (m + b);
    TrimStartBlankPrefix(a, m + b);
    assert TrimStart(m + b) == m + b;
    TrimEndBlankSuffix(a + m, b);
    assert TrimEnd(a + m) == a + m;
    TrimEndBlankSuffix(m, b);
    assert TrimEnd(m) == m;
  }

  /** Every text that is not blank splits into blank text, its trimmed core and blank text. */
  lemma TrimSplit(s: string) returns (a: string, b: string)
    requires !IsBlank(s)
    ensures IsBlank(a) && IsBlank(b) && s == a + Trim(s) + b
    ensures Trim(s) != [] && !IsWhiteSpace(Trim(s)[0]) && !IsWhiteSpace(Trim(s)[|Trim(s)| - 1])
  {
    TrimEmptyIffBlank(s);
    TrimmedEnds(s);
    var t := TrimStart(s);
    var r := TrimEnd(t);
    TrimStartShape(s);
    TrimEndShape(t);
    a := s[..|s| - |t|];
    b := t[|r|..];
    assert t == r + b;
    assert s == a + t;
  }

  /** Trimming the end of a blank text leaves nothing. */
  lemma BlankTrimEnd(s: string)
    requires IsBlank(s)
    ensures TrimEnd(s) == []
  {
    TrimEndShape(s);
  }

  /** Trimming one side first does not change the fully trimmed text. */
  lemma TrimAfterTrimEnd(s: string)
    ensures Trim(TrimEnd(s)) == Trim(s)
  {
    if IsBlank(s) {
      BlankTrimEnd(s);
      TrimEmptyIffBlank(s);
      TrimEmptyIffBlank(TrimEnd(s));
    } else {
      var a, b := TrimSplit(s);
      TrimOfTrimEndDecomposed(a, Trim(s), b);
    }
  }

  /** Helper of TrimAfterTrimEnd for a text that is not blank. */
  lemma TrimOfTrimEndDecomposed(a: string, m: string, b: string)
    requires IsBlank(a) && IsBlank(b)
    requires m != [] && !IsWhiteSpace(m[0]) && !IsWhiteSpace(m[|m| - 1])
    ensures Trim(TrimEnd(a + m + b)) == m
  {
    TrimDecomposed(a, m, b);
    TrimDecomposed(a, m, []);
    assert a + m + [] == a + m;
  }

  /** `String.StartsWith`, taken as an ordinal comparison. */
  predicate StartsWith(s: string, prefix: string)
  {
    |prefix| <= |s| && s[..|prefix|] == prefix
  }

  /** `string.IsNullOrEmpty`. */
  predicate IsNullOrEmpty(s: Option<string>)
  {
    s.None? || s.value == []
  }

  /** `string.IsNullOrWhiteSpace`. */
  predicate IsNullOrWhiteSpace(s: Option<string>)
  {
    s.None? || IsBlank(s.value)
  }

  /** What C# string interpolation writes for a possibly-null string. */
  function Interpolated(s: Option<string>): string
  {
    s.GetOr("")
  }

  /** A text with no line feed in it. */
  predicate IsSingleLine(s: string)
  {
    forall i :: 0 <= i < |s| ==> s[i] != '\n'
  }

  /** Trimming a line at either end keeps it a single line. */
  lemma TrimStartSingleLine(s: string)
    requires IsSingleLine(s)
    ensures IsSingleLine(TrimStart(s))
  {
    TrimStartShape(s);
    var r := TrimStart(s);
    forall i | 0 <= i < |r| ensures r[i] != '\n' {
      assert r[i] == s[|s| - |r| + i];
    }
  }

  lemma TrimEndSingleLine(s: string)
    requires IsSingleLine(s)
    ensures IsSingleLine(TrimEnd(s))
  {
    TrimEndShape(s);
    var r := TrimEnd(s);
    forall i | 0 <= i < |r| ensures r[i] != '\n' {
      assert r[i] == s[i];
    }
  }

  /** The lines of `s`: the pieces between its '\n' characters (at least one). */
  function Lines(s: string): (r: seq<string>)
    ensures |r| >= 1
    ensures forall k :: 0 <= k < |r| ==> IsSingleLine(r[k])
  {
    if |s| == 0 then [""]
    else if s[0] == '\n' then [""] + Lines(s[1..])
    else
      var t := Lines(s[1..]);
      [[s[0]] + t[0]] + t[1..]
  }

  /** The lines joined back with '\n' between them. */
  function Join(ls: seq<string>): string
  {
    if |ls| == 0 then ""
    else if |ls| == 1 then ls[0]
    else ls[0] + "\n" + Join(ls[1..])
  }

  /** Splitting into lines and joining them again gives back the text. */
  lemma {:induction false} JoinLines(s: string)
    ensures Join(Lines(s)) == s
    decreases |s|
  {
    if |s| == 0 {
    } else if s[0] == '\n' {
      JoinLines(s[1..]);
      var t := Lines(s[1..]);
      assert Lines(s) == [""] + t;
      assert Lines(s)[1..] == t;
      assert Join(Lines(s)) == "" + "\n" + Join(t);
      assert s == "\n" + s[1..];
    } else {
      JoinLines(s[1..]);
      var t := Lines(s[1..]);
      if |t| == 1 {
        assert Join(Lines(s)) == [s[0]] + t[0];
      } else {
        assert Lines(s)[1..] == t[1..];
        assert Join(t) == t[0] + "\n" + Join(t[1..]);
        assert Join(Lines(s)) == ([s[0]] + t[0]) + "\n" + Join(t[1..]);
      }
      assert s == [s[0]] + s[1..];
    }
  }

  /** A single line followed by more text starts the first line of that text. */
  lemma {:induction false} LinesOfLinePrefix(l: string, rest: string)
    requires IsSingleLine(l)
    ensures Lines(l + rest) == [l + Lines(rest)[0]] + Lines(rest)[1..]
    decreases |l|
  {
    if |l| > 0 {
      assert (l + rest)[1..] == l[1..] + rest;
      assert l[0] != '\n';
      LinesOfLinePrefix(l[1..], rest);
      assert [l[0]] + (l[1..] + Lines(rest)[0]) == l + Lines(rest)[0];
    } else {
      var t := Lines(rest);
      assert l + rest == rest;
      assert l + t[0] == t[0];
      assert t == [t[0]] + t[1..];
    }
  }

  /** Joining single lines and splitting again gives back the same lines. */
  lemma {:induction false} LinesOfJoin(ls: seq<string>)
    requires |ls| >= 1
    requires forall k :: 0 <= k < |ls| ==> IsSingleLine(ls[k])
    ensures Lines(Join(ls)) == ls
    decreases |ls|
  {
    if |ls| == 1 {
      LinesOfLinePrefix(ls[0], "");
      assert ls[0] + "" == ls[0];
    } else {
      LinesOfJoin(ls[1..]);
      var rest := Join(ls[1..]);
      assert Lines("\n" + rest) == [""] + Lines(rest) by {
        assert ("\n" + rest)[1..] == rest;
      }
      assert Join(ls) == ls[0] + ("\n" + rest);
      LinesOfLinePrefix(ls[0], "\n" + rest);
      assert ls[0] + "" == ls[0];
      assert ls == [ls[0]] + ls[1..];
    }
  }

  /** `Join` splits off its last line too. */
  lemma {:induction false} JoinSnoc(ls: seq<string>)
    requires |ls| >= 2
    ensures Join(ls) == Join(ls[..|ls| - 1]) + "\n" + ls[|ls| - 1]
    decreases |ls|
  {
    if |ls| == 2 {
      assert ls[..1] == [ls[0]];
    } else {
      JoinSnoc(ls[1..]);
      assert ls[1..][..|ls| - 2] == ls[..|ls| - 1][1..];
      assert ls[..|ls| - 1][0] == ls[0];
    }
  }
}

=== FILE: types.dfy ===
/**
 * Plain records and enumerations shared by the components: the bookkeeping
 * row, the verbosity levels, the output formats and the database providers.
 */
module Types {
  import opened Wrappers

  /**
   * One row of the bookkeeping table. The auto-increment `Id` column is not
   * modelled; `executionDate` and `duration` are opaque numbers supplied by
   * the clock.
   */
  datatype MigrationRow = MigrationRow(filename: string, hash: string, executionDate: int, duration: int)

  /** The uniqueness constraints of the bookkeeping table on `Filename` and on `Hash`. */
  predicate UniqueRows(rows: seq<MigrationRow>)
  {
    forall i, j :: 0 <= i < j < |rows| ==> rows[i].filename != rows[j].filename && rows[i].hash != rows[j].hash
  }

  /** Logging verbosity levels, with their numeric values. */
  datatype Verbosity = Minimal | Normal | Detailed | Debug {
    function Value(): (n: int)
      ensures 5 <= n <= 20 && n % 5 == 0
    {
      match this
      case Minimal => 5
      case Normal => 10
      case Detailed => 15
      case Debug => 20
    }
  }

  /** Console output formats. */
  datatype OutputFormat = Plain | TeamCity

  /** Database products; only SQL Server is supported. */
  datatype DatabaseProvider = SqlServer | OtherProvider(name: string)

  /** The integrated-authentication connection string that every factory builds. */
  function IntegratedAuthConnectionString(database: string, server: string): string
  {
    "Persist Security Info=False;" + "Integrated Security=true;" + "Initial Catalog=" + database + ";server=" + server
  }

  /** Why a database description could not be built. */
  datatype FactoryError =
    | MissingDatabaseName
    | MissingServerName
    | MissingConnectionString
    | MalformedConnectionString
    | MissingInitialCatalog
    | MissingDataSource

  /** What the connection-string builder reads from a connection string; absent keys read as "". */
  datatype ConnectionStringParts = ConnectionStringParts(initialCatalog: string, dataSource: string)

  /** The connection-string builder: the parts it reads, or `None` when it refuses the string. */
  type ConnectionStringParser = string -> Option<ConnectionStringParts>

  /** The default name of the bookkeeping table. */
  const DefaultMigrationsTable: string := "Migrations"

  /** The verbosity levels are strictly ordered by their numeric values. */
  lemma VerbosityOrder()
    ensures Minimal.Value() < Normal.Value() < Detailed.Value() < Debug.Value()
    ensures Minimal.Value() == 5 && Normal.Value() == 10 && Detailed.Value() == 15 && Debug.Value() == 20
  {
  }
}

=== FILE: wrappers.dfy ===
/** Failure-carrying values used where the C# code returns null or throws. */
module Wrappers {

  /** A C# reference that may be null: `None` is null. */
  datatype Option<+T> = None | Some(value: T) {
    function GetOr(default: T): T {
      match this
      case Some(v) => v
      case None => default
    }
  }

  /** The value of an operation, or the exception it throws. */
  datatype Result<+R, +E> = Success(value: R) | Failure(error: E)

  /** Completion of a `void` operation, or the exception it throws. */
  datatype Outcome<+E> = Pass | Fail(error: E)
}
